=== FILE: README.md ===
# Video-conference core in Dafny

This project models the decision logic of a LiveKit-based video-conference
application that has a shared tldraw whiteboard. The model covers:

- **Whiteboard server.** This has three parts:
  - the room registry, keyed by room id, with its get-or-create operation and the two callbacks the document engine fires (data changed, session removed);
  - the periodic sweep, which persists dirty rooms and evicts closed ones;
  - the per-room snapshot files.
- **Whiteboard gateway.** The socket gateway validates the connection URL and closes a rejected socket with code 1008 or 1011. Close codes are as in section 7.4.1 of RFC 6455. It buffers early messages and replays them once the room is ready.
- **Recording server.** The recording registry is keyed by egress id. Its start is idempotent per room, its stop fails on an unknown id, and its status query reports the active recording of a room.
- **LiveKit configuration.**
  - Room clients and egress clients are created lazily.
  - A room is created only if it is absent.
  - Access tokens carry their grant.
  - An egress request is resolved from the caller's options and the environment.
- **Polls.** This covers the client's poll list (create, vote, end, and messages from other participants) and the poll panel. The panel includes the creation form, the launch guard, the vote guard and the percentage display.
- **Recording client.** The client-side recording state has guarded start and stop, a loading flag, and adoption of the server's state on mount.
- **Hand-raise notifications.** This is edge detection on participant metadata, with toast de-duplication, expiry and seeding.
- **Participant views.** This covers the participant grid and filmstrip (column count, mobile pagination, tile selection) and the round participant tiles (initials, video or placeholder, the raised-hand badge).
- **Meeting-room screen.** This covers the connect guard, the chat, settings and whiteboard toggles, the right-pane choice, the split sizes and the reaction packet filter.

Each module uses immutable datatypes and pure step functions. Each
asynchronous operation is one atomic step. Where an operation awaits a
request, the model splits it into a begin step and a finish step that is
given the reply. Inputs to the model stand in for everything outside the
application's own code:

- the file system, which becomes a map;
- I/O failures, which become booleans;
- the egress service's answers, which become parameters;
- the clock;
- `JSON.parse`, which becomes a function parameter;
- the viewport test.

Three behaviours of the code are kept as they are:

- A snapshot read error starts the room empty; the connection is not rejected with 1011.
- Both validation failures of a connection close the socket with 1008.
- The sweep runs from `setInterval`, so a tick does not wait for the previous tick's writes.

Modules: `Common` (Option, Result and JavaScript `||` / `??`), `Text`
(split, join, trim, `parseInt`, ASCII upper-casing), `SnapshotStore`,
`WhiteboardRooms`, `WhiteboardGateway`, `RecordingRegistry`,
`LivekitConfig`, `PollsState`, `PollsForm`, `RecordingClient`, `Tracks`,
`HandRaise`, `ParticipantLayout`, `ParticipantTiles`, `RoomView`.

## Model

| member | source | states |
|---|---|---|
| SnapshotStore.ReadSnapshotIfExists | server/src/modules/tldraw/tldraw.service.ts:20-29 | reading never fails: a missing file, a read error or unparsable content all give "no snapshot"; otherwise the stored snapshot |
| SnapshotStore.SaveSnapshot | server/src/modules/tldraw/tldraw.service.ts:31-37 | a save replaces the whole file of that room and no other; a failure before the open changes nothing; a failure after `writeFile` truncated the file leaves it unparsable |
| SnapshotStore.SaveThenRead | server/src/modules/tldraw/tldraw.service.ts:23-36 | a successful save is what the next successful read returns |
| SnapshotStore.TruncatedWriteLosesSnapshot | server/src/modules/tldraw/tldraw.service.ts:25-36 | a write failing after the truncation loses the previous snapshot too: the room then reads as having none |
| SnapshotStore.SaveIsolated | server/src/modules/tldraw/tldraw.service.ts:31-37 | saving one room never changes what another room reads |
| WhiteboardRooms.NewRoom | server/src/modules/tldraw/tldraw.service.ts:49-67 | a new engine is open and has no sessions; it holds the loaded snapshot, or an empty document when none loaded |
| WhiteboardRooms.MakeOrLoadRoom | server/src/modules/tldraw/tldraw.service.ts:39-79 | an open registered room is returned and nothing changes; otherwise a fresh engine with a cleared dirty flag replaces the entry, and only the engine constructor can fail, leaving the registry as it was |
| WhiteboardRooms.MakeOrLoadRoomIdempotent | server/src/modules/tldraw/tldraw.service.ts:42-47 | a second call for the same id returns the same engine and changes nothing |
| WhiteboardRooms.RunQueue | server/src/modules/tldraw/tldraw.service.ts:40-76 | the mutex chain yields one result per request, and every registered engine stays older than the next one to be created |
| WhiteboardRooms.QueueReusesOpenRoom | server/src/modules/tldraw/tldraw.service.ts:42-47 | while a room is open and registered, every queued request for it gets that engine |
| WhiteboardRooms.QueueSameEngine | server/src/modules/tldraw/tldraw.service.ts:39-79 | queued calls for one room all get the same engine: every request after one that succeeded resolves to that engine |
| WhiteboardRooms.FailedRequestIsolated | server/src/modules/tldraw/tldraw.service.ts:71-77 | a failing request affects no other: removing it leaves every other result and the final registry unchanged |
| WhiteboardRooms.OnDataChange | server/src/modules/tldraw/tldraw.service.ts:63-65 | only the entry the engine was registered with is marked dirty; the callback of a replaced engine reaches nothing |
| WhiteboardRooms.OnDataChangeIdempotent | server/src/modules/tldraw/tldraw.service.ts:63-65 | marking dirty twice is marking dirty once |
| WhiteboardRooms.OnDataChangeLocal | server/src/modules/tldraw/tldraw.service.ts:63-65 | no other entry changes, the key set stays the same, and a flag is never cleared |
| WhiteboardRooms.ApplyEdit | server/src/modules/tldraw/tldraw.service.ts:63-65 | an engine's edit replaces its document and marks the entry dirty |
| WhiteboardRooms.AttachSession | server/src/modules/tldraw/tldraw.gateway.ts:83 | the connected engine gains exactly one session |
| WhiteboardRooms.OnSessionRemoved | server/src/modules/tldraw/tldraw.service.ts:56-62 | the room closes exactly when no session remains; its flag, its document and every other entry are kept |
| WhiteboardRooms.RemoveSession | server/src/modules/tldraw/tldraw.service.ts:56-62 | one session less; the room is closed iff none remain; the flag and document are kept |
| WhiteboardRooms.Sweep | server/src/modules/tldraw/tldraw.service.ts:82-95 | every dirty entry's current document is written when the write succeeds, its file left unparsable when the write fails after truncating, and kept when it fails before the open; clean entries are not written; every open entry stays with its flag cleared; closed entries are gone |
| WhiteboardRooms.PersistenceTick | server/src/modules/tldraw/tldraw.service.ts:83-94 | the loop body applied entry by entry, in any order, computes the sweep: each entry's persist check comes before its deletion |
| WhiteboardRooms.TickStep | server/src/modules/tldraw/tldraw.service.ts:84-93 | handling one more entry extends the partial sweep by exactly that entry |
| WhiteboardRooms.TickStepRooms | server/src/modules/tldraw/tldraw.service.ts:84-93 | the registry part of the one-entry step |
| WhiteboardRooms.TickStepStore | server/src/modules/tldraw/tldraw.service.ts:84-89 | the store part of the one-entry step |
| WhiteboardRooms.QuiescentTickWritesNothing | server/src/modules/tldraw/tldraw.service.ts:84 | a tick over rooms that are all clean writes no file |
| WhiteboardRooms.SecondTickWritesNothing | server/src/modules/tldraw/tldraw.service.ts:86 | the flag is cleared by a tick, so a second tick without edits writes nothing |
| WhiteboardRooms.FailedWriteIsNotRetried | server/src/modules/tldraw/tldraw.service.ts:86-88 | the flag is cleared before the un-awaited write, so a failed write is never retried: the old file stays, or after a truncation the room reads as having no snapshot |
| WhiteboardRooms.EditSurvivesEviction | server/src/modules/tldraw/tldraw.service.ts:56-93 | edit, tick, last session leaves, tick: the room is evicted and the next load gets exactly the edited document in a new engine |
| WhiteboardRooms.ClosedDirtyRoomPersistedBeforeEviction | server/src/modules/tldraw/tldraw.service.ts:84-93 | a closed dirty room has its final document written in the same iteration that deletes it |
| WhiteboardRooms.ReadErrorOverwritesSnapshot | server/src/modules/tldraw/tldraw.service.ts:23-28 | a transient read error starts the room empty, and the next edit and tick overwrite the existing snapshot |
| WhiteboardGateway.ValidateConnection | server/src/modules/tldraw/tldraw.gateway.ts:39-60 | accept iff the path starts `tldraw/connect`, has a third segment and the sessionId is non-empty; the room id is the third segment; a bad prefix gives 1008 "Invalid path", anything else 1008 "Missing roomId or sessionId" |
| WhiteboardGateway.ConnectPathSegments | server/src/modules/tldraw/tldraw.gateway.ts:40 | the client's `/tldraw/connect/<id>` splits into exactly those three segments |
| WhiteboardGateway.SegmentsOfThree | server/src/modules/tldraw/tldraw.gateway.ts:40 | `/a/b/c` with non-empty slash-free parts has segments a, b, c |
| WhiteboardGateway.ConnectPathAccepted | server/src/modules/tldraw/tldraw.gateway.ts:43-60 | every well-formed client path with a session id is accepted with exactly those ids |
| WhiteboardGateway.ExtraSegmentIgnored | server/src/modules/tldraw/tldraw.gateway.ts:51 | segments after the room id do not change the verdict |
| WhiteboardGateway.DoubledSlashIgnored | server/src/modules/tldraw/tldraw.gateway.ts:40 | empty segments are dropped (`filter(Boolean)`) |
| WhiteboardGateway.Receive | server/src/modules/tldraw/tldraw.gateway.ts:67-76 | before the room is ready a message is appended to the buffer; once attached it goes to the engine |
| WhiteboardGateway.Resolve | server/src/modules/tldraw/tldraw.gateway.ts:78-104 | on success one socket-connect, then every buffered message in order; on failure close 1011 and nothing reaches the engine |
| WhiteboardGateway.ReceiveAllEffect | server/src/modules/tldraw/tldraw.gateway.ts:70-74 | a run of messages is buffered, or delivered, in arrival order |
| WhiteboardGateway.DeliveriesConcat | server/src/modules/tldraw/tldraw.gateway.ts:91-93 | replaying two runs of messages is replaying their concatenation |
| WhiteboardGateway.SessionDeliversInOrder | server/src/modules/tldraw/tldraw.gateway.ts:66-93 | on success the engine sees the attachment, then every message before and after it, in arrival order, none dropped or repeated |
| WhiteboardGateway.SessionFailureDeliversNothing | server/src/modules/tldraw/tldraw.gateway.ts:98-104 | on failure the socket is closed with 1011 and the engine sees nothing |
| WhiteboardGateway.HandleConnection | server/src/modules/tldraw/tldraw.gateway.ts:35-104 | a rejected request never touches the registry; failure (1011) happens iff the room had to be made and construction failed; a connection leaves an open room with a session |
| WhiteboardGateway.MissingSessionCreatesNothing | server/src/modules/tldraw/tldraw.gateway.ts:54-60 | without a sessionId no room is created and no snapshot is read |
| RecordingRegistry.IndexOf | server/src/modules/recording/recording.service.ts:14 | the first position whose key is the egress id, or none iff no entry has that key |
| RecordingRegistry.Get | server/src/modules/recording/recording.service.ts:65 | `recordings.get(egressId)` |
| RecordingRegistry.Put | server/src/modules/recording/recording.service.ts:48-53 | `Map.set`: an existing key is replaced in place, a new key is appended |
| RecordingRegistry.PutKeepsKeysUnique | server/src/modules/recording/recording.service.ts:48-53 | the map keeps one entry per egress id |
| RecordingRegistry.PutThenGet | server/src/modules/recording/recording.service.ts:48-53 | get after set returns the set value for that key and the old value for any other |
| RecordingRegistry.FindActive | server/src/modules/recording/recording.service.ts:36-38 | the first active recording of the room in insertion order (no earlier entry is an active one of that room), or none iff there is none |
| RecordingRegistry.StartRecording | server/src/modules/recording/recording.service.ts:36-59 | an active recording of the room is returned and the egress is not asked; otherwise the new egress id is stored as active for the room and every other entry reads as before; a failed egress leaves the map unchanged |
| RecordingRegistry.StartIgnoresEgressWhenActive | server/src/modules/recording/recording.service.ts:40-43 | while a recording is active the egress service's answer is irrelevant and the map unchanged |
| RecordingRegistry.StartIdempotent | server/src/modules/recording/recording.service.ts:36-43 | a second start of the same room returns the first one's id and changes nothing |
| RecordingRegistry.StartPreservesValid | server/src/modules/recording/recording.service.ts:36-53 | at most one active recording per room, and unique keys, are kept by start |
| RecordingRegistry.StopRecording | server/src/modules/recording/recording.service.ts:62-77 | an unknown id fails with NotFound and changes nothing; a known id is marked stopped in place and kept |
| RecordingRegistry.StopPreservesValid | server/src/modules/recording/recording.service.ts:70-74 | stop keeps the one-active-per-room invariant |
| RecordingRegistry.GetRecordingStatus | server/src/modules/recording/recording.service.ts:84-96 | reports recording, with that entry's egress id and start time, iff an active entry for the room exists |
| RecordingRegistry.StartThenStatus | server/src/modules/recording/recording.service.ts:36-96 | after a start the status reports the id start returned |
| RecordingRegistry.StopThenStatus | server/src/modules/recording/recording.service.ts:62-96 | stopping the reported recording makes the room report not recording |
| LivekitConfig.GetRoomClient | server/src/modules/livekit/livekit.service.ts:37-46 | the room client is built once, when first asked for, and reused |
| LivekitConfig.GetEgressClient | server/src/modules/livekit/livekit.service.ts:48-57 | the egress client is built once, when first asked for, and reused |
| LivekitConfig.AtMostTwoClients | server/src/modules/livekit/livekit.service.ts:37-57 | over any sequence of uses at most two clients are ever constructed, and an existing one is never replaced |
| LivekitConfig.RoomToCreate | server/src/modules/livekit/livekit.service.ts:59-66 | a room is created iff no listed room has exactly that name |
| LivekitConfig.EnsureRoom | server/src/modules/livekit/livekit.service.ts:59-66 | afterwards the room exists and no other room was added or removed |
| LivekitConfig.EnsureRoomIdempotent | server/src/modules/livekit/livekit.service.ts:59-66 | a second ensure creates nothing |
| LivekitConfig.CreateToken | server/src/modules/livekit/livekit.service.ts:68-94 | the grant joins the given room, may publish, subscribe, publish data and update metadata, with the four sources camera, microphone, screen share and screen-share audio; metadata is set iff truthy |
| LivekitConfig.GrantIndependentOfParticipant | server/src/modules/livekit/livekit.service.ts:74-87 | two tokens for the same room carry the same grant |
| LivekitConfig.Resolve | server/src/modules/livekit/livekit.service.ts:128-140 | each S3 field is the option value when truthy, else the environment variable |
| LivekitConfig.EgressRequestFor | server/src/modules/livekit/livekit.service.ts:125-184 | the S3 output is attached iff access key, secret and bucket are all provided, with region and endpoint only when truthy; `forcePathStyle` uses `??`; file path and layout defaults apply; preset 1080p30, neither audio- nor video-only |
| LivekitConfig.EmptyAccessKeyFallsThrough | server/src/modules/livekit/livekit.service.ts:128-130 | an empty-string option falls through to the environment |
| LivekitConfig.ExplicitFalseForcePathStyleKept | server/src/modules/livekit/livekit.service.ts:141-143 | an explicit `false` wins over `S3_FORCE_PATH_STYLE=true` |
| LivekitConfig.NoCredentialsRecordsLocally | server/src/modules/livekit/livekit.service.ts:167-178 | without credentials the recording goes to a local file `recordings/<room>-{time}.mp4` with layout `speaker` |
| LivekitConfig.OptionsOverrideEnvironment | server/src/modules/livekit/livekit.service.ts:128-135 | options naming all three credentials make the environment's credentials irrelevant |
| LivekitConfig.ListRecordings | server/src/modules/livekit/livekit.service.ts:192-196 | the egress list, or `[]` when the client returns none |
| PollsState.ActivePoll | client/src/contexts/PollsContext.tsx:35 | the first active poll, or none iff no poll is active |
| PollsState.AddVote | client/src/contexts/PollsContext.tsx:71-72 | one more vote on the chosen option, the others unchanged |
| PollsState.AddVoteSum | client/src/contexts/PollsContext.tsx:69-74 | one more vote adds exactly one to the options' sum |
| PollsState.CountVote | client/src/contexts/PollsContext.tsx:69-74 | the poll with the id gets the vote and one more in its total; every other poll is unchanged |
| PollsState.CountVoteTallied | client/src/contexts/PollsContext.tsx:69-74 | counting a vote keeps every total equal to the sum of its options' votes |
| PollsState.Deactivate | client/src/contexts/PollsContext.tsx:85 | an end clears `isActive` of the poll with the id and changes nothing else |
| PollsState.DeactivateTallied | client/src/contexts/PollsContext.tsx:113-114 | ending keeps the tally invariant |
| PollsState.DeactivateEndsPoll | client/src/contexts/PollsContext.tsx:85 | after an end the ended poll is not the active one |
| PollsState.NewPoll | client/src/contexts/PollsContext.tsx:38-44 | id from the clock; the options in order with no votes; total 0; active; tallied |
| PollsState.ZeroVotesSum | client/src/contexts/PollsContext.tsx:41-43 | options without votes sum to zero |
| PollsState.CreatePoll | client/src/contexts/PollsContext.tsx:37-54 | one poll is appended only after the publish succeeds; a failed publish changes nothing |
| PollsState.VotePoll | client/src/contexts/PollsContext.tsx:56-75 | nothing when already voted; otherwise publish, remember the vote and count it for the matching poll only |
| PollsState.VoteOnce | client/src/contexts/PollsContext.tsx:57 | after a vote went through, further votes on that poll change nothing |
| PollsState.EndPoll | client/src/contexts/PollsContext.tsx:77-86 | publish, then deactivate; a failed publish changes nothing |
| PollsState.HandleData | client/src/contexts/PollsContext.tsx:91-120 | another topic, a parse failure or another message type changes nothing; a create of a known id changes nothing, otherwise it is appended; a vote is counted for the matching polls when its option exists in them, and otherwise changes nothing; an end deactivates the matching polls |
| PollsState.HandleDataTallied | client/src/contexts/PollsContext.tsx:99-115 | remote messages keep the tally invariant |
| PollsState.CreateDeduplicated | client/src/contexts/PollsContext.tsx:100-103 | a poll announced twice is listed once |
| PollsForm.Percentage | client/src/components/Polls.tsx:29-31 | round(votes·100/total), halves up, for a positive total; else 0 |
| PollsForm.PercentageNearest | client/src/components/Polls.tsx:29-31 | the exact share lies within half a percent of the shown value |
| PollsForm.PercentageBounds | client/src/components/Polls.tsx:29-31 | a share shows as 0 to 100; all votes show 100 and none show 0 |
| PollsForm.RemoveAt | client/src/components/Polls.tsx:78-80 | filtering out an index in range removes exactly one option; an index out of range removes none |
| PollsForm.RemoveAtSplices | client/src/components/Polls.tsx:79 | the options before the index, then those after it, in order |
| PollsForm.LaunchForm | client/src/components/Polls.tsx:82-88 | nothing unless the trimmed question and every trimmed option are non-empty; the untrimmed form is submitted and, once published, reset to the empty form |
| PollsForm.Step | client/src/components/Polls.tsx:72-88 | add appends one empty option; change replaces only that index; remove deletes only that index |
| PollsForm.OptionCountStays | client/src/components/Polls.tsx:117-128 | with only on-screen controls the form keeps two to five options |
| PollsForm.LaunchCreatesPoll | client/src/components/Polls.tsx:82-88 | a launched form becomes a poll with exactly its question and options and no votes, and the form resets |
| PollsForm.BlankQuestionRejected | client/src/components/Polls.tsx:83 | a blank question is never submitted |
| PollsForm.ViewOf | client/src/components/Polls.tsx:11-71 | an active poll is shown whatever the mode; otherwise the form in creation mode, else the start screen |
| PollsForm.ClickOption | client/src/components/Polls.tsx:32-38 | a click sends a vote iff this client has not voted on the poll |
| PollsForm.VotedClicksInert | client/src/components/Polls.tsx:37-38 | once voted, no option click does anything |
| RecordingClient.BeginStart | client/src/contexts/RecordingContext.tsx:48-50 | the request is sent iff there is a room name and no recording; the loading flag goes on only then |
| RecordingClient.FinishStart | client/src/contexts/RecordingContext.tsx:63-76 | success records the reply's id and the start time; an error keeps the recording fields; loading is cleared either way |
| RecordingClient.StartRecording | client/src/contexts/RecordingContext.tsx:47-77 | a blocked start changes nothing; otherwise loading ends off, and an error keeps the recording state |
| RecordingClient.BeginStop | client/src/contexts/RecordingContext.tsx:80-82 | the request is sent iff an egress id is held and a recording runs |
| RecordingClient.FinishStop | client/src/contexts/RecordingContext.tsx:88-100 | success clears the recording, the id and the start time; an error keeps them; loading is cleared either way |
| RecordingClient.StopRecording | client/src/contexts/RecordingContext.tsx:79-101 | a blocked stop changes nothing; otherwise loading ends off, and an error keeps the recording state |
| RecordingClient.LoadingAlwaysCleared | client/src/contexts/RecordingContext.tsx:74-100 | no sequence of completed starts and stops leaves the loading flag on |
| RecordingClient.StartEnablesStop | client/src/contexts/RecordingContext.tsx:48-80 | a successful start with an id enables stop and blocks a second start |
| RecordingClient.StopEnablesStart | client/src/contexts/RecordingContext.tsx:48-94 | a successful stop enables start again |
| RecordingClient.CheckStatus | client/src/contexts/RecordingContext.tsx:27-42 | the server's state is adopted only when it reports recording; otherwise nothing changes |
| RecordingClient.ReplyOf | server/src/modules/recording/recording.service.ts:88-96 | the status body says recording iff the server found an active recording |
| RecordingClient.MountAdoptsServerRecording | client/src/contexts/RecordingContext.tsx:34-37 | a client mounting during a server-side recording picks it up with the server's id |
| RecordingClient.MountNeverClears | client/src/contexts/RecordingContext.tsx:34-38 | the mount check never turns recording off |
| RecordingClient.ClientAgreesWithServer | client/src/contexts/RecordingContext.tsx:67-70 | a start answered by the server holds the id the server then reports for the room |
| Tracks.TrackKey | client/src/components/ParticipantLayout.tsx:27 | the publication's track sid when truthy, else the participant's sid |
| Tracks.DisplayName | client/src/components/CenteredParticipantTiles.tsx:61 | the name when truthy, else the identity |
| HandRaise.AddToast | client/src/hooks/useHandRaiseNotifications.tsx:50-60 | the toast is appended unless the identity has a toast whose id timestamp is under a second old |
| HandRaise.ToastIdTimestamp | client/src/hooks/useHandRaiseNotifications.tsx:49-52 | for a hyphen-free identity the id gives back its timestamp |
| HandRaise.DedupeWithinASecond | client/src/hooks/useHandRaiseNotifications.tsx:50-54 | a second raise within a second of a shown toast is swallowed |
| HandRaise.HyphenatedIdTimestamp | client/src/hooks/useHandRaiseNotifications.tsx:49-52 | for an identity with a hyphen, the timestamp read from a toast id is `parseInt` of the identity's own text after its first hyphen, whatever the clock said |
| HandRaise.HyphenatedIdentityNotDeduplicated | client/src/hooks/useHandRaiseNotifications.tsx:52 | when `parseInt` reads that text as NaN (after white space and a sign it starts with no decimal digit, or with `0x` and no hex digit), the toasts are never de-duplicated |
| HandRaise.HyphenatedIdentityReadsOwnNumber | client/src/hooks/useHandRaiseNotifications.tsx:52 | when `parseInt` reads that text as a number (`"bob- 5"`, `"bob-+5"`, `"bob-0x5"`), a second raise is swallowed exactly while the clock is less than 1000 past that number |
| HandRaise.PrevHandRaised | client/src/hooks/useHandRaiseNotifications.tsx:39-40 | a missing previous value reads as `{}` |
| HandRaise.OnMetadataChanged | client/src/hooks/useHandRaiseNotifications.tsx:29-73 | nothing changes when the metadata is missing, either value fails to parse, the current one is `null`, or a raise meets a stored `null`; otherwise the stored metadata becomes the current one, and a toast is raised iff `handRaised === true` now and `!== true` before |
| HandRaise.RepeatedEventQuiet | client/src/hooks/useHandRaiseNotifications.tsx:46-68 | the same metadata reported again raises no second toast |
| HandRaise.UnparsablePreviousSticks | client/src/hooks/useHandRaiseNotifications.tsx:39-72 | once an identity's stored metadata is text `JSON.parse` rejects, none of its later events is handled |
| HandRaise.NullPreviousRecovers | client/src/hooks/useHandRaiseNotifications.tsx:39-68 | a stored `null` loses a raise, but a non-raise event is stored over it, and the next raise toasts |
| HandRaise.Expire | client/src/hooks/useHandRaiseNotifications.tsx:62-64 | expiry removes the toasts with that id and keeps the rest |
| HandRaise.ExpiryRemovesShownToast | client/src/hooks/useHandRaiseNotifications.tsx:49-64 | expiry of a toast just shown takes exactly that toast away |
| HandRaise.Seed | client/src/hooks/useHandRaiseNotifications.tsx:83-85 | the stored metadata is written only when the identity is absent and metadata is present |
| HandRaise.SeedAll | client/src/hooks/useHandRaiseNotifications.tsx:28-86 | seeding never overwrites a stored value or touches the toasts |
| HandRaise.InitialRaisedHandNeverToasts | client/src/hooks/useHandRaiseNotifications.tsx:83-85 | a hand already raised when first seen never toasts |
| HandRaise.FirstRaiseToasts | client/src/hooks/useHandRaiseNotifications.tsx:39-49 | without a stored value a raised hand toasts |
| ParticipantLayout.GridCols | client/src/components/ParticipantLayout.tsx:129-138 | mobile: one column; desktop: the narrowest square grid that holds every tile, at most four wide |
| ParticipantLayout.GridColsMonotone | client/src/components/ParticipantLayout.tsx:135-137 | the desktop column count never shrinks as tiles are added |
| ParticipantLayout.TotalPages | client/src/components/ParticipantLayout.tsx:122 | `ceil(n/2)` pages on mobile, one otherwise |
| ParticipantLayout.Slice | client/src/components/ParticipantLayout.tsx:126 | `Array.slice` with both bounds clamped to the length |
| ParticipantLayout.DisplayTracks | client/src/components/ParticipantLayout.tsx:125-127 | mobile with more than two tracks: exactly `tracks[2p..2p+2]`, clamped to the length, and nothing past the end; otherwise all of them |
| ParticipantLayout.PagesFromRest | client/src/components/ParticipantLayout.tsx:122-127 | the pages from a page on show the tracks from that page's first one |
| ParticipantLayout.PagesCoverTracks | client/src/components/ParticipantLayout.tsx:122-127 | the pages read in order show every track exactly once, in order |
| ParticipantLayout.ReachablePagesNonEmpty | client/src/components/ParticipantLayout.tsx:125-127 | every page the pager can reach shows at least one tile |
| ParticipantLayout.StalePageEmpty | client/src/components/ParticipantLayout.tsx:18 | the page number is not clamped when tracks leave: a page beyond the end shows nothing |
| ParticipantLayout.PrevPage | client/src/components/ParticipantLayout.tsx:158 | `max(0, p-1)` |
| ParticipantLayout.NextPage | client/src/components/ParticipantLayout.tsx:170 | `min(totalPages-1, p+1)` |
| ParticipantLayout.PagerStaysInRange | client/src/components/ParticipantLayout.tsx:155-171 | the pager buttons never leave the page range |
| ParticipantLayout.Render | client/src/components/ParticipantLayout.tsx:21-187 | nothing for no tracks; otherwise the grid in grid mode and the filmstrip in filmstrip mode; the filmstrip shows all; the grid has the column count of `GridCols`, shows the page's tracks and a pager iff mobile with more than two tracks |
| ParticipantLayout.TileClick | client/src/components/ParticipantLayout.tsx:30-37 | a click inside a button is ignored; otherwise it toggles that tile's selection |
| ParticipantLayout.TileClickTwice | client/src/components/ParticipantLayout.tsx:36 | two clicks on a tile leave it selected iff it was before |
| ParticipantLayout.FocusClick | client/src/components/ParticipantLayout.tsx:39-43 | focus hands the track to the callback and clears the selection |
| ParticipantTiles.Initial | client/src/components/CenteredParticipantTiles.tsx:86 | the upper-cased first character, empty for an empty word |
| ParticipantTiles.WordInitials | client/src/components/CenteredParticipantTiles.tsx:84-86 | one initial per space-separated word, empty words included |
| ParticipantTiles.GetInitials | client/src/components/CenteredParticipantTiles.tsx:82-89 | empty for a missing or empty name; otherwise the initials of the first two words, at most two characters |
| ParticipantTiles.InitialsEmptyIff | client/src/components/CenteredParticipantTiles.tsx:82-89 | no initials iff no name, or the first two words are both empty |
| ParticipantTiles.InitialsOfWords | client/src/components/CenteredParticipantTiles.tsx:84-88 | a name made of words shows the capitals of its first one or two words |
| ParticipantTiles.LeadingSpaceDropsInitial | client/src/components/CenteredParticipantTiles.tsx:84-88 | a leading space uses up one of the two slots: only the next word's initial shows |
| ParticipantTiles.SplitHead | client/src/components/CenteredParticipantTiles.tsx:85 | the first word starts with the name's first character when that is not a space |
| ParticipantTiles.SplitFirstChar | client/src/components/CenteredParticipantTiles.tsx:85 | the same, for any text not starting with a space |
| ParticipantTiles.IsRaised | client/src/components/CenteredParticipantTiles.tsx:104-115 | the badge shows only for present metadata that parses to a non-`null` value with a truthy `handRaised` |
| ParticipantTiles.BadgeAfterChange | client/src/components/CenteredParticipantTiles.tsx:117-124 | the badge re-reads the metadata only for an event named `metadataChanged`, and otherwise keeps its value from mount |
| ParticipantTiles.ToastImpliesBadge | client/src/components/CenteredParticipantTiles.tsx:117-121 | when a change reaches the badge under the name it listens to, every toast the hook raises for it comes with the badge shown |
| ParticipantTiles.BadgeStaleUnderOtherEventName | client/src/components/CenteredParticipantTiles.tsx:101-121 | under any other event name a badge that was down at mount stays down while the hook toasts |
| ParticipantTiles.BadgeWithoutToast | client/src/components/CenteredParticipantTiles.tsx:108 | a truthy non-boolean `handRaised` shows the badge but never toasts |
| ParticipantTiles.TileOf | client/src/components/CenteredParticipantTiles.tsx:39-65 | video iff published and unmuted, else the initials placeholder; the tile is keyed by the track key, labelled with the name or identity, and carries the badge as read at mount |
| ParticipantTiles.RenderTiles | client/src/components/CenteredParticipantTiles.tsx:17-67 | nothing for no tracks; otherwise one tile per track, in order |
| ParticipantTiles.NamelessTile | client/src/components/CenteredParticipantTiles.tsx:48-61 | a muted nameless participant shows an empty placeholder labelled with the identity |
| RoomView.Render | client/src/components/MainRoom.tsx:37-50 | the effect re-runs only on changed dependencies and connects iff roomId, userName and userId are all non-empty |
| RoomView.RenderAllKeepsValid | client/src/components/MainRoom.tsx:37-50 | over any renders, an open connection is always for the current dependencies and they pass the guard |
| RoomView.FirstRenderNeverConnects | client/src/components/MainRoom.tsx:29-40 | the first render, before a user id exists, never connects |
| RoomView.GeneratedIdConnects | client/src/components/MainRoom.tsx:32-45 | once the id is generated, the room is joined under it |
| RoomView.Step | client/src/components/MainRoom.tsx:81-102 | the toggles flip their own flag only; opening the whiteboard clears the focus; clicking a track focuses it and closes the whiteboard |
| RoomView.RunKeepsExclusive | client/src/components/MainRoom.tsx:87-98 | the whiteboard and a focused track are never set at once |
| RoomView.RightPane | client/src/components/MainRoom.tsx:208-216 | the whiteboard first, then the focused track, then the placeholder |
| RoomView.ClickShowsTrack | client/src/components/MainRoom.tsx:95-98 | a click on a tile shows that track whatever was shown |
| RoomView.WhiteboardRoundTripLosesFocus | client/src/components/MainRoom.tsx:87-93 | opening and closing the whiteboard does not bring the focused track back |
| RoomView.TogglesInvolutive | client/src/components/MainRoom.tsx:81-86 | the chat and settings toggles undo themselves and leave the right pane alone |
| RoomView.SplitLayout | client/src/components/MainRoom.tsx:188-192 | `[30, 70]` with gutter 8 when chat is shown, else `[0, 100]` with gutter 0 |
| RoomView.SplitFollowsChat | client/src/components/MainRoom.tsx:81-104 | the split follows the chat flag: a chat toggle always changes the sizes, closing the chat collapses the left pane to `[0, 100]`, and no other action moves it |
| RoomView.ReactionOf | client/src/components/MainRoom.tsx:109-121 | reliable packets and parse failures are ignored; only type `reaction` adds its emoji |
| RoomView.SentReactionShown | client/src/components/MainRoom.tsx:109-117 | a reaction sent as the reaction button sends it (lossy) arrives as that emoji |
| RoomView.ReliableReactionDropped | client/src/components/MainRoom.tsx:110 | a reliable packet never adds a reaction; the poll messages are sent reliably |

## Left out

- The tldraw engine's sync protocol is not modelled. The engine is reduced to a closed flag, a session count and its current document. Its session count drops when a socket goes away.
- Asynchrony and timers are not modelled. This covers the promise-chain mutex, the 2-second `setInterval`, the 4-second toast timer, `await`s, and concurrent interleavings such as two overlapping starts. Each handler or tick is one atomic step; an awaited request is split into begin and finish steps.
- The sweep's write is not awaited in the source. A write that has not finished is the same as one that failed or succeeded later. The model applies it within the tick.
- File-system details are left out: the rooms directory, `mkdir`, path joining, and room ids that alias files. The store is a map from room id to file content.
- Node's `url.parse` is not modelled. This includes repeated query keys, which become arrays, and percent-decoding. The pathname and the `sessionId` parameter are inputs.
- The WebSocket library, the LiveKit SDK (`RoomServiceClient`, `EgressClient`, JWT signing) and `fetch` are left out. Their answers are parameters.
- The `close` and `error` socket listeners are left out: they only log.
- Whiteboard assets and unfurling, the webhooks, the controllers, the modules and `main.ts` are left out. They are I/O or wiring.
- The DTO validation of the start-recording body is left out. It is declarative, and its behaviour lives in the validation library.
- `Math.round` of a float is not modelled exactly. PollsForm.Percentage is exact rational rounding, halves up; IEEE rounding of `votes / total * 100` can differ on a half. This contract is deliberately stated in exact arithmetic.
- `Text.ParseInt` computes with unbounded integers. `parseInt` returns a double, so a run of more than about 15 significant digits is rounded; a toast id carries a 13-digit millisecond timestamp.
- `Text.UpperChar` upper-cases ASCII letters only. `toUpperCase` is Unicode-wide.
- `JSON.parse` and `JSON.stringify` are inputs. For metadata, polls and reaction packets, the model sees only the fields the code reads. A remote poll is assumed to have the shape the sender builds.
- PollsState.VotePoll: an out-of-range option index makes the source's updater throw inside a React state update. The model reports `OptionOutOfRange` and leaves the state unchanged. After the publish, the source has also already recorded the vote in `votedPolls`; the model does not record it.
- React rendering is left out. This covers StrictMode's double invocation of updaters (whose shared-option mutation would count a vote twice), the effect cleanup of event listeners, and the re-subscription of handlers on each render.
- `ReactionContext` (random positions, timed removal), the reaction and hand-raise buttons, the settings dialogs, `Conference`, `FocusedTrackView` and `Whiteboard.tsx` are left out. They are UI glue.
- The collapse toggle of the round tiles and the participant count badge are left out. They only change styling.
- The viewport width is an input, `isMobile`. The grid is only recomputed on render.
- PollsState.HandleData: a remote vote whose option index does not exist makes the `setPolls` updater throw. React runs that updater outside the handler's `try`/`catch`, so the error is not swallowed there. The model reports `OptionOutOfRange` and leaves the state unchanged; what React then does with the error is not modelled.
- WhiteboardRooms.FailedWriteIsNotRetried: the sweep's `saveSnapshot` call is neither awaited nor given a `.catch`, and no rejection handler is installed, so a failed write is an unhandled promise rejection. Under Node's default settings that ends the server process. The model, like WhiteboardRooms.Sweep, carries on with the registry and files the tick left.
- ParticipantTiles.ToastImpliesBadge: the name under which the LiveKit SDK emits a participant's metadata change is not part of this model. The hook subscribes through the SDK's `ParticipantEvent.ParticipantMetadataChanged` constant; the badge subscribes to the literal `"metadataChanged"`. The lemma assumes the change reaches the badge under that literal name. If the constant's value is another name, the badge keeps the value read at mount, as ParticipantTiles.BadgeStaleUnderOtherEventName states.

=== FILE: common.dfy ===
/** Option and Result wrappers, and the JavaScript truthiness rules the
    modelled code leans on (`a || b`, `a ?? b`, `if (!x) return`). */
module Common {

  datatype Option<+T> = None | Some(value: T) {

    /** The value, or a default when absent (`x ?? d`). */
    function GetOr(default: T): T {
      match this
      case Some(v) => v
      case None => default
    }
  }

  datatype Result<+T, +E> = Ok(value: T) | Err(error: E)

  /** A JavaScript string value that may be `undefined` or `null` is truthy
      exactly when it is present and not the empty string. */
  predicate Truthy(s: Option<string>) {
    s.Some? && s.value != ""
  }

  /** `a || b` on optional strings: the left operand when truthy, otherwise
      the right operand, whatever it is. */
  function OrElse(a: Option<string>, b: Option<string>): (r: Option<string>)
    ensures Truthy(r) <==> Truthy(a) || Truthy(b)
    ensures Truthy(a) ==> r == a
    ensures !Truthy(a) ==> r == b
  {
    if Truthy(a) then a else b
  }

  /** `a ?? b` on optional booleans: the left operand unless it is
      `null`/`undefined`. */
  function Coalesce(a: Option<bool>, b: bool): (r: bool)
    ensures a.Some? ==> r == a.value
    ensures a.None? ==> r == b
  {
    a.GetOr(b)
  }
}

=== FILE: hand_raise.dfy ===
/** The hand-raise notifications hook: per participant, the metadata seen
    last, the edge "hand not raised before, raised now" that produces a
    toast, the one-second de-duplication keyed on the toast id's timestamp,
    the toast's expiry and the seeding of the last-seen metadata.

    `JSON.parse` of participant metadata is an input, `parse`, reduced to
    what the hook reads: `null`, or the `handRaised` field of any other
    value; `None` when parsing throws. */
module HandRaise {

  import opened Common
  import opened Text
  import opened Tracks

  /** The `handRaised` field of a parsed value other than `null` (absent
      for a number or a string). */
  datatype HandRaised = Absent | IsBool(b: bool) | OtherValue(truthy: bool)

  /** A parsed value: `null`, on which reading a field throws, or any other
      value with its `handRaised` field. */
  datatype Parsed = JsonNull | Value(handRaised: HandRaised)

  type MetaParser = string -> Option<Parsed>

  /** `handRaised === true`. */
  const RaisedValue: Parsed := Value(IsBool(true))

  datatype Toast = Toast(id: string, name: string, identity: string)

  /** The metadata last seen per identity (the ref's map) and the toasts. */
  datatype HandState = HandState(prev: map<string, string>, toasts: seq<Toast>)

  const NoHands: HandState := HandState(map[], [])

  /** `${identity}-${Date.now()}`. */
  function ToastId(identity: string, now: nat): string {
    identity + "-" + Digits(now)
  }

  // ---------------------------------------------------------------------------
  // de-duplication
  // ---------------------------------------------------------------------------

  /** `parseInt(id.split('-')[1])`: `None` for NaN, including when the id
      has no hyphen. */
  function TimestampOf(id: string): Option<int> {
    var fields := Split(id, '-');
    if |fields| < 2 then None else ParseInt(fields[1])
  }

  /** The toast is less than a second old, read from its id; NaN compares
      false. */
  predicate Recent(t: Toast, now: int) {
    var ts := TimestampOf(t.id);
    ts.Some? && now - ts.value < 1000
  }

  /** The toast updater: skipped while the identity has a recent toast. */
  function AddToast(toasts: seq<Toast>, toast: Toast, now: int): (r: seq<Toast>)
    ensures (exists i :: 0 <= i < |toasts| && toasts[i].identity == toast.identity && Recent(toasts[i], now)) ==> r == toasts
    ensures !(exists i :: 0 <= i < |toasts| && toasts[i].identity == toast.identity && Recent(toasts[i], now)) ==> r == toasts + [toast]
  {
    if exists i :: 0 <= i < |toasts| && toasts[i].identity == toast.identity && Recent(toasts[i], now) then toasts
    else toasts + [toast]
  }

  /** For an identity without a hyphen the id gives back its timestamp. */
  lemma ToastIdTimestamp(identity: string, now: nat)
    requires '-' !in identity
    ensures TimestampOf(ToastId(identity, now)) == Some(now)
  {
    var ds := Digits(now);
    assert ToastId(identity, now) == identity + ['-'] + ds;
    SplitConcat(identity, '-', ds);
    SplitWithoutSeparator(identity, '-');
    assert '-' !in ds;
    SplitWithoutSeparator(ds, '-');
    ParseIntDigits("", "", now, "");
    assert "" + "" + ds + "" == ds;
  }

  /** For a hyphen-free identity a second raise within a second of a shown
      toast is swallowed. */
  lemma DedupeWithinASecond(toasts: seq<Toast>, identity: string, n1: string, n2: string, t1: nat, t2: nat)
    requires '-' !in identity
    requires t1 <= t2 < t1 + 1000
    requires AddToast(toasts, Toast(ToastId(identity, t1), n1, identity), t1) != toasts
    ensures var shown := AddToast(toasts, Toast(ToastId(identity, t1), n1, identity), t1);
      AddToast(shown, Toast(ToastId(identity, t2), n2, identity), t2) == shown
  {
    var first := Toast(ToastId(identity, t1), n1, identity);
    var shown := AddToast(toasts, first, t1);
    ToastIdTimestamp(identity, t1);
    assert shown[|toasts|] == first && Recent(first, t2);
  }

  /** The id of a toast for an identity with a hyphen is read from the
      identity's own text after its first hyphen, not from the clock. */
  lemma HyphenatedIdTimestamp(identity: string, now: nat)
    requires |Split(identity, '-')| >= 2
    ensures TimestampOf(ToastId(identity, now)) == ParseInt(Split(identity, '-')[1])
  {
    var ds := Digits(now);
    assert ToastId(identity, now) == identity + ['-'] + ds;
    SplitConcat(identity, '-', ds);
    assert Split(ToastId(identity, now), '-')[1] == Split(identity, '-')[1];
  }

  /** An identity whose text after its first hyphen `parseInt` reads as
      NaN yields ids whose timestamp is NaN, so its toasts never suppress
      each other, even at the same instant. */
  lemma HyphenatedIdentityNotDeduplicated(identity: string, n1: string, n2: string, now: nat)
    requires |Split(identity, '-')| >= 2
    requires ParseInt(Split(identity, '-')[1]).None?
    ensures var once := AddToast([], Toast(ToastId(identity, now), n1, identity), now);
      AddToast(once, Toast(ToastId(identity, now), n2, identity), now) == once + [Toast(ToastId(identity, now), n2, identity)]
  {
    HyphenatedIdTimestamp(identity, now);
  }

  /** When that text does read as a number (`"bob- 5"`, `"bob-+5"`,
      `"bob-0x5"`), the number stands in for the timestamp: a second raise
      is swallowed exactly while the clock is less than 1000 past it. */
  lemma HyphenatedIdentityReadsOwnNumber(identity: string, n1: string, n2: string, t1: nat, t2: nat)
    requires |Split(identity, '-')| >= 2
    requires ParseInt(Split(identity, '-')[1]).Some?
    ensures var v := ParseInt(Split(identity, '-')[1]).value;
      var once := AddToast([], Toast(ToastId(identity, t1), n1, identity), t1);
      var next := Toast(ToastId(identity, t2), n2, identity);
      && (t2 - v < 1000 ==> AddToast(once, next, t2) == once)
      && (t2 - v >= 1000 ==> AddToast(once, next, t2) == once + [next])
  {
    var first := Toast(ToastId(identity, t1), n1, identity);
    var next := Toast(ToastId(identity, t2), n2, identity);
    HyphenatedIdTimestamp(identity, t1);
    var once := AddToast([], first, t1);
    assert once == [first];
    assert once[0] == first;
    var v := ParseInt(Split(identity, '-')[1]).value;
    if t2 - v < 1000 {
      assert Recent(once[0], t2);
    } else {
      assert !Recent(once[0], t2);
    }
  }

  // ---------------------------------------------------------------------------
  // the metadata handler
  // ---------------------------------------------------------------------------

  /** The previous metadata, parsed: the stored text, or `{}` when there is
      none (`get(...) || '{}'`); `None` when the stored text does not
      parse. */
  function PrevHandRaised(prev: map<string, string>, identity: string, parse: MetaParser): (r: Option<Parsed>)
    ensures identity !in prev ==> r == Some(Value(Absent))
    ensures identity in prev && prev[identity] != "" ==> r == parse(prev[identity])
  {
    if identity in prev && prev[identity] != "" then parse(prev[identity]) else Some(Value(Absent))
  }

  /** The hand went up: `handRaised === true` now and `!== true` before. */
  predicate RaisedEdge(now: Parsed, before: Parsed) {
    now == RaisedValue && before.Value? && before.handRaised != IsBool(true)
  }

  /** The handler ran to the end without throwing: metadata present, both
      it and the stored previous value parse, the current value is not
      `null`, and the previous one is not `null` when its field is read,
      which `&&` does only when the current `handRaised` is `true`. */
  predicate Handled(st: HandState, p: Participant, eventMetadata: Option<string>, parse: MetaParser) {
    var current := OrElse(eventMetadata, p.metadata);
    && Truthy(current)
    && parse(current.value).Some? && parse(current.value).value.Value?
    && PrevHandRaised(st.prev, p.identity, parse).Some?
    && (parse(current.value).value == RaisedValue ==> PrevHandRaised(st.prev, p.identity, parse).value.Value?)
  }

  /** `handleMetadataChanged` at clock `now`. The second component is the
      id of the toast whose expiry the handler schedules. */
  function OnMetadataChanged(st: HandState, p: Participant, eventMetadata: Option<string>, now: nat, parse: MetaParser): (r: (HandState, Option<string>))
    ensures !Handled(st, p, eventMetadata, parse) ==> r == (st, None)
    ensures Handled(st, p, eventMetadata, parse) ==>
      r.0.prev == st.prev[p.identity := OrElse(eventMetadata, p.metadata).value]
    ensures r.1.Some? <==>
      && Handled(st, p, eventMetadata, parse)
      && RaisedEdge(parse(OrElse(eventMetadata, p.metadata).value).value, PrevHandRaised(st.prev, p.identity, parse).value)
    ensures r.1.None? ==> r.0.toasts == st.toasts
    ensures r.1.Some? ==>
      && r.1.value == ToastId(p.identity, now)
      && r.0.toasts == AddToast(st.toasts, Toast(ToastId(p.identity, now), DisplayName(p), p.identity), now)
  {
    var current := OrElse(eventMetadata, p.metadata);
    if !Truthy(current) then (st, None)
    else
      match parse(current.value)
      case None => (st, None)
      case Some(meta) =>
        match PrevHandRaised(st.prev, p.identity, parse)
        case None => (st, None)
        case Some(before) =>
          // reading `handRaised` of a `null` throws
          if meta.JsonNull? || (meta == RaisedValue && before.JsonNull?) then (st, None)
          else
            var prev := st.prev[p.identity := current.value];
            if RaisedEdge(meta, before) then
              var id := ToastId(p.identity, now);
              (HandState(prev, AddToast(st.toasts, Toast(id, DisplayName(p), p.identity), now)), Some(id))
            else (HandState(prev, st.toasts), None)
  }

  /** The same metadata reported again produces no second toast. */
  lemma RepeatedEventQuiet(st: HandState, p: Participant, m: string, t1: nat, t2: nat, parse: MetaParser)
    requires m != "" && parse(m).Some?
    ensures var st1 := OnMetadataChanged(st, p, Some(m), t1, parse).0;
      OnMetadataChanged(st1, p, Some(m), t2, parse).1.None?
  {
  }

  /** Once the stored metadata of an identity is text that `JSON.parse`
      rejects, every later event of that identity throws before the store
      is updated: the identity is never handled again. */
  lemma UnparsablePreviousSticks(st: HandState, p: Participant, eventMetadata: Option<string>, now: nat, parse: MetaParser)
    requires p.identity in st.prev && st.prev[p.identity] != "" && parse(st.prev[p.identity]).None?
    ensures OnMetadataChanged(st, p, eventMetadata, now, parse) == (st, None)
    ensures p.identity in OnMetadataChanged(st, p, eventMetadata, now, parse).0.prev
  {
  }

  /** A stored `null` is different: a raise throws on `prevMeta.handRaised`
      and is lost, but an event whose `handRaised` is not `true` never reads
      the previous value, so it is stored, and the next raise toasts. */
  lemma NullPreviousRecovers(st: HandState, p: Participant, down: string, up: string, t1: nat, t2: nat, parse: MetaParser)
    requires p.identity in st.prev && st.prev[p.identity] != "" && parse(st.prev[p.identity]) == Some(JsonNull)
    requires down != "" && parse(down).Some? && parse(down).value.Value? && parse(down).value != RaisedValue
    requires up != "" && parse(up) == Some(RaisedValue)
    ensures OnMetadataChanged(st, p, Some(up), t1, parse) == (st, None)
    ensures var st1 := OnMetadataChanged(st, p, Some(down), t1, parse).0;
      && st1.prev == st.prev[p.identity := down]
      && OnMetadataChanged(st1, p, Some(up), t2, parse).1 == Some(ToastId(p.identity, t2))
  {
  }

  /** The expiry timer: drop the toast with that id, keep the others in
      order. */
  function Expire(toasts: seq<Toast>, id: string): (r: seq<Toast>)
    ensures |r| <= |toasts|
    ensures forall t :: t in r <==> t in toasts && t.id != id
  {
    if |toasts| == 0 then []
    else (if toasts[0].id == id then [] else [toasts[0]]) + Expire(toasts[1..], id)
  }

  /** Expiry of a toast id just shown takes exactly that toast away. */
  lemma ExpiryRemovesShownToast(st: HandState, p: Participant, eventMetadata: Option<string>, now: nat, parse: MetaParser)
    requires OnMetadataChanged(st, p, eventMetadata, now, parse).1.Some?
    ensures var (st1, id) := OnMetadataChanged(st, p, eventMetadata, now, parse);
      forall t :: t in Expire(st1.toasts, id.value) <==> t in st1.toasts && t.id != ToastId(p.identity, now)
  {
  }

  // ---------------------------------------------------------------------------
  // seeding
  // ---------------------------------------------------------------------------

  /** On every effect run: remember the participant's current metadata
      unless the identity already has an entry or there is no metadata. */
  function Seed(st: HandState, p: Participant): (r: HandState)
    ensures r.toasts == st.toasts
    ensures p.identity in st.prev ==> r == st
    ensures p.identity !in st.prev ==> (Truthy(p.metadata) <==> p.identity in r.prev)
    ensures p.identity !in st.prev && Truthy(p.metadata) ==> r.prev == st.prev[p.identity := p.metadata.value]
  {
    if p.identity !in st.prev && Truthy(p.metadata) then st.(prev := st.prev[p.identity := p.metadata.value]) else st
  }

  /** Seeding for each participant in turn. */
  function SeedAll(st: HandState, participants: seq<Participant>): (r: HandState)
    ensures r.toasts == st.toasts
    ensures forall id :: id in st.prev ==> id in r.prev && r.prev[id] == st.prev[id]
    decreases |participants|
  {
    if |participants| == 0 then st else SeedAll(Seed(st, participants[0]), participants[1..])
  }

  /** A hand already raised when the participant is first seen never
      toasts: the seeded value counts as the previous one. */
  lemma InitialRaisedHandNeverToasts(st: HandState, p: Participant, now: nat, parse: MetaParser)
    requires p.identity !in st.prev && Truthy(p.metadata)
    requires parse(p.metadata.value) == Some(RaisedValue)
    ensures OnMetadataChanged(Seed(st, p), p, p.metadata, now, parse).1.None?
  {
  }

  /** Without a stored value a raised hand does toast. */
  lemma FirstRaiseToasts(st: HandState, p: Participant, m: string, now: nat, parse: MetaParser)
    requires p.identity !in st.prev && m != ""
    requires parse(m) == Some(RaisedValue)
    ensures OnMetadataChanged(st, p, Some(m), now, parse).1 == Some(ToastId(p.identity, now))
  {
  }
}

=== FILE: livekit_service.dfy ===
/** The server's LiveKit wrapper: the decisions it makes before each SDK
    call. The SDK clients, token signing and the network are not modelled;
    what is modelled is what gets passed to them: which room is created,
    the grant a token carries, and the egress request built from the
    caller's options and the environment. */
module LivekitConfig {

  import opened Common

  // ---------------------------------------------------------------------------
  // lazily created SDK clients
  // ---------------------------------------------------------------------------

  /** An SDK client, identified by the order in which it was constructed. */
  datatype Client = Client(serial: nat)

  /** The two client slots (`null` until first use) and how many clients
      have been constructed so far. */
  datatype Clients = Clients(room: Option<Client>, egress: Option<Client>, constructed: nat)

  const NoClients: Clients := Clients(None, None, 0)

  function Filled(slot: Option<Client>): nat {
    if slot.Some? then 1 else 0
  }

  /** Every constructed client sits in its slot. */
  predicate ClientsValid(c: Clients) {
    c.constructed == Filled(c.room) + Filled(c.egress)
  }

  /** `getRoomClient`: construct on first use, then always the same one. */
  function GetRoomClient(c: Clients): (r: (Clients, Client))
    ensures c.room.Some? ==> r == (c, c.room.value)
    ensures c.room.None? ==> r.0.constructed == c.constructed + 1 && r.0.egress == c.egress
    ensures r.0.room == Some(r.1)
    ensures ClientsValid(c) ==> ClientsValid(r.0)
  {
    match c.room
    case Some(client) => (c, client)
    case None =>
      var client := Client(c.constructed);
      (c.(room := Some(client), constructed := c.constructed + 1), client)
  }

  /** `getEgressClient`, the same pattern for the egress slot. */
  function GetEgressClient(c: Clients): (r: (Clients, Client))
    ensures c.egress.Some? ==> r == (c, c.egress.value)
    ensures c.egress.None? ==> r.0.constructed == c.constructed + 1 && r.0.room == c.room
    ensures r.0.egress == Some(r.1)
    ensures ClientsValid(c) ==> ClientsValid(r.0)
  {
    match c.egress
    case Some(client) => (c, client)
    case None =>
      var client := Client(c.constructed);
      (c.(egress := Some(client), constructed := c.constructed + 1), client)
  }

  /** Which client an SDK-backed method asks for. */
  datatype ClientUse = UseRoom | UseEgress

  function UseClient(c: Clients, u: ClientUse): (Clients, Client) {
    match u
    case UseRoom => GetRoomClient(c)
    case UseEgress => GetEgressClient(c)
  }

  /** The clients after a sequence of SDK-backed calls. */
  function RunUses(c: Clients, uses: seq<ClientUse>): Clients
    decreases |uses|
  {
    if |uses| == 0 then c else RunUses(UseClient(c, uses[0]).0, uses[1..])
  }

  /** However many calls are made, at most two clients are ever built, and
      a client once built stays in its slot. */
  lemma {:induction false} AtMostTwoClients(c: Clients, uses: seq<ClientUse>)
    requires ClientsValid(c)
    ensures ClientsValid(RunUses(c, uses))
    ensures RunUses(c, uses).constructed <= 2
    ensures c.room.Some? ==> RunUses(c, uses).room == c.room
    ensures c.egress.Some? ==> RunUses(c, uses).egress == c.egress
    decreases |uses|
  {
    if |uses| > 0 {
      AtMostTwoClients(UseClient(c, uses[0]).0, uses[1..]);
    }
  }

  // ---------------------------------------------------------------------------
  // rooms and tokens
  // ---------------------------------------------------------------------------

  /** `ensureRoom`: given the names of the rooms the server lists, the name
      of the room to create, if any (the `createRoom` call). */
  function RoomToCreate(listed: seq<string>, roomName: string): (r: Option<string>)
    ensures r.Some? <==> forall i :: 0 <= i < |listed| ==> listed[i] != roomName
    ensures r.Some? ==> r.value == roomName
  {
    if roomName in listed then None else Some(roomName)
  }

  /** The server's room list after `ensureRoom`. */
  function EnsureRoom(listed: seq<string>, roomName: string): (r: seq<string>)
    ensures roomName in r
    ensures forall name :: name in listed ==> name in r
    ensures forall name :: name in r ==> name in listed || name == roomName
  {
    match RoomToCreate(listed, roomName)
    case None => listed
    case Some(name) => listed + [name]
  }

  /** A second `ensureRoom` creates nothing. */
  lemma EnsureRoomIdempotent(listed: seq<string>, roomName: string)
    ensures RoomToCreate(EnsureRoom(listed, roomName), roomName).None?
    ensures EnsureRoom(EnsureRoom(listed, roomName), roomName) == EnsureRoom(listed, roomName)
  {
  }

  datatype TrackSource = Camera | Microphone | ScreenShare | ScreenShareAudio

  /** The sources every participant may publish, in grant order. */
  const PublishSources: seq<TrackSource> := [Camera, Microphone, ScreenShare, ScreenShareAudio]

  datatype Grant = Grant(
    roomJoin: bool,
    room: string,
    canPublish: bool,
    canPublishSources: seq<TrackSource>,
    canSubscribe: bool,
    canPublishData: bool,
    canUpdateOwnMetadata: bool)

  datatype TokenInput = TokenInput(roomName: string, identity: string, name: string, metadata: Option<string>)

  /** The claims of an access token before signing; `metadata` is `None`
      when the token's metadata is never assigned. */
  datatype Token = Token(identity: string, name: string, grant: Grant, metadata: Option<string>)

  /** `createToken`, up to the signature. */
  function CreateToken(input: TokenInput): (r: Token)
    ensures r.identity == input.identity && r.name == input.name
    ensures r.grant.room == input.roomName && r.grant.roomJoin
    ensures r.grant.canPublish && r.grant.canSubscribe && r.grant.canPublishData && r.grant.canUpdateOwnMetadata
    ensures multiset(r.grant.canPublishSources) == multiset{Camera, Microphone, ScreenShare, ScreenShareAudio}
    ensures r.metadata.Some? <==> Truthy(input.metadata)
    ensures r.metadata.Some? ==> r.metadata == input.metadata
  {
    var grant := Grant(true, input.roomName, true, PublishSources, true, true, true);
    Token(input.identity, input.name, grant, if Truthy(input.metadata) then input.metadata else None)
  }

  /** The grant depends on the room alone: who joins and what metadata they
      carry never widen or narrow it. */
  lemma GrantIndependentOfParticipant(a: TokenInput, b: TokenInput)
    requires a.roomName == b.roomName
    ensures CreateToken(a).grant == CreateToken(b).grant
  {
  }

  // ---------------------------------------------------------------------------
  // the egress request
  // ---------------------------------------------------------------------------

  /** The caller's `s3Config`, every field possibly missing. */
  datatype S3Options = S3Options(
    accessKey: Option<string>,
    secret: Option<string>,
    bucket: Option<string>,
    region: Option<string>,
    endpoint: Option<string>,
    forcePathStyle: Option<bool>)

  datatype RecordingOptions = RecordingOptions(layout: Option<string>, filepath: Option<string>, s3Config: Option<S3Options>)

  /** The configuration service: environment variable names to values. */
  type Env = map<string, string>

  function EnvGet(env: Env, key: string): (r: Option<string>)
    ensures r.Some? <==> key in env
    ensures r.Some? ==> r.value == env[key]
  {
    if key in env then Some(env[key]) else None
  }

  datatype S3Upload = S3Upload(
    accessKey: string,
    secret: string,
    bucket: string,
    region: Option<string>,
    endpoint: Option<string>,
    forcePathStyle: bool)

  datatype FileOutput = FileOutput(filepath: string, s3: Option<S3Upload>)

  datatype EncodingPreset = H264_1080P_30

  /** The arguments of `startRoomCompositeEgress`. */
  datatype EgressRequest = EgressRequest(
    roomName: string,
    output: FileOutput,
    layout: string,
    preset: EncodingPreset,
    audioOnly: bool,
    videoOnly: bool)

  const DefaultLayout: string := "speaker"

  function DefaultFilepath(roomName: string): string {
    "recordings/" + roomName + "-{time}.mp4"
  }

  /** The string fields of the S3 configuration. */
  datatype S3Field = AccessKey | Secret | Bucket | Region | Endpoint

  /** The environment variable each field falls back to. */
  function EnvName(f: S3Field): string {
    match f
    case AccessKey => "S3_ACCESS_KEY"
    case Secret => "S3_SECRET_KEY"
    case Bucket => "S3_BUCKET"
    case Region => "S3_REGION"
    case Endpoint => "S3_ENDPOINT"
  }

  /** `options?.s3Config?.<field>`. */
  function OptionField(options: Option<RecordingOptions>, f: S3Field): Option<string> {
    if options.Some? && options.value.s3Config.Some? then
      var c := options.value.s3Config.value;
      match f
      case AccessKey => c.accessKey
      case Secret => c.secret
      case Bucket => c.bucket
      case Region => c.region
      case Endpoint => c.endpoint
    else None
  }

  function OptionForcePathStyle(options: Option<RecordingOptions>): Option<bool> {
    if options.Some? && options.value.s3Config.Some? then options.value.s3Config.value.forcePathStyle else None
  }

  /** The option value when truthy, otherwise the environment variable. */
  function Resolve(options: Option<RecordingOptions>, f: S3Field, env: Env): (r: Option<string>)
    ensures Truthy(r) <==> Truthy(OptionField(options, f)) || Truthy(EnvGet(env, EnvName(f)))
    ensures Truthy(OptionField(options, f)) ==> r == OptionField(options, f)
    ensures !Truthy(OptionField(options, f)) ==> r == EnvGet(env, EnvName(f))
  {
    OrElse(OptionField(options, f), EnvGet(env, EnvName(f)))
  }

  /** The field is set, by the option or by the environment. */
  predicate Provided(options: Option<RecordingOptions>, f: S3Field, env: Env) {
    Truthy(OptionField(options, f)) || Truthy(EnvGet(env, EnvName(f)))
  }

  function OptionalString(s: Option<string>): (r: Option<string>)
    ensures r.Some? <==> Truthy(s)
    ensures r.Some? ==> r == s
  {
    if Truthy(s) then s else None
  }

  /** The egress request `startRecording` builds. */
  function EgressRequestFor(roomName: string, options: Option<RecordingOptions>, env: Env): (r: EgressRequest)
    ensures r.roomName == roomName
    ensures r.preset == H264_1080P_30 && !r.audioOnly && !r.videoOnly
    ensures var opt := if options.Some? then options.value.filepath else None;
      r.output.filepath == if Truthy(opt) then opt.value else DefaultFilepath(roomName)
    ensures var opt := if options.Some? then options.value.layout else None;
      r.layout == if Truthy(opt) then opt.value else DefaultLayout
    ensures r.output.s3.Some? <==>
      && (Provided(options, AccessKey, env))
      && (Provided(options, Secret, env))
      && (Provided(options, Bucket, env))
    ensures r.output.s3.Some? ==>
      var up := r.output.s3.value;
      && Some(up.accessKey) == Resolve(options, AccessKey, env)
      && Some(up.secret) == Resolve(options, Secret, env)
      && Some(up.bucket) == Resolve(options, Bucket, env)
      && (up.region.Some? <==> Provided(options, Region, env))
      && (up.region.Some? ==> up.region == Resolve(options, Region, env))
      && (up.endpoint.Some? <==> Provided(options, Endpoint, env))
      && (up.endpoint.Some? ==> up.endpoint == Resolve(options, Endpoint, env))
      && (OptionForcePathStyle(options).Some? ==> up.forcePathStyle == OptionForcePathStyle(options).value)
      && (OptionForcePathStyle(options).None? ==> up.forcePathStyle == (EnvGet(env, "S3_FORCE_PATH_STYLE") == Some("true")))
  {
    var accessKey := Resolve(options, AccessKey, env);
    var secret := Resolve(options, Secret, env);
    var bucket := Resolve(options, Bucket, env);
    var region := Resolve(options, Region, env);
    var endpoint := Resolve(options, Endpoint, env);
    var forcePathStyle := Coalesce(OptionForcePathStyle(options), EnvGet(env, "S3_FORCE_PATH_STYLE") == Some("true"));
    var filepath := OrElse(if options.Some? then options.value.filepath else None, Some(DefaultFilepath(roomName))).value;
    var s3 :=
      if Truthy(accessKey) && Truthy(secret) && Truthy(bucket) then
        Some(S3Upload(accessKey.value, secret.value, bucket.value, OptionalString(region), OptionalString(endpoint), forcePathStyle))
      else None;
    var layout := OrElse(if options.Some? then options.value.layout else None, Some(DefaultLayout)).value;
    EgressRequest(roomName, FileOutput(filepath, s3), layout, H264_1080P_30, false, false)
  }

  /** An empty-string option falls through to the environment (`||`). */
  lemma EmptyAccessKeyFallsThrough(roomName: string, env: Env)
    requires "S3_ACCESS_KEY" in env && env["S3_ACCESS_KEY"] == "key"
    requires "S3_SECRET_KEY" in env && env["S3_SECRET_KEY"] != ""
    requires "S3_BUCKET" in env && env["S3_BUCKET"] != ""
    ensures var opts := Some(RecordingOptions(None, None, Some(S3Options(Some(""), None, None, None, None, None))));
      var r := EgressRequestFor(roomName, opts, env);
      r.output.s3.Some? && r.output.s3.value.accessKey == "key"
  {
  }

  /** An explicit `false` is kept (`??`), whatever the environment says. */
  lemma ExplicitFalseForcePathStyleKept(roomName: string, env: Env)
    requires "S3_FORCE_PATH_STYLE" in env && env["S3_FORCE_PATH_STYLE"] == "true"
    ensures var opts := Some(RecordingOptions(None, None, Some(S3Options(Some("k"), Some("s"), Some("b"), None, None, Some(false)))));
      var r := EgressRequestFor(roomName, opts, env);
      r.output.s3.Some? && !r.output.s3.value.forcePathStyle
  {
  }

  /** With no options and no credentials in the environment the recording
      goes to a local file under the default name and layout. */
  lemma NoCredentialsRecordsLocally(roomName: string, env: Env)
    requires "S3_ACCESS_KEY" !in env
    ensures EgressRequestFor(roomName, None, env)
         == EgressRequest(roomName, FileOutput(DefaultFilepath(roomName), None), DefaultLayout, H264_1080P_30, false, false)
  {
  }

  /** Options that name all three credentials make the environment's
      credentials irrelevant. */
  lemma OptionsOverrideEnvironment(roomName: string, options: RecordingOptions, env1: Env, env2: Env)
    requires options.s3Config.Some?
    requires Truthy(options.s3Config.value.accessKey) && Truthy(options.s3Config.value.secret) && Truthy(options.s3Config.value.bucket)
    ensures EgressRequestFor(roomName, Some(options), env1).output.s3.Some?
    ensures var a := EgressRequestFor(roomName, Some(options), env1).output.s3.value;
      var b := EgressRequestFor(roomName, Some(options), env2).output.s3.value;
      a.accessKey == b.accessKey && a.secret == b.secret && a.bucket == b.bucket
  {
  }

  /** `listRecordings`: `list || []`. An array is always truthy, so only a
      missing list becomes the empty one. */
  function ListRecordings<T>(list: Option<seq<T>>): (r: seq<T>)
    ensures list.Some? ==> r == list.value
    ensures list.None? ==> r == []
  {
    list.GetOr([])
  }
}

=== FILE: participant_layout.dfy ===
/** The participant grid and filmstrip: column count, mobile pagination
    with two tiles a page, and the per-tile select/focus toggle. The
    viewport test (`innerWidth < 640`) is an input, `isMobile`. */
module ParticipantLayout {

  import opened Common
  import opened Tracks

  const ItemsPerPageMobile: nat := 2
  const MaxColumns: nat := 4

  // ---------------------------------------------------------------------------
  // grid arithmetic
  // ---------------------------------------------------------------------------

  /** The `grid-cols-N` class of a grid of `n` tiles; the grid is only drawn
      for at least one tile. On desktop: the narrowest square grid that
      holds every tile, at most four wide. */
  function GridCols(n: nat, isMobile: bool): (r: nat)
    requires n >= 1
    ensures 1 <= r <= MaxColumns
    ensures isMobile ==> r == 1
    ensures !isMobile ==> (r == MaxColumns || n <= r * r) && (r == 1 || (r - 1) * (r - 1) < n)
  {
    if isMobile && n == 2 then 1
    else if isMobile && n > 2 then 1
    else if n == 1 then 1
    else if n <= 4 then 2
    else if n <= 9 then 3
    else 4
  }

  /** The desktop column count never shrinks as tiles are added. */
  lemma GridColsMonotone(n: nat, m: nat)
    requires 1 <= n <= m
    ensures GridCols(n, false) <= GridCols(m, false)
  {
  }

  /** `Math.ceil(n / 2)` pages on mobile, one otherwise. */
  function TotalPages(n: nat, isMobile: bool): (r: nat)
    ensures !isMobile ==> r == 1
    ensures isMobile ==> ItemsPerPageMobile * r >= n && (r == 0 || ItemsPerPageMobile * (r - 1) < n)
  {
    if isMobile then (n + ItemsPerPageMobile - 1) / ItemsPerPageMobile else 1
  }

  /** `Array.prototype.slice(start, end)` with non-negative bounds: both are
      clamped to the length. */
  function Slice<T>(s: seq<T>, start: nat, end: nat): (r: seq<T>)
    ensures start <= |s| && start <= end ==> r == s[start..if end <= |s| then end else |s|]
    ensures start >= |s| || end <= start ==> r == []
  {
    var lo := if start <= |s| then start else |s|;
    var hi := if end <= |s| then end else |s|;
    if lo <= hi then s[lo..hi] else []
  }

  /** The tiles drawn on `page`: on mobile with more than two tracks, the
      page's pair; otherwise all of them. */
  function DisplayTracks<T>(tracks: seq<T>, isMobile: bool, page: nat): (r: seq<T>)
    ensures isMobile && |tracks| > 2 ==> |r| <= ItemsPerPageMobile
    ensures isMobile && |tracks| > 2 ==>
      var lo := ItemsPerPageMobile * page;
      var hi := ItemsPerPageMobile * (page + 1);
      && (lo <= |tracks| ==> r == tracks[lo..if hi <= |tracks| then hi else |tracks|])
      && (lo > |tracks| ==> r == [])
    ensures !(isMobile && |tracks| > 2) ==> r == tracks
    ensures forall x :: x in r ==> x in tracks
  {
    if isMobile && |tracks| > 2 then
      Slice(tracks, page * ItemsPerPageMobile, (page + 1) * ItemsPerPageMobile)
    else tracks
  }

  /** The pages of a mobile grid, read in order, show every track once. */
  function PagesFrom<T>(tracks: seq<T>, page: nat, pages: nat): seq<T>
    decreases pages - page
  {
    if page >= pages then [] else DisplayTracks(tracks, true, page) + PagesFrom(tracks, page + 1, pages)
  }

  /** The pages from `page` on show the tracks from the page's first one. */
  lemma {:induction false} PagesFromRest<T>(tracks: seq<T>, page: nat)
    requires |tracks| > 2
    requires page <= TotalPages(|tracks|, true)
    ensures var lo := ItemsPerPageMobile * page;
      PagesFrom(tracks, page, TotalPages(|tracks|, true)) == tracks[if lo <= |tracks| then lo else |tracks|..]
    decreases TotalPages(|tracks|, true) - page
  {
    var pages := TotalPages(|tracks|, true);
    if page < pages {
      PagesFromRest(tracks, page + 1);
      var lo := ItemsPerPageMobile * page;
      var hi := ItemsPerPageMobile * (page + 1);
      assert lo < |tracks|;
      if hi <= |tracks| {
        assert DisplayTracks(tracks, true, page) == tracks[lo..hi];
        assert tracks[lo..] == tracks[lo..hi] + tracks[hi..];
      } else {
        assert DisplayTracks(tracks, true, page) == tracks[lo..];
        assert tracks[|tracks|..] == [];
      }
    }
  }

  lemma PagesCoverTracks<T>(tracks: seq<T>)
    requires |tracks| > 2
    ensures PagesFrom(tracks, 0, TotalPages(|tracks|, true)) == tracks
  {
    PagesFromRest(tracks, 0);
  }

  /** Every page the pager can reach shows at least one tile. */
  lemma ReachablePagesNonEmpty<T>(tracks: seq<T>, page: nat)
    requires |tracks| > 2 && page < TotalPages(|tracks|, true)
    ensures |DisplayTracks(tracks, true, page)| >= 1
  {
  }

  /** A page left over from a longer list shows nothing: the page number is
      not clamped when tracks leave. */
  lemma StalePageEmpty<T>(tracks: seq<T>, page: nat)
    requires |tracks| > 2 && page >= TotalPages(|tracks|, true)
    ensures DisplayTracks(tracks, true, page) == []
  {
  }

  /** The pager's buttons: `max(0, p - 1)` and `min(total - 1, p + 1)`. */
  function PrevPage(page: nat): (r: nat)
    ensures page > 0 ==> r == page - 1
    ensures page == 0 ==> r == 0
  {
    if page > 0 then page - 1 else 0
  }

  function NextPage(page: nat, totalPages: nat): (r: int)
    ensures r == if page + 1 < totalPages then page + 1 else totalPages - 1
  {
    if totalPages - 1 < page + 1 then totalPages - 1 else page + 1
  }

  /** The pager never leaves the page range it started in. */
  lemma PagerStaysInRange(page: nat, totalPages: nat)
    requires page < totalPages
    ensures 0 <= NextPage(page, totalPages) < totalPages
    ensures PrevPage(page) < totalPages
    ensures NextPage(page, totalPages) >= page && PrevPage(page) <= page
  {
  }

  // ---------------------------------------------------------------------------
  // what is drawn
  // ---------------------------------------------------------------------------

  datatype LayoutMode = GridMode | FilmstripMode

  datatype Rendered =
    | NothingDrawn
    | Grid(columns: nat, tiles: seq<TrackRef>, pager: bool)
    | Filmstrip(tiles: seq<TrackRef>)

  /** The component's output for the tracks, mode, viewport and page. */
  function Render(tracks: seq<TrackRef>, mode: LayoutMode, isMobile: bool, page: nat): (r: Rendered)
    ensures r.NothingDrawn? <==> |tracks| == 0
    ensures |tracks| > 0 ==> (r.Grid? <==> mode.GridMode?) && (r.Filmstrip? <==> mode.FilmstripMode?)
    ensures r.Grid? ==> r.columns == GridCols(|tracks|, isMobile)
    ensures r.Filmstrip? ==> r.tiles == tracks
    ensures r.Grid? ==> (r.pager <==> isMobile && |tracks| > 2)
    ensures r.Grid? ==> r.tiles == DisplayTracks(tracks, isMobile, page)
  {
    if |tracks| == 0 then NothingDrawn
    else match mode
      case GridMode =>
        Grid(GridCols(|tracks|, isMobile), DisplayTracks(tracks, isMobile, page), isMobile && TotalPages(|tracks|, isMobile) > 1)
      case FilmstripMode => Filmstrip(tracks)
  }

  // ---------------------------------------------------------------------------
  // selection
  // ---------------------------------------------------------------------------

  /** A click on the tile keyed `key`: ignored inside a button, otherwise it
      toggles that tile's selection (selecting it deselects any other). */
  function TileClick(selected: Option<string>, key: string, insideButton: bool): (r: Option<string>)
    ensures insideButton ==> r == selected
    ensures !insideButton ==> (r == Some(key) <==> selected != Some(key))
    ensures !insideButton && selected == Some(key) ==> r.None?
  {
    if insideButton then selected
    else if selected == Some(key) then None
    else Some(key)
  }

  /** Two clicks on the same tile leave it selected exactly when it was
      selected before, and leave nothing selected otherwise. */
  lemma TileClickTwice(selected: Option<string>, key: string)
    ensures TileClick(TileClick(selected, key, false), key, false) == (if selected == Some(key) then Some(key) else None)
  {
  }

  /** The focus button, drawn only on the selected tile: the track goes to
      the focus callback (second component) and the selection is cleared. */
  function FocusClick(selected: Option<string>, t: TrackRef): (r: (Option<string>, Option<TrackRef>))
    ensures selected == Some(TrackKey(t)) ==> r == (None, Some(t))
    ensures selected != Some(TrackKey(t)) ==> r == (selected, None)
  {
    if selected == Some(TrackKey(t)) then (None, Some(t)) else (selected, None)
  }
}

=== FILE: participant_tiles.dfy ===
/** The round participant tiles: video or an initials placeholder, the
    name label and the raised-hand badge. `JSON.parse` of the metadata is
    an input, as in the hand-raise hook. */
module ParticipantTiles {

  import opened Common
  import opened Text
  import opened Tracks
  import HandRaise

  // ---------------------------------------------------------------------------
  // initials
  // ---------------------------------------------------------------------------

  /** `word.charAt(0).toUpperCase()`: empty for the empty word. */
  function Initial(word: string): (r: string)
    ensures word == "" <==> r == ""
    ensures word != "" ==> r == [UpperChar(word[0])]
  {
    if word == "" then "" else [UpperChar(word[0])]
  }

  /** The strings of `parts` one after the other (`join("")`). */
  function Concat(parts: seq<string>): (r: string)
    ensures |parts| == 0 ==> r == ""
    ensures |parts| > 0 ==> r == parts[0] + Concat(parts[1..])
  {
    if |parts| == 0 then "" else parts[0] + Concat(parts[1..])
  }

  /** The initial of every space-separated word, empty words included. */
  function WordInitials(name: string): (r: seq<string>)
    ensures |r| == |Split(name, ' ')| >= 1
    ensures forall i :: 0 <= i < |r| ==> r[i] == Initial(Split(name, ' ')[i])
  {
    var words := Split(name, ' ');
    seq(|words|, i requires 0 <= i < |words| => Initial(words[i]))
  }

  /** `getInitials`: empty for a missing or empty name, otherwise the
      initials of the words, of which the first two are kept. */
  function GetInitials(name: Option<string>): (r: string)
    ensures |r| <= 2
    ensures !Truthy(name) ==> r == ""
    ensures Truthy(name) ==>
      var words := Split(name.value, ' ');
      r == Initial(words[0]) + (if |words| >= 2 then Initial(words[1]) else "")
  {
    if !Truthy(name) then ""
    else
      var initials := WordInitials(name.value);
      if |initials| >= 2 then
        assert Concat(initials[..2]) == initials[0] + initials[1];
        Concat(initials[..2])
      else
        assert Concat(initials) == initials[0];
        Concat(initials)
  }

  /** No initials exactly when there is no name or its first two words are
      both empty (a name of spaces, or one starting with two). */
  lemma InitialsEmptyIff(name: Option<string>)
    ensures var words := Split(name.GetOr(""), ' ');
      GetInitials(name) == "" <==> !Truthy(name) || (words[0] == "" && (|words| < 2 || words[1] == ""))
  {
  }

  /** A name that is a list of words (no word empty or holding a space)
      shows the capitals of its first one or two words. */
  lemma InitialsOfWords(words: seq<string>)
    requires |words| >= 1
    requires forall i :: 0 <= i < |words| ==> words[i] != "" && ' ' !in words[i]
    ensures var r := GetInitials(Some(Join(words, ' ')));
      && |r| == (if |words| >= 2 then 2 else 1)
      && r[0] == UpperChar(words[0][0])
      && (|words| >= 2 ==> r[1] == UpperChar(words[1][0]))
  {
    SplitJoin(words, ' ');
    assert Join(words, ' ') != "" by {
      assert Split("", ' ') == [""];
    }
  }

  /** A leading space makes the first word empty: only the second word's
      initial shows. */
  lemma LeadingSpaceDropsInitial(first: string, rest: string)
    requires first != "" && ' ' !in first
    ensures GetInitials(Some(" " + first + rest)) == [UpperChar(first[0])]
  {
    var empty: string := [];
    var s := " " + first + rest;
    assert s == empty + [' '] + (first + rest);
    SplitConcat(empty, ' ', first + rest);
    assert Split(empty, ' ') == [empty];
    var w := Split(first + rest, ' ');
    assert Split(s, ' ') == [empty] + w;
    assert w[0] != "" && w[0][0] == first[0] by {
      SplitHead(first, rest);
    }
  }

  /** The first field of a split starts with the text's first character
      when that is not a separator. */
  lemma SplitHead(first: string, rest: string)
    requires first != "" && ' ' !in first
    ensures var w := Split(first + rest, ' '); w[0] != "" && w[0][0] == first[0]
  {
    assert (first + rest)[0] == first[0];
    SplitFirstChar(first + rest);
  }

  lemma SplitFirstChar(s: string)
    requires s != "" && s[0] != ' '
    ensures var w := Split(s, ' '); w[0] != "" && w[0][0] == s[0]
  {
    var w := Split(s, ' ');
    var head := Split(s[1..], ' ');
    assert s == [s[0]] + s[1..];
    assert w[0] == [s[0]] + head[0];
  }

  // ---------------------------------------------------------------------------
  // the hand badge
  // ---------------------------------------------------------------------------

  /** `checkMetadata`: the metadata is present, parses to something other
      than `null` (reading a field of `null` throws, which shows no badge),
      and its `handRaised` is truthy (`!!meta.handRaised`). */
  function IsRaised(metadata: Option<string>, parse: HandRaise.MetaParser): (r: bool)
    ensures r ==> Truthy(metadata) && parse(metadata.value).Some? && parse(metadata.value).value.Value?
    ensures Truthy(metadata) && parse(metadata.value) == Some(HandRaise.RaisedValue) ==> r
    ensures Truthy(metadata) && parse(metadata.value) == Some(HandRaise.Value(HandRaise.Absent)) ==> !r
    ensures Truthy(metadata) && parse(metadata.value) == Some(HandRaise.JsonNull) ==> !r
  {
    if !Truthy(metadata) then false
    else
      match parse(metadata.value)
      case None => false
      case Some(v) =>
        v.Value? && ((v.handRaised.IsBool? && v.handRaised.b) || (v.handRaised.OtherValue? && v.handRaised.truthy))
  }

  /** The name of the event `HandIndicator` subscribes to. */
  const BadgeEventName: string := "metadataChanged"

  /** The badge after the participant's metadata changed and the SDK emitted
      that change under the event name `emitted`: `checkMetadata` runs again
      only when that is the name the badge listens to; otherwise the badge
      keeps what it showed (the value read at mount). */
  function BadgeAfterChange(shown: bool, emitted: string, metadata: Option<string>, parse: HandRaise.MetaParser): (r: bool)
    ensures emitted == BadgeEventName ==> r == IsRaised(metadata, parse)
    ensures emitted != BadgeEventName ==> r == shown
  {
    if emitted == BadgeEventName then IsRaised(metadata, parse) else shown
  }

  /** When the change reaches the badge under the name it listens to, every
      toast the hook raises for that change comes with the badge shown. */
  lemma ToastImpliesBadge(st: HandRaise.HandState, p: Participant, now: nat, parse: HandRaise.MetaParser, shown: bool)
    requires HandRaise.OnMetadataChanged(st, p, None, now, parse).1.Some?
    ensures BadgeAfterChange(shown, BadgeEventName, p.metadata, parse)
  {
  }

  /** Under any other event name the badge keeps its value read at mount:
      a hand that was down at mount toasts but shows no badge. */
  lemma BadgeStaleUnderOtherEventName(st: HandRaise.HandState, p: Participant, now: nat, parse: HandRaise.MetaParser, emitted: string)
    requires emitted != BadgeEventName
    requires HandRaise.OnMetadataChanged(st, p, None, now, parse).1.Some?
    ensures !BadgeAfterChange(false, emitted, p.metadata, parse)
  {
  }

  /** The converse of the first fails: a truthy `handRaised` that is not the
      boolean `true` shows the badge but never a toast. */
  lemma BadgeWithoutToast(st: HandRaise.HandState, p: Participant, now: nat, parse: HandRaise.MetaParser)
    requires Truthy(p.metadata) && parse(p.metadata.value) == Some(HandRaise.Value(HandRaise.OtherValue(true)))
    ensures IsRaised(p.metadata, parse)
    ensures HandRaise.OnMetadataChanged(st, p, None, now, parse).1.None?
  {
  }

  // ---------------------------------------------------------------------------
  // the tiles
  // ---------------------------------------------------------------------------

  datatype TileBody = Video | Placeholder(initials: string)

  datatype Tile = Tile(key: string, body: TileBody, caption: string, handRaised: bool)

  /** One tile as first drawn: the video when the track is published and
      not muted, else the participant's initials, and the badge as read at
      mount. */
  function TileOf(t: TrackRef, parse: HandRaise.MetaParser): (r: Tile)
    ensures r.body.Video? <==> t.publication.Some? && !t.publication.value.isMuted
    ensures r.body.Placeholder? ==> r.body.initials == GetInitials(t.participant.name)
    ensures r.key == TrackKey(t) && r.caption == DisplayName(t.participant)
    ensures r.handRaised == IsRaised(t.participant.metadata, parse)
  {
    var body := if t.publication.Some? && !t.publication.value.isMuted then Video else Placeholder(GetInitials(t.participant.name));
    Tile(TrackKey(t), body, DisplayName(t.participant), IsRaised(t.participant.metadata, parse))
  }

  /** The strip: nothing at all for no tracks, otherwise one tile per track
      in order. */
  function RenderTiles(tracks: seq<TrackRef>, parse: HandRaise.MetaParser): (r: Option<seq<Tile>>)
    ensures r.None? <==> |tracks| == 0
    ensures r.Some? ==> |r.value| == |tracks|
    ensures r.Some? ==> forall i :: 0 <= i < |tracks| ==> r.value[i] == TileOf(tracks[i], parse)
  {
    if |tracks| == 0 then None
    else Some(seq(|tracks|, i requires 0 <= i < |tracks| => TileOf(tracks[i], parse)))
  }

  /** A muted or unpublished track of a participant without a name shows
      an empty placeholder and the identity as its label. */
  lemma NamelessTile(t: TrackRef, parse: HandRaise.MetaParser)
    requires t.publication.None? || t.publication.value.isMuted
    requires !Truthy(t.participant.name)
    ensures TileOf(t, parse).body == Placeholder("")
    ensures TileOf(t, parse).caption == t.participant.identity
  {
  }
}

=== FILE: polls_form.dfy ===
/** The poll panel: which view it shows, the creation form's editing
    actions and launch guard, the vote button guard and the percentage
    shown next to each option. */
module PollsForm {

  import opened Common
  import opened Text
  import PollsState

  // ---------------------------------------------------------------------------
  // percentage
  // ---------------------------------------------------------------------------

  /** `Math.round(votes / total * 100)` for a positive total, else 0, in
      exact arithmetic: the nearest integer, halves rounded up. */
  function Percentage(votes: int, total: int): (r: int)
    ensures total <= 0 ==> r == 0
    ensures total > 0 ==> 2 * total * r <= 200 * votes + total < 2 * total * r + 2 * total
  {
    if total > 0 then (200 * votes + total) / (2 * total) else 0
  }

  /** The exact ratio lies within half a percent of the shown value. */
  lemma PercentageNearest(votes: int, total: int)
    requires total > 0
    ensures -total <= 2 * (100 * votes - total * Percentage(votes, total)) < total
  {
  }

  /** A share of the total shows as 0 to 100, and all votes as 100. */
  lemma PercentageBounds(votes: int, total: int)
    requires 0 <= votes <= total && total > 0
    ensures 0 <= Percentage(votes, total) <= 100
    ensures votes == total ==> Percentage(votes, total) == 100
    ensures votes == 0 ==> Percentage(votes, total) == 0
  {
    var r := Percentage(votes, total);
    var t2 := 2 * total;
    // t2 * r <= 200 * votes + total < t2 * (r + 1)
    assert t2 * r <= 200 * votes + total < t2 * r + t2;
    assert t2 * r + t2 == t2 * (r + 1);
    // 0 <= 200 * votes + total < t2 * 101
    assert 200 * votes + total <= 201 * total < t2 * 101;
    ProductOrder(t2, r, 101);
    ProductOrder(t2, -1, r);
    if votes == total {
      assert 200 * votes + total == t2 * 100 + total;
      ProductOrder(t2, r, 100);
      ProductOrder(t2, 99, r);
    }
    if votes == 0 {
      ProductOrder(t2, r, 0);
      ProductOrder(t2, -1, r);
    }
  }

  /** For a positive factor, order of products is order of the other
      factors. */
  lemma ProductOrder(d: int, a: int, b: int)
    requires d > 0
    ensures d * a < d * b <==> a < b
  {
    if a < b {
      assert d * b - d * a == d * (b - a);
    } else {
      assert d * a - d * b == d * (a - b);
    }
  }

  // ---------------------------------------------------------------------------
  // the creation form
  // ---------------------------------------------------------------------------

  const MinOptions: nat := 2
  const MaxOptions: nat := 5

  datatype Form = Form(question: string, options: seq<string>, isCreating: bool)

  /** The initial form and the one a launch leaves behind. */
  const EmptyForm: Form := Form("", ["", ""], false)

  predicate OptionCountOk(f: Form) {
    MinOptions <= |f.options| <= MaxOptions
  }

  /** `options.filter((_, i) => i !== idx)`. */
  function RemoveAt(options: seq<string>, idx: int): (r: seq<string>)
    ensures 0 <= idx < |options| ==> |r| == |options| - 1
    ensures !(0 <= idx < |options|) ==> r == options
    decreases |options|
  {
    if |options| == 0 then []
    else if idx == 0 then RemoveAt(options[1..], idx - 1)
    else [options[0]] + RemoveAt(options[1..], idx - 1)
  }

  /** The filter keeps the rest in order: the options before `idx`, then
      those after it. */
  lemma {:induction false} RemoveAtSplices(options: seq<string>, idx: int)
    requires 0 <= idx < |options|
    ensures RemoveAt(options, idx) == options[..idx] + options[idx + 1..]
    decreases |options|
  {
    if idx == 0 {
      RemoveAtOutside(options[1..], -1);
    } else {
      var tail := options[1..];
      assert RemoveAt(options, idx) == [options[0]] + RemoveAt(tail, idx - 1);
      RemoveAtSplices(tail, idx - 1);
      assert tail[..idx - 1] == options[1..idx] && tail[idx..] == options[idx + 1..];
      assert options[..idx] + options[idx + 1..] == [options[0]] + (options[1..idx] + options[idx + 1..]);
    }
  }

  lemma {:induction false} RemoveAtOutside(options: seq<string>, idx: int)
    requires idx < 0
    ensures RemoveAt(options, idx) == options
    decreases |options|
  {
    if |options| > 0 {
      RemoveAtOutside(options[1..], idx - 1);
    }
  }

  /** The user's actions on the panel. */
  datatype FormAction =
    | StartPoll
    | Cancel
    | EditQuestion(text: string)
    | AddOption
    | ChangeOption(idx: int, text: string)
    | RemoveOption(idx: int)
    | Launch(publishOk: bool)

  /** Every option is non-blank once trimmed, as is the question: the
      launch button's enabling condition and the handler's guard. */
  predicate CanLaunch(f: Form) {
    Trim(f.question) != "" && forall i :: 0 <= i < |f.options| ==> Trim(f.options[i]) != ""
  }

  /** The control for the action is on screen. Add shows below five
      options, remove beside each option above two, one input per option. */
  predicate Offered(f: Form, a: FormAction) {
    match a
    case StartPoll => !f.isCreating
    case AddOption => f.isCreating && |f.options| < MaxOptions
    case RemoveOption(idx) => f.isCreating && |f.options| > MinOptions && 0 <= idx < |f.options|
    case ChangeOption(idx, _) => f.isCreating && 0 <= idx < |f.options|
    case _ => f.isCreating
  }

  /** `handleCreate`: nothing unless the form passes the guard; then the
      question and options are submitted as typed (untrimmed) and, once
      the poll is published, the form is reset. The submitted poll is the
      second component. */
  function LaunchForm(f: Form, publishOk: bool): (r: (Form, Option<(string, seq<string>)>))
    ensures !CanLaunch(f) ==> r == (f, None)
    ensures CanLaunch(f) ==> r.1 == Some((f.question, f.options))
    ensures CanLaunch(f) && publishOk ==> r.0 == EmptyForm
    ensures CanLaunch(f) && !publishOk ==> r.0 == f
  {
    if !CanLaunch(f) then (f, None)
    else if publishOk then (EmptyForm, Some((f.question, f.options)))
    else (f, Some((f.question, f.options)))
  }

  /** One action. `ChangeOption` needs an index in range: there is one
      input per option and it passes its own index. */
  function Step(f: Form, a: FormAction): (r: Form)
    requires a.ChangeOption? ==> 0 <= a.idx < |f.options|
    ensures a.AddOption? ==> r.options == f.options + [""]
    ensures a.ChangeOption? ==>
      && |r.options| == |f.options| && r.options[a.idx] == a.text
      && forall i :: 0 <= i < |f.options| && i != a.idx ==> r.options[i] == f.options[i]
    ensures a.RemoveOption? && 0 <= a.idx < |f.options| ==> r.options == f.options[..a.idx] + f.options[a.idx + 1..]
    ensures a.StartPoll? ==> r == f.(isCreating := true)
    ensures a.Cancel? ==> r == f.(isCreating := false)
  {
    match a
    case StartPoll => f.(isCreating := true)
    case Cancel => f.(isCreating := false)
    case EditQuestion(text) => f.(question := text)
    case AddOption => f.(options := f.options + [""])
    case ChangeOption(idx, text) => f.(options := f.options[idx := text])
    case RemoveOption(idx) =>
      if 0 <= idx < |f.options| then
        RemoveAtSplices(f.options, idx);
        f.(options := RemoveAt(f.options, idx))
      else f.(options := RemoveAt(f.options, idx))
    case Launch(publishOk) => LaunchForm(f, publishOk).0
  }

  /** The form after the user's attempts; one whose control is not on
      screen does nothing. */
  function Run(f: Form, actions: seq<FormAction>): Form
    decreases |actions|
  {
    if |actions| == 0 then f
    else if !Offered(f, actions[0]) then Run(f, actions[1..])
    else Run(Step(f, actions[0]), actions[1..])
  }

  /** Whatever the user does on screen, the form keeps two to five options. */
  lemma {:induction false} OptionCountStays(f: Form, actions: seq<FormAction>)
    requires OptionCountOk(f)
    ensures OptionCountOk(Run(f, actions))
    decreases |actions|
  {
    if |actions| > 0 && !Offered(f, actions[0]) {
      OptionCountStays(f, actions[1..]);
    } else if |actions| > 0 {
      var a := actions[0];
      var g := Step(f, a);
      assert OptionCountOk(g) by {
        if a.Launch? {
          assert g == f || g == EmptyForm;
        }
      }
      OptionCountStays(g, actions[1..]);
    }
  }

  /** A launch with the guard passed submits the form's own question and
      options and, once published, the new poll carries exactly those
      options with no votes. */
  lemma LaunchCreatesPoll(f: Form, s: PollsState.State, now: nat)
    requires CanLaunch(f)
    ensures var s1 := PollsState.CreatePoll(s, now, f.question, f.options, true).0;
      var p := s1.polls[|s.polls|];
      && LaunchForm(f, true) == (EmptyForm, Some((f.question, f.options)))
      && p.question == f.question && p.isActive && p.totalVotes == 0
      && |p.options| == |f.options|
      && forall i :: 0 <= i < |f.options| ==> p.options[i] == PollsState.PollOption(f.options[i], 0)
  {
  }

  /** A blank question is never submitted, whatever the options. */
  lemma BlankQuestionRejected(f: Form, publishOk: bool)
    requires Blank(f.question)
    ensures LaunchForm(f, publishOk) == (f, None)
  {
  }

  // ---------------------------------------------------------------------------
  // the views
  // ---------------------------------------------------------------------------

  datatype View = VotingView(poll: PollsState.Poll) | CreateView | InitialView

  /** An active poll is shown whatever the creation mode. */
  function ViewOf(s: PollsState.State, f: Form): (r: View)
    ensures PollsState.ActivePoll(s.polls).Some? <==> r.VotingView?
    ensures r.VotingView? ==> r.poll == PollsState.ActivePoll(s.polls).value
    ensures r.CreateView? <==> PollsState.ActivePoll(s.polls).None? && f.isCreating
  {
    match PollsState.ActivePoll(s.polls)
    case Some(p) => VotingView(p)
    case None => if f.isCreating then CreateView else InitialView
  }

  /** Clicking option `idx` of the shown poll: the vote request, or nothing
      once this client has voted on it. */
  function ClickOption(s: PollsState.State, poll: PollsState.Poll, idx: int): (r: Option<(string, int)>)
    ensures r.Some? <==> !PollsState.HasVoted(s, poll.id)
    ensures r.Some? ==> r.value == (poll.id, idx)
  {
    if PollsState.HasVoted(s, poll.id) then None else Some((poll.id, idx))
  }

  /** After a vote went through, clicking any option of that poll does
      nothing. */
  lemma VotedClicksInert(s: PollsState.State, poll: PollsState.Poll, i1: int, i2: int)
    requires PollsState.VotePoll(s, poll.id, i1, true).1.Ok?
    ensures ClickOption(PollsState.VotePoll(s, poll.id, i1, true).0, poll, i2).None?
  {
  }
}

=== FILE: polls_state.dfy ===
/** The client's poll list: local create/vote/end, each published to the
    room before the local list changes, and the handler of poll messages
    from other participants. The data channel is an input: whether the
    publish succeeded, and the decoded message (or the parse failure). */
module PollsState {

  import opened Common
  import Text

  datatype PollOption = PollOption(text: string, votes: int)

  datatype Poll = Poll(id: string, question: string, options: seq<PollOption>, isActive: bool, totalVotes: int)

  /** The provider's state: the poll list and the ids voted on here. */
  datatype State = State(polls: seq<Poll>, voted: set<string>)

  const Initial: State := State([], {})

  datatype PollError =
    | PublishFailed
      /** A vote whose option index is outside the matching poll's options:
          the update function throws on `newOptions[i].votes++`. */
    | OptionOutOfRange

  // ---------------------------------------------------------------------------
  // the tally invariant
  // ---------------------------------------------------------------------------

  function SumVotes(options: seq<PollOption>): int {
    if |options| == 0 then 0 else SumVotes(options[..|options| - 1]) + options[|options| - 1].votes
  }

  /** The poll's total is the sum of its options' votes. */
  predicate Tallied(p: Poll) {
    p.totalVotes == SumVotes(p.options)
  }

  predicate AllTallied(polls: seq<Poll>) {
    forall i :: 0 <= i < |polls| ==> Tallied(polls[i])
  }

  // ---------------------------------------------------------------------------
  // queries
  // ---------------------------------------------------------------------------

  /** `activePoll`: the first active poll, or null. */
  function ActivePoll(polls: seq<Poll>): (r: Option<Poll>)
    ensures r.None? <==> forall i :: 0 <= i < |polls| ==> !polls[i].isActive
    ensures r.Some? ==>
      exists i :: 0 <= i < |polls| && polls[i] == r.value && r.value.isActive && forall j :: 0 <= j < i ==> !polls[j].isActive
  {
    if |polls| == 0 then None
    else if polls[0].isActive then Some(polls[0])
    else
      var r := ActivePoll(polls[1..]);
      assert forall i :: 1 <= i < |polls| ==> polls[i] == polls[1..][i - 1];
      r
  }

  /** `hasVoted`. */
  predicate HasVoted(s: State, pollId: string) {
    pollId in s.voted
  }

  // ---------------------------------------------------------------------------
  // the per-poll updates
  // ---------------------------------------------------------------------------

  /** The options with one more vote at `idx`. */
  function AddVote(options: seq<PollOption>, idx: nat): (r: seq<PollOption>)
    requires idx < |options|
    ensures |r| == |options|
    ensures r[idx] == options[idx].(votes := options[idx].votes + 1)
    ensures forall i :: 0 <= i < |options| && i != idx ==> r[i] == options[i]
  {
    options[idx := options[idx].(votes := options[idx].votes + 1)]
  }

  /** One more vote at any option adds exactly one to the sum. */
  lemma {:induction false} AddVoteSum(options: seq<PollOption>, idx: nat)
    requires idx < |options|
    ensures SumVotes(AddVote(options, idx)) == SumVotes(options) + 1
    decreases |options|
  {
    var r := AddVote(options, idx);
    var n := |options| - 1;
    if idx == n {
      assert r[..n] == options[..n];
    } else {
      AddVoteSum(options[..n], idx);
      assert r[..n] == AddVote(options[..n], idx);
    }
  }

  /** The option index is usable on every poll with that id. */
  predicate VoteFits(polls: seq<Poll>, pollId: string, idx: int) {
    forall i :: 0 <= i < |polls| && polls[i].id == pollId ==> 0 <= idx < |polls[i].options|
  }

  /** The update both the local and the remote vote apply: every poll with
      the id gets the vote and one more in its total. */
  function CountVote(polls: seq<Poll>, pollId: string, idx: int): (r: seq<Poll>)
    requires VoteFits(polls, pollId, idx)
    ensures |r| == |polls|
    ensures forall i :: 0 <= i < |polls| && polls[i].id != pollId ==> r[i] == polls[i]
    ensures forall i :: 0 <= i < |polls| && polls[i].id == pollId ==>
      r[i] == polls[i].(options := AddVote(polls[i].options, idx), totalVotes := polls[i].totalVotes + 1)
  {
    seq(|polls|, i requires 0 <= i < |polls| =>
      if polls[i].id != pollId then polls[i]
      else polls[i].(options := AddVote(polls[i].options, idx), totalVotes := polls[i].totalVotes + 1))
  }

  lemma CountVoteTallied(polls: seq<Poll>, pollId: string, idx: int)
    requires VoteFits(polls, pollId, idx)
    requires AllTallied(polls)
    ensures AllTallied(CountVote(polls, pollId, idx))
  {
    var r := CountVote(polls, pollId, idx);
    forall i | 0 <= i < |r|
      ensures Tallied(r[i])
    {
      if polls[i].id == pollId {
        AddVoteSum(polls[i].options, idx);
      }
    }
  }

  /** The update of an end, local or remote: every poll with the id stops
      being active, nothing else changes. */
  function Deactivate(polls: seq<Poll>, pollId: string): (r: seq<Poll>)
    ensures |r| == |polls|
    ensures forall i :: 0 <= i < |polls| ==>
      r[i] == if polls[i].id == pollId then polls[i].(isActive := false) else polls[i]
  {
    seq(|polls|, i requires 0 <= i < |polls| => if polls[i].id == pollId then polls[i].(isActive := false) else polls[i])
  }

  lemma DeactivateTallied(polls: seq<Poll>, pollId: string)
    requires AllTallied(polls)
    ensures AllTallied(Deactivate(polls, pollId))
  {
  }

  /** After an end no poll with that id is the active one. */
  lemma DeactivateEndsPoll(polls: seq<Poll>, pollId: string)
    ensures var a := ActivePoll(Deactivate(polls, pollId)); a.None? || a.value.id != pollId
  {
  }

  // ---------------------------------------------------------------------------
  // local operations
  // ---------------------------------------------------------------------------

  /** The poll `createPoll` builds; `now` is the clock reading whose decimal
      form is the id. */
  function NewPoll(now: nat, question: string, texts: seq<string>): (p: Poll)
    ensures p.id == Text.Digits(now) && p.question == question && p.isActive && p.totalVotes == 0
    ensures |p.options| == |texts|
    ensures forall i :: 0 <= i < |texts| ==> p.options[i] == PollOption(texts[i], 0)
    ensures Tallied(p)
  {
    var options := seq(|texts|, i requires 0 <= i < |texts| => PollOption(texts[i], 0));
    ZeroVotesSum(options);
    Poll(Text.Digits(now), question, options, true, 0)
  }

  lemma {:induction false} ZeroVotesSum(options: seq<PollOption>)
    requires forall i :: 0 <= i < |options| ==> options[i].votes == 0
    ensures SumVotes(options) == 0
    decreases |options|
  {
    if |options| > 0 {
      ZeroVotesSum(options[..|options| - 1]);
    }
  }

  /** `createPoll`: publish, then append. A failed publish throws before the
      list changes. */
  function CreatePoll(s: State, now: nat, question: string, texts: seq<string>, publishOk: bool): (r: (State, Result<(), PollError>))
    ensures !publishOk ==> r == (s, Err(PublishFailed))
    ensures publishOk ==>
      && r.1.Ok? && r.0.voted == s.voted
      && |r.0.polls| == |s.polls| + 1 && r.0.polls[..|s.polls|] == s.polls
      && r.0.polls[|s.polls|] == NewPoll(now, question, texts)
    ensures AllTallied(s.polls) ==> AllTallied(r.0.polls)
  {
    if !publishOk then (s, Err(PublishFailed))
    else
      var polls := s.polls + [NewPoll(now, question, texts)];
      assert polls[..|s.polls|] == s.polls;
      (s.(polls := polls), Ok(()))
  }

  /** `votePoll`: nothing at all when this client already voted on the poll;
      otherwise publish, remember the vote and count it locally. */
  function VotePoll(s: State, pollId: string, idx: int, publishOk: bool): (r: (State, Result<(), PollError>))
    ensures HasVoted(s, pollId) ==> r == (s, Ok(()))
    ensures !HasVoted(s, pollId) && !publishOk ==> r == (s, Err(PublishFailed))
    ensures !HasVoted(s, pollId) && publishOk && !VoteFits(s.polls, pollId, idx) ==> r == (s, Err(OptionOutOfRange))
    ensures r.0 != s ==>
      && !HasVoted(s, pollId) && publishOk && VoteFits(s.polls, pollId, idx)
      && r.0 == State(CountVote(s.polls, pollId, idx), s.voted + {pollId})
    ensures !HasVoted(s, pollId) && publishOk && VoteFits(s.polls, pollId, idx) ==> r.1.Ok? && HasVoted(r.0, pollId)
    ensures AllTallied(s.polls) ==> AllTallied(r.0.polls)
  {
    if HasVoted(s, pollId) then (s, Ok(()))
    else if !publishOk then (s, Err(PublishFailed))
    else if !VoteFits(s.polls, pollId, idx) then (s, Err(OptionOutOfRange))
    else
      var polls := CountVote(s.polls, pollId, idx);
      if AllTallied(s.polls) then
        CountVoteTallied(s.polls, pollId, idx);
        (State(polls, s.voted + {pollId}), Ok(()))
      else
        (State(polls, s.voted + {pollId}), Ok(()))
  }

  /** A client votes at most once per poll: after a vote went through, any
      further vote on that poll changes nothing. */
  lemma VoteOnce(s: State, pollId: string, i1: int, i2: int, p1: bool, p2: bool)
    requires VotePoll(s, pollId, i1, p1).1.Ok?
    ensures var s1 := VotePoll(s, pollId, i1, p1).0; VotePoll(s1, pollId, i2, p2) == (s1, Ok(()))
  {
  }

  /** `endPoll`: publish, then deactivate. */
  function EndPoll(s: State, pollId: string, publishOk: bool): (r: (State, Result<(), PollError>))
    ensures !publishOk ==> r == (s, Err(PublishFailed))
    ensures publishOk ==> r == (s.(polls := Deactivate(s.polls, pollId)), Ok(()))
  {
    if !publishOk then (s, Err(PublishFailed))
    else (s.(polls := Deactivate(s.polls, pollId)), Ok(()))
  }

  // ---------------------------------------------------------------------------
  // remote messages
  // ---------------------------------------------------------------------------

  /** A decoded poll message; any other `type` is `Ignored`. */
  datatype PollMessage =
    | PollCreate(poll: Poll)
    | PollVote(pollId: string, optionIndex: int)
    | PollEnd(pollId: string)
    | Ignored

  predicate HasPoll(polls: seq<Poll>, id: string) {
    exists i :: 0 <= i < |polls| && polls[i].id == id
  }

  /** `handleData`: `topic` as received, `message` the parsed payload or
      `None` when `JSON.parse` throws (the error is logged and swallowed).
      Remote votes do not touch the set of polls voted on here. */
  function HandleData(s: State, topic: Option<string>, message: Option<PollMessage>): (r: (State, Result<(), PollError>))
    ensures topic != Some("polls") || message.None? ==> r == (s, Ok(()))
    ensures r.0.voted == s.voted
    ensures message.Some? && message.value.PollCreate? && HasPoll(s.polls, message.value.poll.id) ==> r == (s, Ok(()))
    ensures topic == Some("polls") && message.Some? && message.value.PollCreate? && !HasPoll(s.polls, message.value.poll.id)
      ==> r.0.polls == s.polls + [message.value.poll]
    ensures topic == Some("polls") && message.Some? && message.value.PollEnd?
      ==> r.0.polls == Deactivate(s.polls, message.value.pollId)
    ensures topic == Some("polls") && message.Some? && message.value.PollVote?
      ==> (r.1.Ok? <==> VoteFits(s.polls, message.value.pollId, message.value.optionIndex))
    ensures topic == Some("polls") && message.Some? && message.value.PollVote?
      && VoteFits(s.polls, message.value.pollId, message.value.optionIndex)
      ==> r.0.polls == CountVote(s.polls, message.value.pollId, message.value.optionIndex)
    ensures topic == Some("polls") && message.Some? && message.value.PollVote?
      && !VoteFits(s.polls, message.value.pollId, message.value.optionIndex)
      ==> r == (s, Err(OptionOutOfRange))
    ensures message == Some(Ignored) ==> r == (s, Ok(()))
  {
    if topic != Some("polls") || message.None? then (s, Ok(()))
    else
      match message.value
      case PollCreate(poll) =>
        if HasPoll(s.polls, poll.id) then (s, Ok(())) else (s.(polls := s.polls + [poll]), Ok(()))
      case PollVote(pollId, idx) =>
        if VoteFits(s.polls, pollId, idx) then (s.(polls := CountVote(s.polls, pollId, idx)), Ok(()))
        else (s, Err(OptionOutOfRange))
      case PollEnd(pollId) => (s.(polls := Deactivate(s.polls, pollId)), Ok(()))
      case Ignored => (s, Ok(()))
  }

  /** A poll message is tallied when it carries a tallied poll, as every
      `createPoll` sends. */
  predicate WellFormed(message: Option<PollMessage>) {
    message.Some? && message.value.PollCreate? ==> Tallied(message.value.poll)
  }

  /** Remote messages keep every total equal to its options' sum. */
  lemma HandleDataTallied(s: State, topic: Option<string>, message: Option<PollMessage>)
    requires AllTallied(s.polls) && WellFormed(message)
    ensures AllTallied(HandleData(s, topic, message).0.polls)
  {
    if topic == Some("polls") && message.Some? && message.value.PollVote? {
      if VoteFits(s.polls, message.value.pollId, message.value.optionIndex) {
        CountVoteTallied(s.polls, message.value.pollId, message.value.optionIndex);
      }
    }
  }

  /** A poll announced twice is listed once. */
  lemma CreateDeduplicated(s: State, poll: Poll)
    ensures var s1 := HandleData(s, Some("polls"), Some(PollCreate(poll))).0;
      HandleData(s1, Some("polls"), Some(PollCreate(poll))).0 == s1
  {
    var s1 := HandleData(s, Some("polls"), Some(PollCreate(poll))).0;
    if !HasPoll(s.polls, poll.id) {
      assert s1.polls[|s.polls|] == poll;
    }
  }
}

=== FILE: recording_client.dfy ===
/** The client's recording state: the start and stop requests with their
    guards and loading flag, and the status check on mount. Each request is
    split at its `await`: a begin step (guard, loading on) and a finish
    step given the server's answer (state update, loading off). */
module RecordingClient {

  import opened Common
  import RecordingRegistry

  datatype ClientState = ClientState(isRecording: bool, egressId: Option<string>, startTime: Option<int>, isLoading: bool)

  const Idle: ClientState := ClientState(false, None, None, false)

  /** What the start request came back with: an ok response and the
      `egressId` field of its body, or anything else (a non-ok status, a
      network error, an unreadable body), all of which are caught. */
  datatype StartReply = StartOk(egressId: Option<string>) | StartError

  /** `!room.name || isRecording`: the start request is not sent. */
  predicate StartBlocked(s: ClientState, roomName: string) {
    roomName == "" || s.isRecording
  }

  /** `!egressId || !isRecording`: the stop request is not sent. */
  predicate StopBlocked(s: ClientState) {
    !Truthy(s.egressId) || !s.isRecording
  }

  /** Up to the request: a blocked start returns at once; otherwise the
      loading flag goes on and the request is sent (second component). */
  function BeginStart(s: ClientState, roomName: string): (r: (ClientState, bool))
    ensures r.1 <==> !StartBlocked(s, roomName)
    ensures !r.1 ==> r.0 == s
    ensures r.1 ==> r.0 == s.(isLoading := true)
  {
    if StartBlocked(s, roomName) then (s, false) else (s.(isLoading := true), true)
  }

  /** After the request: on success recording with the reply's id since
      `now`; on any error the recording fields are kept; in both cases the
      `finally` clears the loading flag. */
  function FinishStart(s: ClientState, reply: StartReply, now: int): (r: ClientState)
    ensures !r.isLoading
    ensures reply.StartOk? ==> r.isRecording && r.egressId == reply.egressId && r.startTime == Some(now)
    ensures reply.StartError? ==> r == s.(isLoading := false)
  {
    match reply
    case StartOk(id) => ClientState(true, id, Some(now), false)
    case StartError => s.(isLoading := false)
  }

  /** The whole `startRecording`; `reply` is consulted only when the request
      is sent. */
  function StartRecording(s: ClientState, roomName: string, reply: StartReply, now: int): (r: ClientState)
    ensures StartBlocked(s, roomName) ==> r == s
    ensures !StartBlocked(s, roomName) ==> !r.isLoading
    ensures !StartBlocked(s, roomName) && reply.StartError? ==>
      r.isRecording == s.isRecording && r.egressId == s.egressId && r.startTime == s.startTime
  {
    var (begun, sent) := BeginStart(s, roomName);
    if sent then FinishStart(begun, reply, now) else begun
  }

  datatype StopReply = StopOk | StopError

  function BeginStop(s: ClientState): (r: (ClientState, bool))
    ensures r.1 <==> !StopBlocked(s)
    ensures !r.1 ==> r.0 == s
    ensures r.1 ==> r.0 == s.(isLoading := true)
  {
    if StopBlocked(s) then (s, false) else (s.(isLoading := true), true)
  }

  function FinishStop(s: ClientState, reply: StopReply): (r: ClientState)
    ensures !r.isLoading
    ensures reply.StopOk? ==> !r.isRecording && r.egressId.None? && r.startTime.None?
    ensures reply.StopError? ==> r == s.(isLoading := false)
  {
    match reply
    case StopOk => ClientState(false, None, None, false)
    case StopError => s.(isLoading := false)
  }

  function StopRecording(s: ClientState, reply: StopReply): (r: ClientState)
    ensures StopBlocked(s) ==> r == s
    ensures !StopBlocked(s) ==> !r.isLoading
    ensures !StopBlocked(s) && reply.StopError? ==>
      r.isRecording == s.isRecording && r.egressId == s.egressId && r.startTime == s.startTime
  {
    var (begun, sent) := BeginStop(s);
    if sent then FinishStop(begun, reply) else begun
  }

  /** Starting from an idle client, no sequence of completed starts and
      stops leaves the loading flag on. */
  datatype Request = Start(roomName: string, startReply: StartReply, now: int) | Stop(stopReply: StopReply)

  function RunRequests(s: ClientState, requests: seq<Request>): ClientState
    decreases |requests|
  {
    if |requests| == 0 then s
    else
      var next := match requests[0]
        case Start(roomName, reply, now) => StartRecording(s, roomName, reply, now)
        case Stop(reply) => StopRecording(s, reply);
      RunRequests(next, requests[1..])
  }

  lemma {:induction false} LoadingAlwaysCleared(s: ClientState, requests: seq<Request>)
    requires !s.isLoading
    ensures !RunRequests(s, requests).isLoading
    decreases |requests|
  {
    if |requests| > 0 {
      var next := match requests[0]
        case Start(roomName, reply, now) => StartRecording(s, roomName, reply, now)
        case Stop(reply) => StopRecording(s, reply);
      LoadingAlwaysCleared(next, requests[1..]);
    }
  }

  /** A start that went through with an id makes the stop request possible,
      and a stop that went through makes a start possible again. */
  lemma StartEnablesStop(s: ClientState, roomName: string, id: string, now: int)
    requires !StartBlocked(s, roomName) && id != ""
    ensures !StopBlocked(StartRecording(s, roomName, StartOk(Some(id)), now))
    ensures StartBlocked(StartRecording(s, roomName, StartOk(Some(id)), now), roomName)
  {
  }

  lemma StopEnablesStart(s: ClientState, roomName: string)
    requires !StopBlocked(s) && roomName != ""
    ensures !StartBlocked(StopRecording(s, StopOk), roomName)
    ensures StopBlocked(StopRecording(s, StopOk))
  {
  }

  // ---------------------------------------------------------------------------
  // the status check on mount
  // ---------------------------------------------------------------------------

  /** The parsed status body: `isRecording` (truthy or not), `egressId` and
      `startedAt` as sent. */
  datatype StatusReply = StatusReply(isRecording: bool, egressId: Option<string>, startedAt: Option<int>)

  /** `checkStatus`: with no room name nothing is asked; a failed request
      (`None`) is logged; only a reply saying "recording" is adopted. */
  function CheckStatus(s: ClientState, roomName: string, reply: Option<StatusReply>): (r: ClientState)
    ensures r.isLoading == s.isLoading
    ensures r.isRecording == (s.isRecording || (roomName != "" && reply.Some? && reply.value.isRecording))
    ensures roomName != "" && reply.Some? && reply.value.isRecording ==>
      r.egressId == reply.value.egressId && r.startTime == reply.value.startedAt
    ensures !(roomName != "" && reply.Some? && reply.value.isRecording) ==> r == s
  {
    if roomName == "" || reply.None? || !reply.value.isRecording then s
    else s.(isRecording := true, egressId := reply.value.egressId, startTime := reply.value.startedAt)
  }

  /** The server's `getRecordingStatus` answer as the client parses it. */
  function ReplyOf(report: RecordingRegistry.StatusReport): (r: StatusReply)
    ensures r.isRecording <==> report.InProgress?
  {
    match report
    case NotRecording => StatusReply(false, None, None)
    case InProgress(id, at) => StatusReply(true, Some(id), Some(at))
  }

  /** On mount the client picks up a recording the server knows about, with
      the server's egress id, so that it can be stopped from this client. */
  lemma MountAdoptsServerRecording(reg: RecordingRegistry.Registry, roomName: string)
    requires roomName != ""
    requires RecordingRegistry.GetRecordingStatus(reg, roomName).InProgress?
    ensures var r := CheckStatus(Idle, roomName, Some(ReplyOf(RecordingRegistry.GetRecordingStatus(reg, roomName))));
      r.isRecording && r.egressId == Some(RecordingRegistry.GetRecordingStatus(reg, roomName).egressId)
  {
  }

  /** The check never turns a recording client off, whatever the server says. */
  lemma MountNeverClears(s: ClientState, roomName: string, reply: Option<StatusReply>)
    requires s.isRecording
    ensures CheckStatus(s, roomName, reply).isRecording
  {
  }

  /** A client start answered by the server's `startRecording` holds the id
      the server then reports for the room. */
  lemma ClientAgreesWithServer(s: ClientState, reg: RecordingRegistry.Registry, roomName: string, egress: Option<string>, now: int, t: int)
    requires RecordingRegistry.Valid(reg)
    requires !StartBlocked(s, roomName)
    requires RecordingRegistry.StartRecording(reg, roomName, egress, now).1 != RecordingRegistry.StartFailed
    ensures var (reg1, out) := RecordingRegistry.StartRecording(reg, roomName, egress, now);
      var c := StartRecording(s, roomName, StartOk(Some(out.egressId)), t);
      c.isRecording && c.egressId == Some(RecordingRegistry.GetRecordingStatus(reg1, roomName).egressId)
  {
    RecordingRegistry.StartThenStatus(reg, roomName, egress, now);
  }
}

=== FILE: recording_service.dfy ===
/** The server's recording bookkeeping: an in-memory map from egress id to
    recording state, in insertion order (a JavaScript `Map`), consulted
    before and updated after each call to the egress service. The egress
    service itself is an input: the id it hands back, or its failure. */
module RecordingRegistry {

  import opened Common

  datatype Status = Active | Stopped

  datatype Recording = Recording(roomName: string, egressId: string, startedAt: int, status: Status)

  /** The `recordings` map: entries in insertion order, keyed by `egressId`. */
  type Registry = seq<Recording>

  predicate ActiveIn(r: Recording, roomName: string) {
    r.roomName == roomName && r.status == Active
  }

  /** No two entries share a key. */
  predicate KeysUnique(reg: Registry) {
    forall i, j :: 0 <= i < j < |reg| ==> reg[i].egressId != reg[j].egressId
  }

  /** At most one active recording per room. */
  predicate OneActivePerRoom(reg: Registry) {
    forall i, j :: 0 <= i < j < |reg| && reg[i].status == Active && reg[j].status == Active
      ==> reg[i].roomName != reg[j].roomName
  }

  predicate Valid(reg: Registry) {
    KeysUnique(reg) && OneActivePerRoom(reg)
  }

  // ---------------------------------------------------------------------------
  // the map operations
  // ---------------------------------------------------------------------------

  /** Position of the entry with key `egressId`, if any. */
  function IndexOf(reg: Registry, egressId: string): (r: Option<nat>)
    ensures r.Some? ==> r.value < |reg| && reg[r.value].egressId == egressId
    ensures r.Some? ==> forall j :: 0 <= j < r.value ==> reg[j].egressId != egressId
    ensures r.None? <==> forall j :: 0 <= j < |reg| ==> reg[j].egressId != egressId
  {
    if |reg| == 0 then None
    else if reg[0].egressId == egressId then Some(0)
    else match IndexOf(reg[1..], egressId)
      case None => None
      case Some(i) => Some(i + 1)
  }

  /** `recordings.get(egressId)`. */
  function Get(reg: Registry, egressId: string): (r: Option<Recording>)
    ensures r.Some? <==> exists i :: 0 <= i < |reg| && reg[i].egressId == egressId
    ensures r.Some? ==> r.value.egressId == egressId && r.value in reg
  {
    match IndexOf(reg, egressId)
    case None => None
    case Some(i) => Some(reg[i])
  }

  /** `recordings.set(rec.egressId, rec)`: replaces the entry with that key
      where it stands, or appends a new one. */
  function Put(reg: Registry, rec: Recording): (r: Registry)
    ensures IndexOf(reg, rec.egressId).Some? ==> |r| == |reg|
    ensures IndexOf(reg, rec.egressId).None? ==> r == reg + [rec]
    ensures rec in r
    ensures forall i :: 0 <= i < |r| && r[i] != rec ==> i < |reg| && r[i] == reg[i]
    ensures forall i :: 0 <= i < |reg| && reg[i].egressId != rec.egressId ==> r[i] == reg[i]
  {
    match IndexOf(reg, rec.egressId)
    case Some(i) =>
      var r := reg[i := rec];
      assert r[i] == rec;
      r
    case None => reg + [rec]
  }

  lemma PutKeepsKeysUnique(reg: Registry, rec: Recording)
    requires KeysUnique(reg)
    ensures KeysUnique(Put(reg, rec))
  {
  }

  /** The entry at `i` is the first with its key. */
  lemma IndexOfFirst(reg: Registry, key: string, i: nat)
    requires i < |reg| && reg[i].egressId == key
    requires forall j :: 0 <= j < i ==> reg[j].egressId != key
    ensures IndexOf(reg, key) == Some(i)
  {
    var m := IndexOf(reg, key);
    assert m.Some?;
    assert !(m.value < i);
  }

  /** Reading back what was just put returns it; other keys read as before. */
  lemma PutThenGet(reg: Registry, rec: Recording, key: string)
    ensures Get(Put(reg, rec), rec.egressId) == Some(rec)
    ensures key != rec.egressId ==> Get(Put(reg, rec), key) == Get(reg, key)
  {
    var r := Put(reg, rec);
    match IndexOf(reg, rec.egressId) {
      case Some(i) =>
        assert r == reg[i := rec];
        IndexOfFirst(r, rec.egressId, i);
      case None =>
        IndexOfFirst(r, rec.egressId, |reg|);
    }
    if key != rec.egressId {
      // every entry of `r` is the put one or the old one at its place
      assert forall j :: 0 <= j < |r| ==> r[j] == rec || r[j] == reg[j];
      match IndexOf(reg, key) {
        case None =>
        case Some(k) =>
          IndexOfFirst(r, key, k);
      }
    }
  }

  /** The first active recording of `roomName` in insertion order (the `find`
      over the map's values). */
  function FindActive(reg: Registry, roomName: string): (r: Option<Recording>)
    ensures r.Some? <==> exists i :: 0 <= i < |reg| && ActiveIn(reg[i], roomName)
    ensures r.Some? ==> ActiveIn(r.value, roomName) && r.value in reg
    ensures r.Some? ==> exists i :: 0 <= i < |reg| && reg[i] == r.value && NoneActiveBefore(reg, roomName, i)
  {
    if |reg| == 0 then None
    else if ActiveIn(reg[0], roomName) then
      assert NoneActiveBefore(reg, roomName, 0);
      Some(reg[0])
    else
      var rest := FindActive(reg[1..], roomName);
      assert forall i :: 1 <= i < |reg| ==> reg[i] == reg[1..][i - 1];
      if rest.Some? then
        var k :| 0 <= k < |reg[1..]| && reg[1..][k] == rest.value && NoneActiveBefore(reg[1..], roomName, k);
        assert reg[k + 1] == rest.value;
        assert NoneActiveBefore(reg, roomName, k + 1) by {
          forall j | 0 <= j < k + 1
            ensures !ActiveIn(reg[j], roomName)
          {
            if j > 0 { assert reg[j] == reg[1..][j - 1]; }
          }
        }
        rest
      else
        rest
  }

  /** No entry before position `i` is an active recording of `roomName`. */
  predicate NoneActiveBefore(reg: Registry, roomName: string, i: nat)
    requires i <= |reg|
  {
    forall j :: 0 <= j < i ==> !ActiveIn(reg[j], roomName)
  }

  /** With one active recording per room the `find` has only one answer. */
  lemma FindActiveUnique(reg: Registry, roomName: string, i: nat)
    requires OneActivePerRoom(reg)
    requires i < |reg| && ActiveIn(reg[i], roomName)
    ensures FindActive(reg, roomName) == Some(reg[i])
  {
    var r := FindActive(reg, roomName);
    var k :| 0 <= k < |reg| && reg[k] == r.value;
    assert k == i by {
      if k < i {
      } else if i < k {
      }
    }
  }

  // ---------------------------------------------------------------------------
  // the service operations
  // ---------------------------------------------------------------------------

  /** How `startRecording` answered: with a recording already running
      (no call out), with a newly started one, or with the egress
      service's error. */
  datatype StartOutcome = Reused(egressId: string) | Started(egressId: string) | StartFailed

  /** `startRecording`. `egress` is what the egress service's start returns:
      the new egress id, or `None` when it throws (the error propagates and
      nothing is stored). `now` is the clock reading stored as `startedAt`. */
  function StartRecording(reg: Registry, roomName: string, egress: Option<string>, now: int): (r: (Registry, StartOutcome))
    ensures FindActive(reg, roomName).Some? ==>
      r == (reg, Reused(FindActive(reg, roomName).value.egressId))
    ensures FindActive(reg, roomName).None? && egress.None? ==> r == (reg, StartFailed)
    ensures FindActive(reg, roomName).None? && egress.Some? ==>
      && r.1 == Started(egress.value)
      && Get(r.0, egress.value) == Some(Recording(roomName, egress.value, now, Active))
      && (forall k :: k != egress.value ==> Get(r.0, k) == Get(reg, k))
  {
    match FindActive(reg, roomName)
    case Some(existing) => (reg, Reused(existing.egressId))
    case None =>
      match egress
      case None => (reg, StartFailed)
      case Some(id) =>
        var rec := Recording(roomName, id, now, Active);
        forall k ensures Get(Put(reg, rec), k) == if k == id then Some(rec) else Get(reg, k) {
          PutThenGet(reg, rec, k);
        }
        (Put(reg, rec), Started(id))
  }

  /** A second start for a room being recorded never consults the egress
      service: its answer, whatever it would be, changes nothing. */
  lemma StartIgnoresEgressWhenActive(reg: Registry, roomName: string, e1: Option<string>, e2: Option<string>, now: int)
    requires FindActive(reg, roomName).Some?
    ensures StartRecording(reg, roomName, e1, now) == StartRecording(reg, roomName, e2, now)
    ensures StartRecording(reg, roomName, e1, now).0 == reg
  {
  }

  /** Start is idempotent per room: starting again returns the same id and
      leaves the map as the first start left it. */
  lemma StartIdempotent(reg: Registry, roomName: string, e1: Option<string>, e2: Option<string>, t1: int, t2: int)
    requires Valid(reg)
    requires StartRecording(reg, roomName, e1, t1).1 != StartFailed
    ensures var (reg1, first) := StartRecording(reg, roomName, e1, t1);
      StartRecording(reg1, roomName, e2, t2) == (reg1, Reused(first.egressId))
  {
    var (reg1, first) := StartRecording(reg, roomName, e1, t1);
    if FindActive(reg, roomName).None? {
      StartPreservesValid(reg, roomName, e1, t1);
      var rec := Recording(roomName, e1.value, t1, Active);
      var k :| 0 <= k < |reg1| && reg1[k] == rec;
      FindActiveUnique(reg1, roomName, k);
    }
  }

  lemma StartPreservesValid(reg: Registry, roomName: string, egress: Option<string>, now: int)
    requires Valid(reg)
    ensures Valid(StartRecording(reg, roomName, egress, now).0)
  {
    if FindActive(reg, roomName).None? && egress.Some? {
      var rec := Recording(roomName, egress.value, now, Active);
      PutKeepsKeysUnique(reg, rec);
      var r := Put(reg, rec);
      forall i, j | 0 <= i < j < |r| && r[i].status == Active && r[j].status == Active
        ensures r[i].roomName != r[j].roomName
      {
        if r[i] == rec {
          assert r[j] == reg[j];
          assert !ActiveIn(reg[j], roomName);
        } else if r[j] == rec {
          assert r[i] == reg[i];
          assert !ActiveIn(reg[i], roomName);
        } else {
          assert r[i] == reg[i] && r[j] == reg[j];
        }
      }
    }
  }

  datatype StopError = NotFound(egressId: string) | EgressStopFailed

  /** `stopRecording`. An unknown id throws NotFound before anything else;
      `egressFails` is the egress service's stop throwing, after which the
      entry is left as it was. */
  function StopRecording(reg: Registry, egressId: string, egressFails: bool): (r: (Registry, Result<(), StopError>))
    ensures Get(reg, egressId).None? ==> r == (reg, Err(NotFound(egressId)))
    ensures Get(reg, egressId).Some? && egressFails ==> r == (reg, Err(EgressStopFailed))
    ensures r.1.Ok? <==> Get(reg, egressId).Some? && !egressFails
    ensures r.1.Ok? ==>
      && |r.0| == |reg|
      && (forall i :: 0 <= i < |reg| && reg[i].egressId != egressId ==> r.0[i] == reg[i])
      && Get(r.0, egressId) == Some(Get(reg, egressId).value.(status := Stopped))
  {
    match Get(reg, egressId)
    case None => (reg, Err(NotFound(egressId)))
    case Some(rec) =>
      if egressFails then (reg, Err(EgressStopFailed))
      else
        var stopped := rec.(status := Stopped);
        assert IndexOf(reg, egressId).Some?;
        PutThenGet(reg, stopped, egressId);
        (Put(reg, stopped), Ok(()))
  }

  lemma StopPreservesValid(reg: Registry, egressId: string, egressFails: bool)
    requires Valid(reg)
    ensures Valid(StopRecording(reg, egressId, egressFails).0)
  {
    var r := StopRecording(reg, egressId, egressFails).0;
    if Get(reg, egressId).Some? && !egressFails {
      var stopped := Get(reg, egressId).value.(status := Stopped);
      PutKeepsKeysUnique(reg, stopped);
      forall i, j | 0 <= i < j < |r| && r[i].status == Active && r[j].status == Active
        ensures r[i].roomName != r[j].roomName
      {
        assert r[i] != stopped && r[j] != stopped;
        assert r[i] == reg[i] && r[j] == reg[j];
      }
    }
  }

  /** What `getRecordingStatus` reports. */
  datatype StatusReport = NotRecording | InProgress(egressId: string, startedAt: int)

  function GetRecordingStatus(reg: Registry, roomName: string): (r: StatusReport)
    ensures r.InProgress? <==> exists i :: 0 <= i < |reg| && ActiveIn(reg[i], roomName)
    ensures r.InProgress? ==>
      exists i :: 0 <= i < |reg| && ActiveIn(reg[i], roomName) && reg[i].egressId == r.egressId && reg[i].startedAt == r.startedAt
  {
    match FindActive(reg, roomName)
    case None => NotRecording
    case Some(rec) => InProgress(rec.egressId, rec.startedAt)
  }

  /** After a start that did not fail the room reports that recording. */
  lemma StartThenStatus(reg: Registry, roomName: string, egress: Option<string>, now: int)
    requires Valid(reg)
    requires StartRecording(reg, roomName, egress, now).1 != StartFailed
    ensures var (reg1, out) := StartRecording(reg, roomName, egress, now);
      GetRecordingStatus(reg1, roomName).InProgress?
      && GetRecordingStatus(reg1, roomName).egressId == out.egressId
  {
    StartIdempotent(reg, roomName, egress, egress, now, now);
  }

  /** Stopping a room's active recording ends its reported recording:
      there was only one. */
  lemma StopThenStatus(reg: Registry, roomName: string)
    requires Valid(reg)
    requires GetRecordingStatus(reg, roomName).InProgress?
    ensures var egressId := GetRecordingStatus(reg, roomName).egressId;
      GetRecordingStatus(StopRecording(reg, egressId, false).0, roomName) == NotRecording
  {
    var egressId := GetRecordingStatus(reg, roomName).egressId;
    var active := FindActive(reg, roomName).value;
    var r := StopRecording(reg, egressId, false).0;
    var stopped := Get(reg, egressId).value.(status := Stopped);
    forall i | 0 <= i < |r|
      ensures !ActiveIn(r[i], roomName)
    {
      if r[i] != stopped {
        assert r[i] == reg[i];
        if ActiveIn(reg[i], roomName) {
          FindActiveUnique(reg, roomName, i);
          assert false;
        }
      }
    }
  }
}

=== FILE: room_view.dfy ===
/** The meeting room screen: the connect guard and its effect, the chat,
    settings and whiteboard toggles, the focused track, the right pane and
    split sizes, and the filter that turns data packets into reactions. */
module RoomView {

  import opened Common
  import opened Tracks

  // ---------------------------------------------------------------------------
  // connecting
  // ---------------------------------------------------------------------------

  /** The values the connect effect depends on. `userId` is `""` until the
      first effect has generated one. */
  datatype Deps = Deps(roomId: string, userId: string, userName: string)

  /** `!roomId || !userName || !userId` returns early. */
  predicate ShouldConnect(d: Deps) {
    d.roomId != "" && d.userName != "" && d.userId != ""
  }

  /** The effect's bookkeeping: the dependencies it last ran with and the
      connection its cleanup will close. */
  datatype Connection = Connection(lastDeps: Option<Deps>, open: Option<Deps>)

  const NotConnected: Connection := Connection(None, None)

  /** A render with dependencies `d`. When they changed, the previous run's
      cleanup disconnects, then the effect connects if the guard passes;
      an early return registers no cleanup. */
  function Render(c: Connection, d: Deps): (r: Connection)
    ensures r.lastDeps == Some(d)
    ensures c.lastDeps == Some(d) ==> r == c
    ensures c.lastDeps != Some(d) ==> (r.open.Some? <==> ShouldConnect(d))
    ensures r.open.Some? ==> r.open.value == d || c.lastDeps == Some(d)
  {
    if c.lastDeps == Some(d) then c
    else Connection(Some(d), if ShouldConnect(d) then Some(d) else None)
  }

  /** The connection is always the one for the current dependencies, and
      only when they pass the guard. */
  predicate ConnectionValid(c: Connection) {
    c.open.Some? ==> c.lastDeps == c.open && ShouldConnect(c.open.value)
  }

  function RenderAll(c: Connection, renders: seq<Deps>): Connection
    decreases |renders|
  {
    if |renders| == 0 then c else RenderAll(Render(c, renders[0]), renders[1..])
  }

  lemma {:induction false} RenderAllKeepsValid(c: Connection, renders: seq<Deps>)
    requires ConnectionValid(c)
    ensures ConnectionValid(RenderAll(c, renders))
    ensures |renders| > 0 ==> RenderAll(c, renders).lastDeps == Some(renders[|renders| - 1])
    decreases |renders|
  {
    if |renders| > 0 {
      RenderAllKeepsValid(Render(c, renders[0]), renders[1..]);
    }
  }

  /** The first render, before a user id exists, never connects. */
  lemma FirstRenderNeverConnects(roomId: string, userName: string)
    ensures Render(NotConnected, Deps(roomId, "", userName)).open.None?
  {
  }

  /** Once the id is generated, the room is joined under it. */
  lemma GeneratedIdConnects(roomId: string, userName: string, userId: string)
    requires roomId != "" && userName != "" && userId != ""
    ensures var first := Render(NotConnected, Deps(roomId, "", userName));
      Render(first, Deps(roomId, userId, userName)).open == Some(Deps(roomId, userId, userName))
  {
  }

  // ---------------------------------------------------------------------------
  // the panes
  // ---------------------------------------------------------------------------

  datatype ViewState = ViewState(showChat: bool, showWhiteboard: bool, focus: Option<TrackRef>, showSettings: bool)

  const InitialView: ViewState := ViewState(false, false, None, false)

  datatype ViewAction =
    | ToggleChat
    | CloseChat
    | ToggleSettings
    | CloseSettings
    | ToggleWhiteboard
    | TrackClick(track: TrackRef)

  /** One handler. Opening the whiteboard drops the focused track; focusing
      a track closes the whiteboard. */
  function Step(s: ViewState, a: ViewAction): (r: ViewState)
    ensures a.ToggleChat? ==> r == s.(showChat := !s.showChat)
    ensures a.CloseChat? ==> r == s.(showChat := false)
    ensures a.ToggleSettings? ==> r == s.(showSettings := !s.showSettings)
    ensures a.CloseSettings? ==> r == s.(showSettings := false)
    ensures a.ToggleWhiteboard? ==>
      r.showWhiteboard == !s.showWhiteboard && r.showChat == s.showChat && r.showSettings == s.showSettings
    ensures a.ToggleWhiteboard? && !s.showWhiteboard ==> r.focus.None?
    ensures a.ToggleWhiteboard? && s.showWhiteboard ==> r.focus == s.focus
    ensures a.TrackClick? ==> r == s.(focus := Some(a.track), showWhiteboard := false)
  {
    match a
    case ToggleChat => s.(showChat := !s.showChat)
    case CloseChat => s.(showChat := false)
    case ToggleSettings => s.(showSettings := !s.showSettings)
    case CloseSettings => s.(showSettings := false)
    case ToggleWhiteboard =>
      if !s.showWhiteboard then s.(showWhiteboard := true, focus := None)
      else s.(showWhiteboard := false)
    case TrackClick(t) => s.(focus := Some(t), showWhiteboard := false)
  }

  /** The whiteboard and a focused track are never both set. */
  predicate Exclusive(s: ViewState) {
    !(s.showWhiteboard && s.focus.Some?)
  }

  function Run(s: ViewState, actions: seq<ViewAction>): ViewState
    decreases |actions|
  {
    if |actions| == 0 then s else Run(Step(s, actions[0]), actions[1..])
  }

  lemma {:induction false} RunKeepsExclusive(s: ViewState, actions: seq<ViewAction>)
    requires Exclusive(s)
    ensures Exclusive(Run(s, actions))
    decreases |actions|
  {
    if |actions| > 0 {
      RunKeepsExclusive(Step(s, actions[0]), actions[1..]);
    }
  }

  datatype Pane = WhiteboardPane | FocusedPane(track: TrackRef) | PlaceholderPane

  /** The right pane: whiteboard first, then the focused track, then the
      prompt to pick one. */
  function RightPane(s: ViewState): (r: Pane)
    ensures r.WhiteboardPane? <==> s.showWhiteboard
    ensures Exclusive(s) ==> (r.FocusedPane? <==> s.focus.Some?)
    ensures r.FocusedPane? ==> s.focus == Some(r.track)
  {
    if s.showWhiteboard then WhiteboardPane
    else if s.focus.Some? then FocusedPane(s.focus.value)
    else PlaceholderPane
  }

  /** A click on a tile shows that track, whatever was shown. */
  lemma ClickShowsTrack(s: ViewState, t: TrackRef)
    ensures RightPane(Step(s, TrackClick(t))) == FocusedPane(t)
  {
  }

  /** Opening the whiteboard and closing it again does not bring the
      focused track back. */
  lemma WhiteboardRoundTripLosesFocus(s: ViewState)
    requires !s.showWhiteboard
    ensures RightPane(Step(s, ToggleWhiteboard)) == WhiteboardPane
    ensures RightPane(Step(Step(s, ToggleWhiteboard), ToggleWhiteboard)) == PlaceholderPane
  {
  }

  /** The chat and settings toggles undo themselves and touch nothing else. */
  lemma TogglesInvolutive(s: ViewState)
    ensures Step(Step(s, ToggleChat), ToggleChat) == s
    ensures Step(Step(s, ToggleSettings), ToggleSettings) == s
    ensures RightPane(Step(s, ToggleChat)) == RightPane(s)
  {
  }

  /** The split's pane sizes in percent and its gutter in pixels. */
  function SplitLayout(showChat: bool): (r: (seq<int>, int))
    ensures |r.0| == 2 && r.0[0] + r.0[1] == 100
    ensures r.0[0] > 0 <==> showChat
    ensures r.1 > 0 <==> showChat
    ensures showChat ==> r == ([30, 70], 8)
    ensures !showChat ==> r == ([0, 100], 0)
  {
    if showChat then ([30, 70], 8) else ([0, 100], 0)
  }

  /** The split follows the chat flag: toggling the chat always changes the
      sizes, closing it collapses the left pane, and no other action moves
      the split. */
  lemma SplitFollowsChat(s: ViewState, a: ViewAction)
    ensures a.ToggleChat? ==> SplitLayout(Step(s, a).showChat) != SplitLayout(s.showChat)
    ensures a.CloseChat? ==> SplitLayout(Step(s, a).showChat) == ([0, 100], 0)
    ensures !a.ToggleChat? && !a.CloseChat? ==>
      SplitLayout(Step(s, a).showChat) == SplitLayout(s.showChat)
  {
  }

  // ---------------------------------------------------------------------------
  // reactions
  // ---------------------------------------------------------------------------

  datatype PacketKind = Reliable | Lossy

  /** The fields the handler reads from a parsed packet; `JSON.parse` of the
      decoded payload is an input, `None` when it (or the field access on
      `null`) throws. */
  datatype PacketJson = PacketJson(kind: Option<string>, emoji: Option<string>)

  type PacketParser = string -> Option<PacketJson>

  /** The reaction added for a packet, if any: reliable packets and packets
      that fail to parse are ignored, and only `type === "reaction"` adds
      its `emoji` (possibly missing). */
  function ReactionOf(payload: string, kind: PacketKind, parse: PacketParser): (r: Option<Option<string>>)
    ensures kind.Reliable? ==> r.None?
    ensures r.Some? <==> kind.Lossy? && parse(payload).Some? && parse(payload).value.kind == Some("reaction")
    ensures r.Some? ==> r.value == parse(payload).value.emoji
  {
    if kind.Reliable? then None
    else
      match parse(payload)
      case None => None
      case Some(data) => if data.kind == Some("reaction") then Some(data.emoji) else None
  }

  /** `JSON.stringify({ type: "reaction", emoji })` as sent by the reaction
      button, with the parser reading it back. */
  predicate ReadsBack(parse: PacketParser, payload: string, emoji: string) {
    parse(payload) == Some(PacketJson(Some("reaction"), Some(emoji)))
  }

  /** A reaction sent by another participant (lossy, as the button sends
      it) arrives as that emoji. */
  lemma SentReactionShown(payload: string, emoji: string, parse: PacketParser)
    requires ReadsBack(parse, payload, emoji)
    ensures ReactionOf(payload, Lossy, parse) == Some(Some(emoji))
  {
  }

  /** The same reaction sent reliably would be dropped, as are the poll
      messages, which go out reliably. */
  lemma ReliableReactionDropped(payload: string, emoji: string, parse: PacketParser)
    requires ReadsBack(parse, payload, emoji)
    ensures ReactionOf(payload, Reliable, parse).None?
  {
  }
}

=== FILE: snapshot_store.dfy ===
/** The whiteboard snapshot store: one file per room id under the rooms
    directory, read back on room creation and rewritten whole by the
    persistence sweep. The file system is a map from room id to file
    content; how an I/O operation fails is an input the caller supplies. */
module SnapshotStore {

  import opened Common

  /** The document engine's serialized room document, opaque here. */
  datatype Snapshot = Snapshot(json: string)

  /** The document a room starts from when no snapshot could be loaded. */
  const EmptyDocument: Snapshot := Snapshot("")

  /** What a room file holds: a snapshot written by `SaveSnapshot`, or
      content that `JSON.parse` rejects or that parses to `null`. */
  datatype StoredFile = Written(snapshot: Snapshot) | Unparsable

  type Store = map<string, StoredFile>

  /** `readSnapshotIfExists`: never fails. A missing file, a read error
      (`readFails`) and unparsable content all read as "no snapshot". */
  function ReadSnapshotIfExists(store: Store, roomId: string, readFails: bool): (r: Option<Snapshot>)
    ensures r.Some? <==> !readFails && roomId in store && store[roomId].Written?
    ensures r.Some? ==> store[roomId] == Written(r.value)
  {
    if readFails || roomId !in store then None
    else
      match store[roomId]
      case Written(s) => Some(s)
      case Unparsable => None
  }

  /** How a `saveSnapshot` call ends. `writeFile` opens the file with
      truncation before it writes, so a write can fail before anything is
      touched (the directory creation or the open failing) or after the
      old content is gone. */
  datatype WriteFault = Succeeds | FailsBeforeOpen | FailsAfterTruncate

  /** `saveSnapshot`: replaces the whole file of `roomId`. A failure before
      the open changes nothing; a failure after the truncation leaves an
      empty or partial file, which no longer parses. */
  function SaveSnapshot(store: Store, roomId: string, snapshot: Snapshot, fault: WriteFault): (r: Store)
    ensures fault.FailsBeforeOpen? ==> r == store
    ensures fault.Succeeds? ==> roomId in r && r[roomId] == Written(snapshot)
    ensures fault.FailsAfterTruncate? ==> roomId in r && r[roomId] == Unparsable
    ensures r.Keys <= store.Keys + {roomId}
    ensures forall id :: id in store && id != roomId ==> id in r && r[id] == store[id]
  {
    match fault
    case Succeeds => store[roomId := Written(snapshot)]
    case FailsBeforeOpen => store
    case FailsAfterTruncate => store[roomId := Unparsable]
  }

  /** A successful save is what the next successful read returns. */
  lemma SaveThenRead(store: Store, roomId: string, snapshot: Snapshot)
    ensures ReadSnapshotIfExists(SaveSnapshot(store, roomId, snapshot, Succeeds), roomId, false) == Some(snapshot)
  {
  }

  /** A write that fails after the truncation loses the previous snapshot
      as well: the room then reads as having none. */
  lemma TruncatedWriteLosesSnapshot(store: Store, roomId: string, snapshot: Snapshot, readFails: bool)
    ensures ReadSnapshotIfExists(SaveSnapshot(store, roomId, snapshot, FailsAfterTruncate), roomId, readFails).None?
  {
  }

  /** Saving one room never changes what another room reads. */
  lemma SaveIsolated(store: Store, saved: string, other: string, snapshot: Snapshot, fault: WriteFault, readFails: bool)
    requires saved != other
    ensures ReadSnapshotIfExists(SaveSnapshot(store, saved, snapshot, fault), other, readFails)
         == ReadSnapshotIfExists(store, other, readFails)
  {
  }
}

=== FILE: text.dfy ===
/** The JavaScript string operations the modelled code uses, on `seq<char>`:
    `split` on a one-character separator, `filter(Boolean)`, `join`,
    `trim`, decimal rendering of a clock value, `parseInt` and an ASCII
    `toUpperCase`. */
module Text {

  import opened Common

  // ---------------------------------------------------------------------------
  // split / join
  // ---------------------------------------------------------------------------

  /** `s.split(sep)`: the fields between separators, always at least one
      (`"".split("/")` is `[""]`), none containing the separator. */
  function Split(s: string, sep: char): (r: seq<string>)
    ensures |r| >= 1
    ensures forall i :: 0 <= i < |r| ==> sep !in r[i]
    decreases |s|
  {
    if |s| == 0 then [""]
    else
      var rest := Split(s[1..], sep);
      if s[0] == sep then [""] + rest
      else [[s[0]] + rest[0]] + rest[1..]
  }

  /** `fields.join(sep)`. */
  function Join(fields: seq<string>, sep: char): string
  {
    if |fields| == 0 then ""
    else if |fields| == 1 then fields[0]
    else fields[0] + [sep] + Join(fields[1..], sep)
  }

  /** Joining the fields of a split gives back the original string. */
  lemma {:induction false} JoinSplit(s: string, sep: char)
    ensures Join(Split(s, sep), sep) == s
    decreases |s|
  {
    if |s| == 0 {
    } else {
      var rest := Split(s[1..], sep);
      JoinSplit(s[1..], sep);
      if s[0] == sep {
        assert Split(s, sep) == [""] + rest;
        assert ([""] + rest)[1..] == rest;
        assert s == [sep] + s[1..];
      } else if |rest| == 1 {
        assert Split(s, sep) == [[s[0]] + rest[0]];
        assert s == [s[0]] + s[1..];
      } else {
        var fields := [[s[0]] + rest[0]] + rest[1..];
        assert Split(s, sep) == fields;
        assert fields[1..] == rest[1..];
        assert Join(rest, sep) == rest[0] + [sep] + Join(rest[1..], sep);
        assert s == [s[0]] + s[1..];
      }
    }
  }

  /** A separator splits a string into the fields of its two sides. */
  lemma {:induction false} SplitConcat(x: string, sep: char, y: string)
    ensures Split(x + [sep] + y, sep) == Split(x, sep) + Split(y, sep)
    decreases |x|
  {
    var s := x + [sep] + y;
    if |x| == 0 {
      assert s == [sep] + y;
      assert s[1..] == y;
    } else {
      assert s[0] == x[0];
      assert s[1..] == x[1..] + [sep] + y;
      SplitConcat(x[1..], sep, y);
      var rx := Split(x[1..], sep);
      if x[0] == sep {
      } else {
        var rest := rx + Split(y, sep);
        assert rest[0] == rx[0];
        assert rest[1..] == rx[1..] + Split(y, sep);
      }
    }
  }

  /** A string without the separator is one field. */
  lemma {:induction false} SplitWithoutSeparator(w: string, sep: char)
    requires sep !in w
    ensures Split(w, sep) == [w]
    decreases |w|
  {
    if |w| > 0 {
      SplitWithoutSeparator(w[1..], sep);
      assert w == [w[0]] + w[1..];
    }
  }

  /** Splitting the join of separator-free fields gives back those fields. */
  lemma {:induction false} SplitJoin(fields: seq<string>, sep: char)
    requires |fields| >= 1
    requires forall i :: 0 <= i < |fields| ==> sep !in fields[i]
    ensures Split(Join(fields, sep), sep) == fields
    decreases |fields|
  {
    SplitWithoutSeparator(fields[0], sep);
    if |fields| > 1 {
      SplitJoin(fields[1..], sep);
      SplitConcat(fields[0], sep, Join(fields[1..], sep));
      assert fields == [fields[0]] + fields[1..];
    }
  }

  /** `fields.filter(Boolean)`: the non-empty fields, in order. */
  function NonEmptyFields(fields: seq<string>): (r: seq<string>)
    ensures |r| <= |fields|
    ensures forall i :: 0 <= i < |r| ==> r[i] != ""
    ensures forall f :: f in r <==> f in fields && f != ""
  {
    if |fields| == 0 then []
    else (if fields[0] == "" then [] else [fields[0]]) + NonEmptyFields(fields[1..])
  }

  lemma {:induction false} NonEmptyFieldsConcat(a: seq<string>, b: seq<string>)
    ensures NonEmptyFields(a + b) == NonEmptyFields(a) + NonEmptyFields(b)
    decreases |a|
  {
    if |a| > 0 {
      assert (a + b)[1..] == a[1..] + b;
      NonEmptyFieldsConcat(a[1..], b);
    } else {
      assert a + b == b;
    }
  }

  /** The non-empty `/`-separated segments of a URL path
      (`pathname.split('/').filter(Boolean)`). */
  function PathSegments(path: string): (r: seq<string>)
    ensures forall i :: 0 <= i < |r| ==> r[i] != "" && '/' !in r[i]
  {
    var r := NonEmptyFields(Split(path, '/'));
    assert forall f :: f in r ==> '/' !in f;
    r
  }

  /** Appending `/segment` to a path appends that segment. */
  lemma AppendSegment(path: string, segment: string)
    requires segment != "" && '/' !in segment
    ensures PathSegments(path + "/" + segment) == PathSegments(path) + [segment]
  {
    SplitConcat(path, '/', segment);
    SplitWithoutSeparator(segment, '/');
    assert path + "/" + segment == path + ['/'] + segment;
    NonEmptyFieldsConcat(Split(path, '/'), [segment]);
    assert NonEmptyFields([segment]) == [segment];
  }

  // ---------------------------------------------------------------------------
  // trim
  // ---------------------------------------------------------------------------

  /** The characters `String.prototype.trim` removes: ECMAScript WhiteSpace
      and LineTerminator code points. */
  predicate IsSpace(c: char) {
    c == ' ' || c == '\t' || c == '\n' || c == '\r' || c == '\U{000B}' || c == '\U{000C}'
    || c == '\U{00A0}' || c == '\U{1680}' || '\U{2000}' <= c <= '\U{200A}'
    || c == '\U{2028}' || c == '\U{2029}' || c == '\U{202F}' || c == '\U{205F}'
    || c == '\U{3000}' || c == '\U{FEFF}'
  }

  /** Every character is white space (so `!s.trim()` holds). */
  predicate Blank(s: string) {
    forall i :: 0 <= i < |s| ==> IsSpace(s[i])
  }

  /** `s.trimStart()`. */
  function TrimStart(s: string): (r: string)
    ensures r == "" || !IsSpace(r[0])
  {
    if |s| > 0 && IsSpace(s[0]) then TrimStart(s[1..]) else s
  }

  /** `s.trimEnd()`. */
  function TrimEnd(s: string): (r: string)
    ensures r == "" || !IsSpace(r[|r| - 1])
  {
    if |s| > 0 && IsSpace(s[|s| - 1]) then TrimEnd(s[..|s| - 1]) else s
  }

  /** `s.trim()`: `s` without leading and trailing white space; it is empty
      exactly when `s` is blank. */
  function Trim(s: string): (r: string)
    ensures r == "" || (!IsSpace(r[0]) && !IsSpace(r[|r| - 1]))
    ensures r == "" <==> Blank(s)
  {
    TrimStartBlank(s);
    var t := TrimStart(s);
    TrimEndKeepsFirst(t);
    TrimEndBlank(t);
    TrimEnd(t)
  }

  lemma {:induction false} TrimStartBlank(s: string)
    ensures TrimStart(s) == "" <==> Blank(s)
  {
    if |s| > 0 && IsSpace(s[0]) {
      TrimStartBlank(s[1..]);
      if Blank(s[1..]) {
        forall i | 0 <= i < |s| ensures IsSpace(s[i]) {
          if i > 0 { assert s[i] == s[1..][i - 1]; }
        }
      } else {
        var i :| 0 <= i < |s[1..]| && !IsSpace(s[1..][i]);
        assert s[i + 1] == s[1..][i];
      }
    }
  }

  lemma {:induction false} TrimEndBlank(s: string)
    ensures TrimEnd(s) == "" <==> Blank(s)
  {
    if |s| > 0 && IsSpace(s[|s| - 1]) {
      var p := s[..|s| - 1];
      TrimEndBlank(p);
      if Blank(p) {
        forall i | 0 <= i < |s| ensures IsSpace(s[i]) {
          if i < |s| - 1 { assert s[i] == p[i]; }
        }
      } else {
        var i :| 0 <= i < |p| && !IsSpace(p[i]);
        assert s[i] == p[i];
      }
    }
  }

  /** Trimming the end of a string that starts with a non-space keeps that
      first character. */
  lemma {:induction false} TrimEndKeepsFirst(s: string)
    requires s == "" || !IsSpace(s[0])
    ensures TrimEnd(s) == "" || TrimEnd(s)[0] == s[0]
  {
    if |s| > 0 && IsSpace(s[|s| - 1]) {
      var p := s[..|s| - 1];
      if |p| > 0 { assert p[0] == s[0]; }
      TrimEndKeepsFirst(p);
    }
  }

  // ---------------------------------------------------------------------------
  // decimal numbers
  // ---------------------------------------------------------------------------

  predicate IsDigit(c: char) {
    '0' <= c <= '9'
  }

  function DigitChar(d: nat): (c: char)
    requires d < 10
    ensures IsDigit(c)
  {
    ['0', '1', '2', '3', '4', '5', '6', '7', '8', '9'][d]
  }

  function DigitValue(c: char): nat
    requires IsDigit(c)
  {
    (c as int - '0' as int) as nat
  }

  /** `n.toString()` for a non-negative integer. */
  function Digits(n: nat): (r: string)
    ensures |r| >= 1
    ensures forall i :: 0 <= i < |r| ==> IsDigit(r[i])
  {
    if n < 10 then [DigitChar(n)] else Digits(n / 10) + [DigitChar(n % 10)]
  }

  /** The two radixes `parseInt` picks from when none is given. */
  datatype Radix = Decimal | Hex

  function Base(radix: Radix): nat {
    if radix.Hex? then 16 else 10
  }

  predicate IsDigitIn(c: char, radix: Radix) {
    IsDigit(c) || (radix.Hex? && ('a' <= c <= 'f' || 'A' <= c <= 'F'))
  }

  function DigitValueIn(c: char, radix: Radix): (d: nat)
    requires IsDigitIn(c, radix)
    ensures d < Base(radix)
  {
    if IsDigit(c) then DigitValue(c)
    else if 'a' <= c <= 'f' then (c as int - 'a' as int + 10) as nat
    else (c as int - 'A' as int + 10) as nat
  }

  /** The longest prefix of `s` made of digits of `radix`. */
  function LeadingDigits(s: string, radix: Radix): (r: string)
    ensures |r| <= |s| && r == s[..|r|]
    ensures forall i :: 0 <= i < |r| ==> IsDigitIn(s[i], radix)
    ensures |r| == |s| || !IsDigitIn(s[|r|], radix)
  {
    if |s| > 0 && IsDigitIn(s[0], radix) then [s[0]] + LeadingDigits(s[1..], radix) else ""
  }

  /** The value of a string of digits of `radix`. */
  function DigitsValue(ds: string, radix: Radix): nat
    requires forall i :: 0 <= i < |ds| ==> IsDigitIn(ds[i], radix)
  {
    if |ds| == 0 then 0
    else DigitsValue(ds[..|ds| - 1], radix) * Base(radix) + DigitValueIn(ds[|ds| - 1], radix)
  }

  /** `t` without one leading `+` or `-`. */
  function Unsigned(t: string): string {
    if |t| > 0 && (t[0] == '+' || t[0] == '-') then t[1..] else t
  }

  /** `u` starts with the `0x` or `0X` prefix that selects radix 16. */
  predicate HexPrefixed(u: string) {
    |u| >= 2 && u[0] == '0' && (u[1] == 'x' || u[1] == 'X')
  }

  /** The magnitude `parseInt` reads from unsigned text `u`: a `0x`/`0X`
      prefix selects radix 16, and the longest run of digits that follows
      is the value; `None` (NaN) when that run is empty. */
  function Magnitude(u: string): (r: Option<nat>)
    ensures r.Some? <==> if HexPrefixed(u) then |u| > 2 && IsDigitIn(u[2], Hex) else |u| > 0 && IsDigit(u[0])
  {
    var radix := if HexPrefixed(u) then Hex else Decimal;
    var ds := LeadingDigits(if HexPrefixed(u) then u[2..] else u, radix);
    if ds == "" then None else Some(DigitsValue(ds, radix))
  }

  /** `parseInt(s)` without a radix argument: leading white space is
      skipped and one sign is read before the magnitude; a `-` negates it. */
  function ParseInt(s: string): (r: Option<int>)
    ensures r.Some? <==> Magnitude(Unsigned(TrimStart(s))).Some?
    ensures r.Some? && |TrimStart(s)| > 0 && TrimStart(s)[0] == '-' ==>
      r.value == -(Magnitude(Unsigned(TrimStart(s))).value as int)
    ensures r.Some? && !(|TrimStart(s)| > 0 && TrimStart(s)[0] == '-') ==>
      r.value == Magnitude(Unsigned(TrimStart(s))).value
  {
    var t := TrimStart(s);
    match Magnitude(Unsigned(t))
    case None => None
    case Some(m) => if |t| > 0 && t[0] == '-' then Some(-(m as int)) else Some(m as int)
  }

  lemma {:induction false} DecimalValueOfDigits(n: nat)
    ensures DigitsValue(Digits(n), Decimal) == n
  {
    if n >= 10 {
      DecimalValueOfDigits(n / 10);
      var r := Digits(n);
      assert r[..|r| - 1] == Digits(n / 10);
    }
  }

  lemma {:induction false} LeadingDigitsOfDigits(ds: string, rest: string)
    requires forall i :: 0 <= i < |ds| ==> IsDigit(ds[i])
    requires rest == "" || !IsDigit(rest[0])
    ensures LeadingDigits(ds + rest, Decimal) == ds
    decreases |ds|
  {
    if |ds| > 0 {
      assert (ds + rest)[1..] == ds[1..] + rest;
      LeadingDigitsOfDigits(ds[1..], rest);
      assert ds == [ds[0]] + ds[1..];
    } else {
      assert ds + rest == rest;
    }
  }

  /** White space in front of a string that does not start with white
      space is exactly what `trimStart` removes. */
  lemma {:induction false} TrimStartBlankPrefix(ws: string, t: string)
    requires Blank(ws)
    requires t == "" || !IsSpace(t[0])
    ensures TrimStart(ws + t) == t
    decreases |ws|
  {
    if |ws| > 0 {
      assert (ws + t)[0] == ws[0];
      assert (ws + t)[1..] == ws[1..] + t;
      TrimStartBlankPrefix(ws[1..], t);
    } else {
      assert ws + t == t;
      if |t| > 0 { assert !IsSpace(t[0]); }
    }
  }

  /** A rendered number followed by text that does not extend it has that
      number as its magnitude. */
  lemma MagnitudeDigits(n: nat, rest: string)
    requires rest == "" || (!IsDigit(rest[0]) && !(n == 0 && (rest[0] == 'x' || rest[0] == 'X')))
    ensures Magnitude(Digits(n) + rest) == Some(n)
  {
    var ds := Digits(n);
    var u := ds + rest;
    assert !HexPrefixed(u) by {
      if |ds| >= 2 {
        assert u[1] == ds[1] && IsDigit(ds[1]);
      } else if n != 0 {
        assert ds == [DigitChar(n)];
        assert u[0] == DigitChar(n);
      } else {
        assert ds == "0";
        if |u| >= 2 { assert u[1] == rest[0]; }
      }
    }
    LeadingDigitsOfDigits(ds, rest);
    DecimalValueOfDigits(n);
  }

  /** The decimal rendering of `n`, after any white space and an optional
      sign, reads back as `n` (negated after `-`), whatever follows it that
      does not extend the number: no further digit, and no `x` after a
      lone `0`. */
  lemma ParseIntDigits(ws: string, sign: string, n: nat, rest: string)
    requires Blank(ws)
    requires sign == "" || sign == "+" || sign == "-"
    requires rest == "" || (!IsDigit(rest[0]) && !(n == 0 && (rest[0] == 'x' || rest[0] == 'X')))
    ensures ParseInt(ws + sign + Digits(n) + rest) == Some(if sign == "-" then -(n as int) else n)
  {
    var t := sign + Digits(n) + rest;
    SignedDigits(sign, n, rest);
    TrimStartBlankPrefix(ws, t);
    MagnitudeDigits(n, rest);
    ConcatAssoc(ws, sign, Digits(n), rest);
    ParseIntOfTrimmed(ws + t, t, n);
  }

  lemma ConcatAssoc(a: string, b: string, c: string, d: string)
    ensures a + b + c + d == a + (b + c + d)
  {
  }

  /** A signed rendering of a number does not start with white space, reads
      as negative exactly after `-`, and is the rendering once unsigned. */
  lemma SignedDigits(sign: string, n: nat, rest: string)
    requires sign == "" || sign == "+" || sign == "-"
    ensures var t := sign + Digits(n) + rest;
      && !IsSpace(t[0])
      && ((|t| > 0 && t[0] == '-') <==> sign == "-")
      && Unsigned(t) == Digits(n) + rest
  {
    var ds := Digits(n);
    var t := sign + ds + rest;
    assert t[0] == if sign == "" then ds[0] else sign[0];
    assert IsDigit(ds[0]);
    if sign != "" { assert t[1..] == ds + rest; } else { assert t == ds + rest; }
  }

  /** How `ParseInt` reads text whose trimmed form is `t`. */
  lemma ParseIntOfTrimmed(s: string, t: string, m: nat)
    requires TrimStart(s) == t
    requires Magnitude(Unsigned(t)) == Some(m)
    ensures ParseInt(s) == Some(if |t| > 0 && t[0] == '-' then -(m as int) else m)
  {
  }

  /** `parseInt` gives NaN for text whose first character after white
      space is neither a sign nor a decimal digit. */
  lemma ParseIntNaN(ws: string, t: string)
    requires Blank(ws)
    requires t == "" || !(IsSpace(t[0]) || IsDigit(t[0]) || t[0] == '+' || t[0] == '-')
    ensures ParseInt(ws + t).None?
  {
    TrimStartBlankPrefix(ws, t);
  }

  /** Leading white space is skipped, not rejected. */
  lemma ParseIntSkipsSpace()
    ensures ParseInt(" 5") == Some(5)
  {
    assert Digits(5) == "5";
    ParseIntDigits(" ", "", 5, "");
    assert " " + "" + "5" + "" == " 5";
  }

  /** A leading sign is read, and trailing text is ignored. */
  lemma ParseIntReadsSign()
    ensures ParseInt("+7z") == Some(7)
    ensures ParseInt("-7") == Some(-7)
  {
    assert Digits(7) == "7";
    ParseIntDigits("", "+", 7, "z");
    assert "" + "+" + "7" + "z" == "+7z";
    ParseIntDigits("", "-", 7, "");
    assert "" + "-" + "7" + "" == "-7";
  }

  /** A `0x` prefix selects radix 16 and needs a digit after it. */
  lemma ParseIntHexExamples()
    ensures ParseInt("0x1A") == Some(26)
    ensures ParseInt("0x") == None
  {
    assert TrimStart("0x1A") == "0x1A";
    assert Unsigned("0x1A") == "0x1A";
    assert "0x1A"[2..] == "1A";
    assert LeadingDigits("1A", Hex) == "1A" by {
      assert "1A"[1..] == "A";
      assert LeadingDigits("A", Hex) == "A" by { assert "A"[1..] == ""; }
    }
    assert DigitsValue("1A", Hex) == 26 by { assert "1A"[..1] == "1"; }
    assert TrimStart("0x") == "0x";
    assert Unsigned("0x") == "0x";
  }

  // ---------------------------------------------------------------------------
  // case
  // ---------------------------------------------------------------------------

  /** `toUpperCase` on one character, for the ASCII letters. */
  function UpperChar(c: char): (r: char)
    ensures 'a' <= c <= 'z' ==> r as int == c as int - 32
    ensures !('a' <= c <= 'z') ==> r == c
  {
    if 'a' <= c <= 'z' then (c as int - 32) as char else c
  }
}

=== FILE: tracks.dfy ===
/** The participants and track references the room views are given by the
    media SDK, reduced to the fields the modelled views read. */
module Tracks {

  import opened Common

  datatype Participant = Participant(identity: string, sid: string, name: Option<string>, metadata: Option<string>)

  datatype Publication = Publication(trackSid: string, isMuted: bool)

  /** A participant's track, with its publication when there is one. */
  datatype TrackRef = TrackRef(participant: Participant, publication: Option<Publication>)

  /** The tile key: `publication?.trackSid || participant.sid`. */
  function TrackKey(t: TrackRef): (r: string)
    ensures t.publication.Some? && t.publication.value.trackSid != "" ==> r == t.publication.value.trackSid
    ensures t.publication.None? || t.publication.value.trackSid == "" ==> r == t.participant.sid
  {
    OrElse(if t.publication.Some? then Some(t.publication.value.trackSid) else None, Some(t.participant.sid)).value
  }

  /** `participant.name || participant.identity`. */
  function DisplayName(p: Participant): (r: string)
    ensures Truthy(p.name) ==> r == p.name.value
    ensures !Truthy(p.name) ==> r == p.identity
  {
    OrElse(p.name, Some(p.identity)).value
  }
}

=== FILE: whiteboard_gateway.dfy ===
/** The whiteboard socket gateway: the check of the connection URL, the
    per-connection buffer that holds messages until the room is ready, and
    the connection handler that ties both to the room registry.

    Close codes are those of section 7.4.1 of RFC 6455: 1008 (policy
    violation) for a malformed request, 1011 (internal error) when the room
    cannot be made. */
module WhiteboardGateway {

  import opened Common
  import opened Text
  import opened WhiteboardRooms

  const PolicyViolation: int := 1008
  const InternalError: int := 1011

  const InvalidPathReason: string := "Invalid path"
  const MissingParameterReason: string := "Missing roomId or sessionId"
  const InternalErrorReason: string := "Internal server error"

  // ---------------------------------------------------------------------------
  // request validation
  // ---------------------------------------------------------------------------

  datatype Verdict = Accept(roomId: string, sessionId: string) | Reject(code: int, reason: string)

  /** The non-empty path segments of the request; no pathname, none. */
  function RequestSegments(pathname: Option<string>): seq<string>
  {
    if pathname.Some? then PathSegments(pathname.value) else []
  }

  /** The path starts with the segments `tldraw`, `connect`. */
  predicate IsConnectPath(parts: seq<string>) {
    |parts| >= 2 && parts[0] == "tldraw" && parts[1] == "connect"
  }

  /** The connection check: the path prefix first, then the room id (the
      third segment; later ones are ignored) and the `sessionId` query
      parameter, which must both be non-empty. */
  function ValidateConnection(pathname: Option<string>, sessionId: Option<string>): (r: Verdict)
    ensures var parts := RequestSegments(pathname);
      && (r.Accept? <==> IsConnectPath(parts) && |parts| >= 3 && Truthy(sessionId))
      && (r.Accept? ==> r.roomId == parts[2] && Some(r.sessionId) == sessionId)
      && (!IsConnectPath(parts) ==> r == Reject(PolicyViolation, InvalidPathReason))
      && (IsConnectPath(parts) && r.Reject? ==> r == Reject(PolicyViolation, MissingParameterReason))
    ensures r.Accept? ==> r.roomId != "" && '/' !in r.roomId && r.sessionId != ""
  {
    var parts := RequestSegments(pathname);
    if !IsConnectPath(parts) then Reject(PolicyViolation, InvalidPathReason)
    else if |parts| < 3 || !Truthy(sessionId) then Reject(PolicyViolation, MissingParameterReason)
    else Accept(parts[2], sessionId.value)
  }

  /** The path the whiteboard client connects to. */
  function ConnectPath(roomId: string): string {
    "/tldraw/connect/" + roomId
  }

  lemma ConnectPathSegments(roomId: string)
    requires roomId != "" && '/' !in roomId
    ensures PathSegments(ConnectPath(roomId)) == ["tldraw", "connect", roomId]
  {
    SegmentsOfThree("tldraw", "connect", roomId);
    assert "/" + "tldraw" + "/" + "connect" + "/" + roomId == ConnectPath(roomId);
  }

  lemma SegmentsOfThree(a: string, b: string, c: string)
    requires a != "" && '/' !in a && b != "" && '/' !in b && c != "" && '/' !in c
    ensures PathSegments("/" + a + "/" + b + "/" + c) == [a, b, c]
  {
    var empty: string := [];
    assert Split(empty, '/') == [empty];
    assert PathSegments(empty) == [];
    AppendSegment(empty, a);
    assert empty + "/" + a == "/" + a;
    AppendSegment("/" + a, b);
    AppendSegment("/" + a + "/" + b, c);
  }

  /** Every client-built path with a usable room id and session id is
      accepted with exactly those ids. */
  lemma ConnectPathAccepted(roomId: string, sessionId: string)
    requires roomId != "" && '/' !in roomId && sessionId != ""
    ensures ValidateConnection(Some(ConnectPath(roomId)), Some(sessionId)) == Accept(roomId, sessionId)
  {
    ConnectPathSegments(roomId);
  }

  /** Segments after the room id change nothing. */
  lemma ExtraSegmentIgnored(path: string, extra: string, sessionId: Option<string>)
    requires extra != "" && '/' !in extra
    requires |PathSegments(path)| >= 3
    ensures ValidateConnection(Some(path + "/" + extra), sessionId) == ValidateConnection(Some(path), sessionId)
  {
    AppendSegment(path, extra);
  }

  /** Doubled slashes are empty segments and are skipped. */
  lemma DoubledSlashIgnored(path: string)
    ensures RequestSegments(Some(path + "/")) == RequestSegments(Some(path))
  {
    SplitConcat(path, '/', "");
    assert path + "/" == path + ['/'] + "";
    NonEmptyFieldsConcat(Split(path, '/'), [""]);
  }

  // ---------------------------------------------------------------------------
  // buffering and replay
  // ---------------------------------------------------------------------------

  /** A raw socket message, opaque here. */
  type Message = string

  /** What the document engine sees of one socket. */
  datatype EngineEvent = SocketConnected(sessionId: string) | Delivered(message: Message)

  datatype Phase = Buffering | Attached | Closed(code: int)

  /** One accepted connection: its phase, the messages the collecting
      listener has caught, and the events handed to the engine so far. */
  datatype Connection = Connection(sessionId: string, phase: Phase, caught: seq<Message>, engine: seq<EngineEvent>)

  /** The engine events of handing over `messages`, in order. */
  function Deliveries(messages: seq<Message>): seq<EngineEvent>
  {
    if |messages| == 0 then [] else [Delivered(messages[0])] + Deliveries(messages[1..])
  }

  /** A connection right after validation: collecting, nothing delivered. */
  function Open(sessionId: string): Connection {
    Connection(sessionId, Buffering, [], [])
  }

  /** A message arrives. Before the room is ready the collecting listener
      appends it to the buffer; once attached the engine's own listener
      gets it; after a failure the collector, still registered, keeps it
      and nothing ever replays it. */
  function Receive(c: Connection, m: Message): (r: Connection)
    ensures r.phase == c.phase && r.sessionId == c.sessionId
    ensures c.phase.Attached? ==> r.caught == c.caught && r.engine == c.engine + [Delivered(m)]
    ensures !c.phase.Attached? ==> r.caught == c.caught + [m] && r.engine == c.engine
  {
    match c.phase
    case Attached => c.(engine := c.engine + [Delivered(m)])
    case _ => c.(caught := c.caught + [m])
  }

  function ReceiveAll(c: Connection, messages: seq<Message>): Connection
    decreases |messages|
  {
    if |messages| == 0 then c else ReceiveAll(Receive(c, messages[0]), messages[1..])
  }

  /** `makeOrLoadRoom` settles. On success: `handleSocketConnect` once, the
      collector removed, and every caught message re-emitted in order. On
      failure: close with 1011 and nothing handed to the engine. */
  function Resolve(c: Connection, ok: bool): (r: Connection)
    requires c.phase.Buffering?
    ensures ok ==> r.phase.Attached? && r.engine == c.engine + [SocketConnected(c.sessionId)] + Deliveries(c.caught)
    ensures !ok ==> r.phase == Closed(InternalError) && r.engine == c.engine
    ensures r.sessionId == c.sessionId && r.caught == c.caught
  {
    if ok then c.(phase := Attached, engine := c.engine + [SocketConnected(c.sessionId)] + Deliveries(c.caught))
    else c.(phase := Closed(InternalError))
  }

  lemma {:induction false} ReceiveAllEffect(c: Connection, messages: seq<Message>)
    ensures var r := ReceiveAll(c, messages);
      && r.phase == c.phase && r.sessionId == c.sessionId
      && (c.phase.Attached? ==> r.caught == c.caught && r.engine == c.engine + Deliveries(messages))
      && (!c.phase.Attached? ==> r.caught == c.caught + messages && r.engine == c.engine)
    decreases |messages|
  {
    if |messages| > 0 {
      var next := Receive(c, messages[0]);
      ReceiveAllEffect(next, messages[1..]);
      var r := ReceiveAll(next, messages[1..]);
      assert ReceiveAll(c, messages) == r;
      if c.phase.Attached? {
        assert Deliveries(messages) == [Delivered(messages[0])] + Deliveries(messages[1..]);
        assert r.engine == c.engine + [Delivered(messages[0])] + Deliveries(messages[1..]);
      } else {
        assert messages == [messages[0]] + messages[1..];
        assert r.caught == c.caught + [messages[0]] + messages[1..];
      }
    }
  }

  lemma {:induction false} DeliveriesConcat(a: seq<Message>, b: seq<Message>)
    ensures Deliveries(a + b) == Deliveries(a) + Deliveries(b)
    decreases |a|
  {
    if |a| > 0 {
      assert (a + b)[1..] == a[1..] + b;
      DeliveriesConcat(a[1..], b);
    } else {
      assert a + b == b;
    }
  }

  /** A whole connection: messages before the room settles, the
      settlement, and messages after it. */
  function Session(sessionId: string, before: seq<Message>, ok: bool, after: seq<Message>): Connection
  {
    var buffered := ReceiveAll(Open(sessionId), before);
    ReceiveAllEffect(Open(sessionId), before);
    ReceiveAll(Resolve(buffered, ok), after)
  }

  /** On success the engine sees the attachment first and then every
      message in arrival order, none dropped, none repeated. */
  lemma SessionDeliversInOrder(sessionId: string, before: seq<Message>, after: seq<Message>)
    ensures Session(sessionId, before, true, after).engine
         == [SocketConnected(sessionId)] + Deliveries(before + after)
    ensures Session(sessionId, before, true, after).phase == Attached
  {
    var buffered := ReceiveAll(Open(sessionId), before);
    ReceiveAllEffect(Open(sessionId), before);
    assert buffered.caught == before && buffered.engine == [];
    var attached := Resolve(buffered, true);
    assert attached.engine == [SocketConnected(sessionId)] + Deliveries(before);
    ReceiveAllEffect(attached, after);
    DeliveriesConcat(before, after);
    assert Session(sessionId, before, true, after) == ReceiveAll(attached, after);
  }

  /** On failure the socket is closed with 1011 and the engine sees nothing. */
  lemma SessionFailureDeliversNothing(sessionId: string, before: seq<Message>, after: seq<Message>)
    ensures Session(sessionId, before, false, after).engine == []
    ensures Session(sessionId, before, false, after).phase == Closed(InternalError)
  {
    var buffered := ReceiveAll(Open(sessionId), before);
    ReceiveAllEffect(Open(sessionId), before);
    ReceiveAllEffect(Resolve(buffered, false), after);
  }

  // ---------------------------------------------------------------------------
  // the connection handler
  // ---------------------------------------------------------------------------

  datatype Outcome =
    | Rejected(code: int, reason: string)
    | Failed(code: int, reason: string)
    | Connected(roomId: string, instance: nat)

  /** The `connection` handler up to the hand-off: validate, then resolve
      the room, then attach the session to its engine. */
  function HandleConnection(svc: Service, pathname: Option<string>, sessionId: Option<string>, faults: LoadFaults): (r: (Service, Outcome))
    ensures ValidateConnection(pathname, sessionId).Reject? ==>
      r == (svc, Rejected(PolicyViolation, ValidateConnection(pathname, sessionId).reason))
    ensures r.1.Failed? ==> r == (svc, Failed(InternalError, InternalErrorReason))
    ensures r.1.Failed? <==> ValidateConnection(pathname, sessionId).Accept?
                             && !Reusable(svc, ValidateConnection(pathname, sessionId).roomId) && faults.engineFails
    ensures r.1.Connected? ==>
      && r.1.roomId == ValidateConnection(pathname, sessionId).roomId
      && Bound(r.0, r.1.roomId, r.1.instance)
      && !r.0.rooms[r.1.roomId].room.closed
      && r.0.rooms[r.1.roomId].room.sessions >= 1
    ensures Valid(svc) ==> Valid(r.0)
  {
    match ValidateConnection(pathname, sessionId)
    case Reject(code, reason) => (svc, Rejected(code, reason))
    case Accept(roomId, sid) =>
      var (svc1, room) := MakeOrLoadRoom(svc, roomId, faults);
      match room
      case Err(_) => (svc1, Failed(InternalError, InternalErrorReason))
      case Ok(engine) => (AttachSession(svc1, roomId, engine.instance), Connected(roomId, engine.instance))
  }

  /** A request with no session id never reaches the registry: no room is
      created and no snapshot is read. */
  lemma MissingSessionCreatesNothing(svc: Service, roomId: string, faults: LoadFaults)
    requires roomId != "" && '/' !in roomId
    ensures HandleConnection(svc, Some(ConnectPath(roomId)), None, faults)
         == (svc, Rejected(PolicyViolation, MissingParameterReason))
  {
    ConnectPathSegments(roomId);
  }
}

=== FILE: whiteboard_rooms.dfy ===
/** The whiteboard room registry: a map from room id to the room's state,
    the get-or-create operation that every socket connection goes through,
    the two callbacks the document engine fires, and the periodic sweep
    that persists dirty rooms and evicts closed ones.

    Each operation is one atomic step: the promise-chain mutex that
    serializes `makeOrLoadRoom` and the timer that runs the sweep only
    decide the order of the steps. The document engine is a record with a
    closed flag, a session count and its current document; `instance`
    tells apart the engine objects created for the same room id, so a
    callback of a replaced engine can be told from one of the live engine. */
module WhiteboardRooms {

  import opened Common
  import opened SnapshotStore

  /** One document-engine object. */
  datatype Room = Room(instance: nat, closed: bool, sessions: nat, document: Snapshot)

  /** The registry entry of a room. */
  datatype RoomState = RoomState(room: Room, needsPersist: bool)

  datatype Service = Service(rooms: map<string, RoomState>, store: Store, nextInstance: nat)

  /** Every registered engine was created before `nextInstance`, so the
      next engine is distinct from all of them. */
  predicate Valid(svc: Service) {
    forall id :: id in svc.rooms ==> svc.rooms[id].room.instance < svc.nextInstance
  }

  /** The failures a room creation can meet: the snapshot read erring, and
      the engine constructor throwing. */
  datatype LoadFaults = LoadFaults(readFails: bool, engineFails: bool)

  datatype LoadError = EngineConstructionFailed

  /** An entry that `makeOrLoadRoom` hands back as it is. */
  predicate Reusable(svc: Service, roomId: string) {
    roomId in svc.rooms && !svc.rooms[roomId].room.closed
  }

  /** The live entry of `roomId` is the engine `instance`. */
  predicate Bound(svc: Service, roomId: string, instance: nat) {
    roomId in svc.rooms && svc.rooms[roomId].room.instance == instance
  }

  /** A freshly constructed engine: open, no sessions, and holding the
      loaded snapshot or else an empty document. */
  function NewRoom(instance: nat, initial: Option<Snapshot>): (r: Room)
    ensures r.instance == instance && !r.closed && r.sessions == 0
    ensures initial.Some? ==> r.document == initial.value
    ensures initial.None? ==> r.document == EmptyDocument
  {
    Room(instance, false, 0, initial.GetOr(EmptyDocument))
  }

  // ---------------------------------------------------------------------------
  // get-or-create
  // ---------------------------------------------------------------------------

  /** `makeOrLoadRoom`: reuse an open registered room; otherwise load the
      snapshot (a failed load is "no snapshot") and register a new engine
      under the id, replacing a closed entry. Only the engine constructor
      can fail, and then the registry is left as it was. */
  function MakeOrLoadRoom(svc: Service, roomId: string, faults: LoadFaults): (r: (Service, Result<Room, LoadError>))
    ensures Reusable(svc, roomId) ==> r == (svc, Ok(svc.rooms[roomId].room))
    ensures !Reusable(svc, roomId) && faults.engineFails ==> r == (svc, Err(EngineConstructionFailed))
    ensures !Reusable(svc, roomId) && !faults.engineFails ==>
      && r.1.Ok?
      && r.1.value.instance == svc.nextInstance
      && r.1.value == NewRoom(svc.nextInstance, ReadSnapshotIfExists(svc.store, roomId, faults.readFails))
      && r.0.rooms == svc.rooms[roomId := RoomState(r.1.value, false)]
      && r.0.store == svc.store
    ensures r.1.Ok? ==> roomId in r.0.rooms && r.0.rooms[roomId].room == r.1.value && !r.1.value.closed
    ensures Valid(svc) ==> Valid(r.0)
  {
    if Reusable(svc, roomId) then
      (svc, Ok(svc.rooms[roomId].room))
    else if faults.engineFails then
      (svc, Err(EngineConstructionFailed))
    else
      var initial := ReadSnapshotIfExists(svc.store, roomId, faults.readFails);
      var room := NewRoom(svc.nextInstance, initial);
      (Service(svc.rooms[roomId := RoomState(room, false)], svc.store, svc.nextInstance + 1), Ok(room))
  }

  /** Any number of calls for the same id made one after the other all
      resolve to the same engine, and only the first can change anything. */
  lemma MakeOrLoadRoomIdempotent(svc: Service, roomId: string, first: LoadFaults, second: LoadFaults)
    requires MakeOrLoadRoom(svc, roomId, first).1.Ok?
    ensures var (svc1, r1) := MakeOrLoadRoom(svc, roomId, first);
            MakeOrLoadRoom(svc1, roomId, second) == (svc1, r1)
  {
  }

  /** A queued creation request: the room id and the faults it will meet. */
  datatype LoadRequest = LoadRequest(roomId: string, faults: LoadFaults)

  /** The mutex chain: the requests run one after the other, and a failing
      request's error is caught into a value so that the next request
      still runs, on the registry the failing one left. */
  function RunQueue(svc: Service, requests: seq<LoadRequest>): (r: (Service, seq<Result<Room, LoadError>>))
    ensures |r.1| == |requests|
    ensures Valid(svc) ==> Valid(r.0)
    decreases |requests|
  {
    if |requests| == 0 then (svc, [])
    else
      var (svc1, result) := MakeOrLoadRoom(svc, requests[0].roomId, requests[0].faults);
      var (svc2, results) := RunQueue(svc1, requests[1..]);
      (svc2, [result] + results)
  }

  /** A failing request affects nobody else: dropping it from the queue
      leaves every other result and the final registry as they were. */
  lemma {:induction false} FailedRequestIsolated(svc: Service, requests: seq<LoadRequest>, i: nat)
    requires i < |requests|
    requires RunQueue(svc, requests).1[i].Err?
    ensures var (final, results) := RunQueue(svc, requests);
            RunQueue(svc, requests[..i] + requests[i + 1..]) == (final, results[..i] + results[i + 1..])
    decreases i
  {
    var step := MakeOrLoadRoom(svc, requests[0].roomId, requests[0].faults);
    var rest := requests[1..];
    var tail := RunQueue(step.0, rest);
    assert requests == [requests[0]] + rest;
    assert RunQueue(svc, requests) == (tail.0, [step.1] + tail.1);
    DropAt(requests[0], rest, i);
    DropAt(step.1, tail.1, i);
    if i == 0 {
      assert step.0 == svc;
    } else {
      assert tail.1[i - 1] == ([step.1] + tail.1)[i];
      FailedRequestIsolated(step.0, rest, i - 1);
      var shorter := requests[..i] + requests[i + 1..];
      assert shorter[0] == requests[0] && shorter[1..] == rest[..i - 1] + rest[i..];
    }
  }

  /** Dropping position `i` of `[x] + s`: `s` itself when `i` is 0, and
      otherwise `x` followed by `s` without position `i - 1`. */
  lemma DropAt<T>(x: T, s: seq<T>, i: nat)
    requires i <= |s|
    ensures i == 0 ==> ([x] + s)[..i] + ([x] + s)[i + 1..] == s
    ensures i > 0 ==> ([x] + s)[..i] + ([x] + s)[i + 1..] == [x] + (s[..i - 1] + s[i..])
  {
    if i == 0 {
      assert ([x] + s)[1..] == s;
    } else {
      assert ([x] + s)[..i] == [x] + s[..i - 1];
      assert ([x] + s)[i + 1..] == s[i..];
    }
  }

  /** While a room is open and registered, every queued request for it
      gets that engine: a request for another room never touches its
      entry, and a request for it finds it reusable. */
  lemma {:induction false} QueueReusesOpenRoom(svc: Service, requests: seq<LoadRequest>, roomId: string, room: Room)
    requires Reusable(svc, roomId) && svc.rooms[roomId].room == room
    ensures forall j :: 0 <= j < |requests| && requests[j].roomId == roomId ==> RunQueue(svc, requests).1[j] == Ok(room)
    decreases |requests|
  {
    if |requests| > 0 {
      var step := MakeOrLoadRoom(svc, requests[0].roomId, requests[0].faults);
      var tail := RunQueue(step.0, requests[1..]);
      assert RunQueue(svc, requests).1 == [step.1] + tail.1;
      assert Reusable(step.0, roomId) && step.0.rooms[roomId].room == room;
      QueueReusesOpenRoom(step.0, requests[1..], roomId, room);
      forall j | 0 <= j < |requests| && requests[j].roomId == roomId
        ensures RunQueue(svc, requests).1[j] == Ok(room)
      {
        if j > 0 {
          assert requests[1..][j - 1] == requests[j];
        }
      }
    }
  }

  /** Queued get-or-create calls for one room all get the same engine: once
      a request for the room has succeeded, every later request for it
      resolves to that engine. */
  lemma {:induction false} QueueSameEngine(svc: Service, requests: seq<LoadRequest>, i: nat, j: nat)
    requires i < j < |requests| && requests[i].roomId == requests[j].roomId
    requires RunQueue(svc, requests).1[i].Ok?
    ensures RunQueue(svc, requests).1[j] == RunQueue(svc, requests).1[i]
    decreases i
  {
    var step := MakeOrLoadRoom(svc, requests[0].roomId, requests[0].faults);
    var tail := RunQueue(step.0, requests[1..]);
    assert RunQueue(svc, requests).1 == [step.1] + tail.1;
    assert requests[1..][j - 1] == requests[j];
    if i == 0 {
      QueueReusesOpenRoom(step.0, requests[1..], requests[0].roomId, step.1.value);
    } else {
      assert requests[1..][i - 1] == requests[i];
      QueueSameEngine(step.0, requests[1..], i - 1, j - 1);
    }
  }

  // ---------------------------------------------------------------------------
  // engine callbacks and session bookkeeping
  // ---------------------------------------------------------------------------

  /** `onDataChange` of engine `instance`: marks the entry it was
      registered with as needing persistence. The callback of an engine
      that is no longer registered reaches no registry entry. */
  function OnDataChange(svc: Service, roomId: string, instance: nat): (r: Service)
    ensures Bound(svc, roomId, instance) ==>
      r.rooms == svc.rooms[roomId := svc.rooms[roomId].(needsPersist := true)]
    ensures !Bound(svc, roomId, instance) ==> r == svc
    ensures r.store == svc.store && r.nextInstance == svc.nextInstance
  {
    if Bound(svc, roomId, instance) then
      svc.(rooms := svc.rooms[roomId := svc.rooms[roomId].(needsPersist := true)])
    else svc
  }

  lemma OnDataChangeIdempotent(svc: Service, roomId: string, instance: nat)
    ensures OnDataChange(OnDataChange(svc, roomId, instance), roomId, instance) == OnDataChange(svc, roomId, instance)
  {
  }

  /** The callback touches no other entry and never clears a flag. */
  lemma OnDataChangeLocal(svc: Service, roomId: string, instance: nat, other: string)
    requires other != roomId
    ensures var r := OnDataChange(svc, roomId, instance);
            && r.rooms.Keys == svc.rooms.Keys
            && (other in svc.rooms ==> r.rooms[other] == svc.rooms[other])
            && (roomId in svc.rooms && svc.rooms[roomId].needsPersist ==> r.rooms[roomId].needsPersist)
  {
  }

  /** The engine `instance` changes its document and reports the change. */
  function ApplyEdit(svc: Service, roomId: string, instance: nat, document: Snapshot): (r: Service)
    ensures Bound(svc, roomId, instance) ==>
      r.rooms == svc.rooms[roomId := RoomState(svc.rooms[roomId].room.(document := document), true)]
    ensures !Bound(svc, roomId, instance) ==> r == svc
  {
    if Bound(svc, roomId, instance) then
      var entry := svc.rooms[roomId];
      OnDataChange(svc.(rooms := svc.rooms[roomId := entry.(room := entry.room.(document := document))]), roomId, instance)
    else svc
  }

  /** `handleSocketConnect`: one more session on the engine. */
  function AttachSession(svc: Service, roomId: string, instance: nat): (r: Service)
    ensures Bound(svc, roomId, instance) ==>
      r.rooms == svc.rooms[roomId := svc.rooms[roomId].(room := svc.rooms[roomId].room.(sessions := svc.rooms[roomId].room.sessions + 1))]
    ensures !Bound(svc, roomId, instance) ==> r == svc
  {
    if Bound(svc, roomId, instance) then
      var entry := svc.rooms[roomId];
      svc.(rooms := svc.rooms[roomId := entry.(room := entry.room.(sessions := entry.room.sessions + 1))])
    else svc
  }

  /** `onSessionRemoved`: the engine closes itself exactly when no session
      remains; the dirty flag and the document are kept. */
  function OnSessionRemoved(svc: Service, roomId: string, instance: nat, numSessionsRemaining: nat): (r: Service)
    ensures r.rooms.Keys == svc.rooms.Keys && r.store == svc.store && r.nextInstance == svc.nextInstance
    ensures forall id :: id in svc.rooms && id != roomId ==> r.rooms[id] == svc.rooms[id]
    ensures roomId in svc.rooms ==>
      && r.rooms[roomId].needsPersist == svc.rooms[roomId].needsPersist
      && r.rooms[roomId].room.document == svc.rooms[roomId].room.document
      && r.rooms[roomId].room.instance == svc.rooms[roomId].room.instance
    ensures Bound(svc, roomId, instance) ==>
      (r.rooms[roomId].room.closed <==> svc.rooms[roomId].room.closed || numSessionsRemaining == 0)
    ensures !Bound(svc, roomId, instance) ==> r == svc
  {
    if Bound(svc, roomId, instance) && numSessionsRemaining == 0 then
      var entry := svc.rooms[roomId];
      svc.(rooms := svc.rooms[roomId := entry.(room := entry.room.(closed := true))])
    else svc
  }

  /** A socket of engine `instance` goes away: the engine drops the session
      and reports how many remain. */
  function RemoveSession(svc: Service, roomId: string, instance: nat): (r: Service)
    ensures Bound(svc, roomId, instance) ==>
      && Bound(r, roomId, instance)
      && r.rooms[roomId].room.sessions == (if svc.rooms[roomId].room.sessions == 0 then 0 else svc.rooms[roomId].room.sessions - 1)
      && (r.rooms[roomId].room.closed <==> svc.rooms[roomId].room.closed || r.rooms[roomId].room.sessions == 0)
      && r.rooms[roomId].needsPersist == svc.rooms[roomId].needsPersist
      && r.rooms[roomId].room.document == svc.rooms[roomId].room.document
    ensures !Bound(svc, roomId, instance) ==> r == svc
    ensures r.store == svc.store && r.rooms.Keys == svc.rooms.Keys
  {
    if Bound(svc, roomId, instance) then
      var entry := svc.rooms[roomId];
      var remaining := if entry.room.sessions == 0 then 0 else entry.room.sessions - 1;
      var dropped := svc.(rooms := svc.rooms[roomId := entry.(room := entry.room.(sessions := remaining))]);
      OnSessionRemoved(dropped, roomId, instance, remaining)
    else svc
  }

  // ---------------------------------------------------------------------------
  // persistence sweep
  // ---------------------------------------------------------------------------

  /** How each room's write of a sweep ends; a room without an entry is
      written successfully. */
  type WriteFaults = map<string, WriteFault>

  function FaultOf(faults: WriteFaults, id: string): WriteFault {
    if id in faults then faults[id] else Succeeds
  }

  /** The rooms among `done` whose snapshot a sweep writes successfully. */
  function Persisted(svc: Service, done: set<string>, faults: WriteFaults): set<string>
  {
    set id | id in done && id in svc.rooms && svc.rooms[id].needsPersist && FaultOf(faults, id).Succeeds?
  }

  /** The rooms among `done` whose file a sweep truncates and then fails to
      write. */
  function Damaged(svc: Service, done: set<string>, faults: WriteFaults): set<string>
  {
    set id | id in done && id in svc.rooms && svc.rooms[id].needsPersist && FaultOf(faults, id).FailsAfterTruncate?
  }

  /** The registry after the sweep has handled the entries in `done`: each
      handled dirty entry has had its flag cleared and its document written
      (the write may fail, the flag stays cleared), and each handled closed
      entry has been deleted after that. */
  function PartialSweep(svc: Service, faults: WriteFaults, done: set<string>): Service
  {
    Service(
      map id | id in svc.rooms && (id !in done || !svc.rooms[id].room.closed) ::
        if id in done then svc.rooms[id].(needsPersist := false) else svc.rooms[id],
      SweptStore(svc, faults, done),
      svc.nextInstance)
  }

  /** The files after the sweep has handled the entries in `done`. */
  function SweptStore(svc: Service, faults: WriteFaults, done: set<string>): Store
  {
    var written := Persisted(svc, done, faults);
    var damaged := Damaged(svc, done, faults);
    map id | id in svc.store.Keys + written + damaged ::
      if id in written then Written(svc.rooms[id].room.document)
      else if id in damaged then Unparsable
      else svc.store[id]
  }

  /** Before any entry is handled the sweep has changed nothing. */
  lemma PartialSweepNone(svc: Service, faults: WriteFaults)
    ensures PartialSweep(svc, faults, {}) == svc
  {
    assert Persisted(svc, {}, faults) == {} && Damaged(svc, {}, faults) == {};
    assert SweptStore(svc, faults, {}) == svc.store;
    assert PartialSweep(svc, faults, {}).rooms == svc.rooms;
  }

  /** One tick of the persistence interval over every entry. */
  function Sweep(svc: Service, faults: WriteFaults): (r: Service)
    // every dirty entry has its current document written, unless that write fails
    ensures forall id :: id in svc.rooms && svc.rooms[id].needsPersist && FaultOf(faults, id).Succeeds? ==>
      id in r.store && r.store[id] == Written(svc.rooms[id].room.document)
    // a write failing after the truncation leaves a file that no longer parses
    ensures forall id :: id in svc.rooms && svc.rooms[id].needsPersist && FaultOf(faults, id).FailsAfterTruncate? ==>
      id in r.store && r.store[id] == Unparsable
    // clean entries, writes failing before the open and rooms without an entry leave their file alone
    ensures forall id :: id in svc.store && (id !in svc.rooms || !svc.rooms[id].needsPersist || FaultOf(faults, id).FailsBeforeOpen?) ==>
      id in r.store && r.store[id] == svc.store[id]
    ensures r.store.Keys == svc.store.Keys + Persisted(svc, svc.rooms.Keys, faults) + Damaged(svc, svc.rooms.Keys, faults)
    // open entries stay, with their flag cleared whatever became of the write
    ensures forall id :: id in svc.rooms && !svc.rooms[id].room.closed ==>
      id in r.rooms && r.rooms[id] == svc.rooms[id].(needsPersist := false)
    // closed entries are gone
    ensures forall id :: id in r.rooms ==> id in svc.rooms && !svc.rooms[id].room.closed
    ensures r.nextInstance == svc.nextInstance
    ensures Valid(svc) ==> Valid(r)
  {
    PartialSweep(svc, faults, svc.rooms.Keys)
  }

  /** The body of the sweep loop for one entry: when dirty, clear the flag
      and then write the document; then, when closed, delete the entry. */
  function SweepEntry(svc: Service, id: string, faults: WriteFaults): (r: Service)
    requires id in svc.rooms
  {
    var entry := svc.rooms[id];
    var persisted :=
      if entry.needsPersist then
        Service(svc.rooms[id := entry.(needsPersist := false)],
                SaveSnapshot(svc.store, id, entry.room.document, FaultOf(faults, id)),
                svc.nextInstance)
      else svc;
    if entry.room.closed then persisted.(rooms := persisted.rooms - {id}) else persisted
  }

  /** The sweep as the source runs it: the loop body applied to one entry
      at a time, in any order. */
  method PersistenceTick(svc: Service, faults: WriteFaults) returns (out: Service)
    ensures out == Sweep(svc, faults)
  {
    out := svc;
    PartialSweepNone(svc, faults);
    var pending := svc.rooms.Keys;
    while pending != {}
      invariant pending <= svc.rooms.Keys
      invariant out == PartialSweep(svc, faults, svc.rooms.Keys - pending)
      decreases pending
    {
      var id :| id in pending;
      var done := svc.rooms.Keys - pending;
      TickStep(svc, faults, done, id);
      out := SweepEntry(out, id, faults);
      pending := pending - {id};
      assert svc.rooms.Keys - pending == done + {id};
    }
    assert svc.rooms.Keys - pending == svc.rooms.Keys;
  }

  /** Handling one more entry extends the partial sweep by that entry. */
  lemma TickStep(svc: Service, faults: WriteFaults, done: set<string>, id: string)
    requires id in svc.rooms && id !in done
    ensures id in PartialSweep(svc, faults, done).rooms
    ensures SweepEntry(PartialSweep(svc, faults, done), id, faults)
         == PartialSweep(svc, faults, done + {id})
  {
    var before := PartialSweep(svc, faults, done);
    assert before.rooms[id] == svc.rooms[id];
    var after := SweepEntry(before, id, faults);
    var next := PartialSweep(svc, faults, done + {id});
    TickStepRooms(svc, faults, done, id);
    TickStepStore(svc, faults, done, id);
    assert after.rooms == next.rooms;
    assert after.store == next.store;
  }

  lemma TickStepRooms(svc: Service, faults: WriteFaults, done: set<string>, id: string)
    requires id in svc.rooms && id !in done
    ensures id in PartialSweep(svc, faults, done).rooms
    ensures SweepEntry(PartialSweep(svc, faults, done), id, faults).rooms
         == PartialSweep(svc, faults, done + {id}).rooms
  {
    var before := PartialSweep(svc, faults, done);
    assert before.rooms[id] == svc.rooms[id];
    var after := SweepEntry(before, id, faults).rooms;
    var next := PartialSweep(svc, faults, done + {id}).rooms;
    forall k ensures k in after <==> k in next {}
    forall k | k in after ensures after[k] == next[k] {}
  }

  lemma TickStepStore(svc: Service, faults: WriteFaults, done: set<string>, id: string)
    requires id in svc.rooms && id !in done
    ensures id in PartialSweep(svc, faults, done).rooms
    ensures SweepEntry(PartialSweep(svc, faults, done), id, faults).store
         == PartialSweep(svc, faults, done + {id}).store
  {
    var before := PartialSweep(svc, faults, done);
    var entry := svc.rooms[id];
    assert before.rooms[id] == entry;
    var fault := FaultOf(faults, id);
    var store := SweptStore(svc, faults, done);
    var next := SweptStore(svc, faults, done + {id});
    assert SweepEntry(before, id, faults).store
        == if entry.needsPersist then SaveSnapshot(store, id, entry.room.document, fault) else store;
    StepOtherKeys(svc, faults, done, id);
    if !entry.needsPersist || fault.FailsBeforeOpen? {
      assert id !in Persisted(svc, done + {id}, faults) && id !in Damaged(svc, done + {id}, faults);
      SweptStoreAgrees(svc, faults, done, id, store);
    } else if fault.Succeeds? {
      assert id in Persisted(svc, done + {id}, faults);
      SweptStoreAgrees(svc, faults, done, id, store[id := Written(entry.room.document)]);
    } else {
      assert id in Damaged(svc, done + {id}, faults) && id !in Persisted(svc, done + {id}, faults);
      SweptStoreAgrees(svc, faults, done, id, store[id := Unparsable]);
    }
  }

  /** A store that agrees with the partial sweep on every other room and
      with the extended one on `id` is the extended one. */
  lemma SweptStoreAgrees(svc: Service, faults: WriteFaults, done: set<string>, id: string, s: Store)
    requires forall k :: k != id ==>
      && (k in Persisted(svc, done + {id}, faults) <==> k in Persisted(svc, done, faults))
      && (k in Damaged(svc, done + {id}, faults) <==> k in Damaged(svc, done, faults))
    requires forall k :: k != id ==> (k in s <==> k in SweptStore(svc, faults, done))
    requires forall k :: k != id && k in s ==> s[k] == SweptStore(svc, faults, done)[k]
    requires id in s <==> id in SweptStore(svc, faults, done + {id})
    requires id in s ==> s[id] == SweptStore(svc, faults, done + {id})[id]
    ensures s == SweptStore(svc, faults, done + {id})
  {
    var next := SweptStore(svc, faults, done + {id});
    forall k ensures k in s <==> k in next {}
    forall k | k in s ensures s[k] == next[k] {}
  }

  /** Handling `id` decides nothing about any other room's file. */
  lemma StepOtherKeys(svc: Service, faults: WriteFaults, done: set<string>, id: string)
    ensures forall k :: k != id ==>
      && (k in Persisted(svc, done + {id}, faults) <==> k in Persisted(svc, done, faults))
      && (k in Damaged(svc, done + {id}, faults) <==> k in Damaged(svc, done, faults))
  {
  }

  /** A tick over quiescent rooms writes nothing. */
  lemma QuiescentTickWritesNothing(svc: Service, faults: WriteFaults)
    requires forall id :: id in svc.rooms ==> !svc.rooms[id].needsPersist
    ensures Sweep(svc, faults).store == svc.store
  {
    assert Persisted(svc, svc.rooms.Keys, faults) == {};
    assert Damaged(svc, svc.rooms.Keys, faults) == {};
  }

  /** After a tick no entry is dirty; a second tick with no edit in between
      writes nothing more. */
  lemma SecondTickWritesNothing(svc: Service, first: WriteFaults, second: WriteFaults)
    ensures var once := Sweep(svc, first);
            Sweep(once, second).store == once.store
  {
    var once := Sweep(svc, first);
    QuiescentTickWritesNothing(once, second);
  }

  /** A failed write is not retried: the flag is already cleared, so the
      next tick does not write the room again and the unsaved edits stay
      unsaved. A failure before the open keeps the old file; one after the
      truncation leaves a file that reads as no snapshot at all. */
  lemma FailedWriteIsNotRetried(svc: Service, id: string, first: WriteFaults, second: WriteFaults)
    requires id in svc.rooms && svc.rooms[id].needsPersist && !svc.rooms[id].room.closed
    requires !FaultOf(first, id).Succeeds?
    ensures var once := Sweep(svc, first);
            && id in once.rooms && !once.rooms[id].needsPersist
            && (FaultOf(first, id).FailsBeforeOpen? && id in svc.store ==> Sweep(once, second).store[id] == svc.store[id])
            && (FaultOf(first, id).FailsBeforeOpen? && id !in svc.store ==> id !in Sweep(once, second).store)
            && (FaultOf(first, id).FailsAfterTruncate? ==>
                  ReadSnapshotIfExists(Sweep(once, second).store, id, false).None?)
  {
    var once := Sweep(svc, first);
    SecondTickWritesNothing(svc, first, second);
  }

  /** An edit survives eviction: edit a room with one session, tick, let
      the last session go, tick again (the room is evicted), and a later
      connection loads exactly the edited document into a new engine. */
  lemma EditSurvivesEviction(svc: Service, id: string, document: Snapshot, first: WriteFaults, second: WriteFaults)
    requires Valid(svc)
    requires Reusable(svc, id) && svc.rooms[id].room.sessions == 1
    requires FaultOf(first, id).Succeeds?
    ensures var instance := svc.rooms[id].room.instance;
            var edited := ApplyEdit(svc, id, instance, document);
            var ticked := Sweep(edited, first);
            var left := RemoveSession(ticked, id, instance);
            var evicted := Sweep(left, second);
            var (reloaded, room) := MakeOrLoadRoom(evicted, id, LoadFaults(false, false));
            && id !in evicted.rooms
            && room.Ok? && room.value.document == document && room.value.instance != instance
  {
    var instance := svc.rooms[id].room.instance;
    var edited := ApplyEdit(svc, id, instance, document);
    var ticked := Sweep(edited, first);
    assert ticked.store[id] == Written(document);
    var left := RemoveSession(ticked, id, instance);
    assert left.rooms[id].room.closed && !left.rooms[id].needsPersist;
    var evicted := Sweep(left, second);
    assert evicted.store[id] == Written(document);
  }

  /** Eviction of a closed dirty room writes its final document first. */
  lemma ClosedDirtyRoomPersistedBeforeEviction(svc: Service, id: string, faults: WriteFaults)
    requires id in svc.rooms && svc.rooms[id].room.closed && svc.rooms[id].needsPersist
    requires FaultOf(faults, id).Succeeds?
    ensures var r := Sweep(svc, faults);
            id !in r.rooms && ReadSnapshotIfExists(r.store, id, false) == Some(svc.rooms[id].room.document)
  {
  }

  /** A transient read error starts the room empty even though a snapshot
      exists, and the next edit and tick overwrite that snapshot. */
  lemma ReadErrorOverwritesSnapshot(svc: Service, id: string, saved: Snapshot, document: Snapshot)
    requires Valid(svc) && !Reusable(svc, id)
    requires id in svc.store && svc.store[id] == Written(saved)
    ensures var (loaded, room) := MakeOrLoadRoom(svc, id, LoadFaults(true, false));
            && room.Ok? && room.value.document == EmptyDocument
            && var ticked := Sweep(ApplyEdit(loaded, id, room.value.instance, document), map[]);
               ticked.store[id] == Written(document)
  {
  }
}
